=== FILE: README.md ===
# Memecoin Factory — decision rules in Dafny

Memecoin Factory is a command-line tool for Solana. Its `create` command makes
an SPL token whose mint and freeze authorities are revoked right after the
initial supply is minted. It can also attach Metaplex metadata with a logo
stored on IPFS through Pinata, and lock that metadata. Its `burn` command
destroys tokens from the caller's account behind a three-step confirmation.

This project models the pure decision rules under that orchestration. They
are stated as functions over immutable datatypes:

- the token-parameter checks, and how command-line values and prompt answers
  are merged into a token configuration;
- image-path validation, including an exact model of Node's `path.extname`;
- the two commands as functions from options, environment answers and a
  ledger to a run record: exit code, final ledger, how the run ended, and the
  errors it reported;
- token creation and burning over an abstract single-mint ledger;
- the derivation of the three authorities' status, and the one-way metadata lock;
- the first-match-wins error classification tables of the IPFS upload, the
  metadata step and the error display;
- the string helpers: explorer links, gateway URIs, MIME types and upload file names.

Everything the tool asks of the outside world is an input value:

- the keypair;
- the file-system facts for an image path;
- the node's rent-exemption answer behind the cost estimate;
- the wallet's balance shortfall;
- the user's answers to each prompt;
- what Pinata, the RPC node and the metadata program answer.

Each prompt is a sequence of attempts. The first attempt the prompt's
validator accepts is taken. Running out of attempts stands for the user
force-closing the prompt, which the command's outer handler turns into exit 1.
A yes/no question is answered with one key: yes, no, Enter (the default) or
close, and closing it also ends the command with exit 1.

Numbers are JavaScript numbers idealised as `NaN`, `±Infinity` or an exact
decimal `digits · 10^-scale`. `Math.round` is exact round-half-up, and
`BigInt` of a fractional value is the `RangeError` it throws. `String(x)`
follows Number::toString (section 6.1.6.1.20 of ECMA-262): positional from
10^-6 up to 10^21, exponent form outside. String lengths are counted in UTF-16
code units, as JavaScript's `length` counts them. Token amounts on chain are
unsigned 64-bit integers.

Modules follow the source: `TokenValidation` (src/lib/validation.ts),
`ImageValidation` (src/utils/validation.ts), `Prompts`
(src/utils/prompts.ts), `Token` (src/lib/token.ts), `Burn` (src/lib/burn.ts),
`Authority` (src/services/authority.ts), `Ipfs` (src/services/ipfs.ts),
`Metadata` (src/services/metadata.ts), `Display` (src/utils/display.ts),
`CreateCommand` and `BurnCommand` (src/commands/). The supporting modules are:

- `Ledger`: the abstract chain state and the effect of each instruction.
- `JsNumber`: the idealised numbers.
- `Text`: case mapping, UTF-16 length, `includes`, `trim` and number rendering.
- `Rules`: first-match tables.
- `Errors`: the parts of a thrown error that get inspected.
- `Cluster`: endpoint selection.
- `Wrappers`: `Option` and `Result`.

The model follows the code as written, including where its behaviour is surprising:

- A fractional supply does not mint `supply × 10^decimals`. `BigInt`
  throws after the mint and the account already exist, so a live mint with
  both authorities still held is left behind (`Token.FractionalSupplyLeavesLiveMint`).
- A name or symbol given as a flag is not length-checked. Only prompted
  values are (`CreateCommand.NameOptionNotLengthChecked`).
- The decimals option defaults to "9", so the decimals prompt is never reached
  from `create` (`CreateCommand.DecimalsNeverPrompted`).
- Any cluster name other than exactly `mainnet-beta` connects to devnet,
  including `testnet`. Explorer links still carry `?cluster=<name>` for it
  (`Cluster.OnlyExactNameReachesMainnet`).
- A supply whose raw amount exceeds 2^64 − 1, such as 100 000 000 000 tokens
  with 9 decimals, passes every option check. In the model, `Ledger.Apply`
  refuses the supply instruction, so creation fails after the mint exists
  (`Token.OversizedSupplyLeavesLiveMint`). The SDK's instruction encoder may
  instead truncate the amount, which this model does not follow.
- A prompted symbol is checked before it is upper-cased. Under the ASCII
  case mapping modelled here its length is unchanged
  (`Text.UpperKeepsUtf16Length`). JavaScript's full `toUpperCase` can
  lengthen it: ten 'ß' pass the 10-unit check and are stored as twenty 'S'.
- The dry-run plan lists the metadata account before the two revocations.
  A real run revokes both inside token creation, before any metadata exists
  (`CreateCommand.PlanOrderDiffersFromRun`).
- The metadata program attaches metadata to an existing mint only with the
  mint authority's signature, and that authority is already revoked. So
  after a successful creation the metadata step always fails with the generic
  "Metadata creation failed" message (`Metadata.RevokedMintGenericFailure`).
  The failure is only reported, the run still exits 0 unless the status read
  fails, and the lock question is never reached (`CreateCommand.MetadataNeverAttaches`,
  `CreateCommand.LockNeverReached`).
- A failing account read in the burn lookup, such as an RPC timeout, is
  reported as "No token account found" even when the account exists
  (`BurnCommand.LookupReadFailureExitsOne`).
- A mint read that fails after a successful creation ends the run with
  exit 1 under "token creation", although the token exists with both
  authorities revoked (`CreateCommand.ReadFailureAfterCreation`).
- A burn can land and still be reported as failed, when its confirmation
  times out or the supply read after it fails. The command exits 1, but the
  tokens are gone, so running it again burns a second time
  (`BurnCommand.LandedBurnFailureExitsOne`).

## Model

| member | source | states |
|---|---|---|
| TokenValidation.ValidateDecimals | src/lib/validation.ts:24-26 | accepted iff the number is an integer whose value is between 0 and 9 |
| TokenValidation.ValidateSupply | src/lib/validation.ts:33-35 | accepted iff the number is not NaN and above zero (a positive decimal or +Infinity) |
| TokenValidation.ValidateName | src/lib/validation.ts:6-8 | accepted only for 1 to 32 characters; 1 to 16 characters always pass; without astral characters (emoji) exactly 1 to 32 pass |
| TokenValidation.ValidateSymbol | src/lib/validation.ts:15-17 | accepted only for 1 to 10 characters; 1 to 5 characters always pass; without astral characters exactly 1 to 10 pass |
| TokenValidation.SymbolsAreNames | src/lib/validation.ts:6-17 | the empty string is neither a name nor a symbol; every valid symbol is a valid name |
| TokenValidation.DecimalsAcceptExactlyDigits | src/lib/validation.ts:24-26 | on whole numbers the check accepts exactly 0..9 |
| TokenValidation.FractionalDecimalsRejected | src/lib/validation.ts:25 | 2.5 is refused although it lies inside the range |
| TokenValidation.EmojiCountTwice | src/lib/validation.ts:6-8 | 16 astral-plane characters make a valid name and 17 do not, because each counts as two UTF-16 units; 32 ASCII letters are valid |
| Text.Utf16Length | src/lib/validation.ts:7 | between the character count and twice it; equal to the count iff no character is outside the basic plane, twice it iff every character is |
| Text.UpperKeepsUtf16Length | src/utils/prompts.ts:43 | under ASCII case mapping, upper-casing keeps the UTF-16 length, so an accepted symbol stays valid once upper-cased |
| ImageValidation.ScanExtName | src/utils/validation.ts:30 | Node's backwards-scan `extname` algorithm returns exactly the component-based definition: the suffix from the last dot of the last component, empty for no dot, a leading dot only, or ".." |
| ImageValidation.ExtName | src/utils/validation.ts:30 | empty, or a '.' followed by characters that are neither '/' nor '.' |
| ImageValidation.ValidateImagePath | src/utils/validation.ts:17-60 | valid iff no error; valid iff the file is accessible, its lower-cased extension is whitelisted, stat succeeds and the size is at most 10 MiB |
| ImageValidation.MissingFileWins | src/utils/validation.ts:19-27 | an inaccessible path gets "File not found: <path>" whatever its extension or size |
| ImageValidation.BadExtensionWins | src/utils/validation.ts:29-38 | an existing file with a non-image extension is invalid with an "Invalid image format: " error, whatever its size |
| ImageValidation.StatFailureReported | src/utils/validation.ts:54-59 | a throwing `stat` becomes an invalid result "Validation error: <message>" instead of an exception |
| ImageValidation.SizeCapIsInclusive | src/utils/validation.ts:40-50 | 10485760 bytes pass, 10485761 bytes fail |
| ImageValidation.ExtensionCheckIgnoresCase | src/utils/validation.ts:30 | a path and its upper-cased form have the same checked extension |
| ImageValidation.UpperCaseLogoAccepted | src/utils/validation.ts:30-31 | `LOGO.PNG` is checked as ".png" |
| Prompts.FirstAccepted | src/utils/prompts.ts:19-27 | the index found is the first attempt the validator accepts; none iff every attempt is refused |
| Prompts.Ask | src/utils/prompts.ts:19-27 | a validated prompt returns the first accepted attempt iff one exists, otherwise the force-close error |
| Prompts.RejectedAttemptReasks | src/utils/prompts.ts:21-26 | a refused attempt only leads to the question being asked again |
| Prompts.ValidatorsAgreeWithLibrary | src/utils/prompts.ts:21-70 | each prompt validator accepts exactly what the matching library check accepts |
| Prompts.DecimalsDefaultAccepted | src/utils/prompts.ts:48-57 | an empty decimals answer is the default 9 and accepted; a non-number gets "Decimals is required" |
| Prompts.AcceptedDecimals | src/utils/prompts.ts:51-56 | an accepted decimals answer is a whole number from 0 to 9 |
| Prompts.PromptDescription | src/utils/prompts.ts:105-112 | answered iff an attempt exists; the result is the answer, or the default text for an empty answer, and never empty |
| Prompts.PromptImagePath | src/utils/prompts.ts:118-139 | closed iff no attempt is blank or valid; otherwise the first such attempt, trimmed, or none when it is blank; a returned path validates |
| Prompts.BlankImageSkips | src/utils/prompts.ts:124-126 | a whitespace-only answer skips the logo |
| Prompts.InvalidImageReasks | src/utils/prompts.ts:131-136 | an answer neither blank nor valid is asked again |
| Prompts.ValidImageTrimmed | src/utils/prompts.ts:129-138 | a valid path typed with surrounding spaces is returned trimmed |
| Prompts.Confirm | src/utils/prompts.ts:95-98 | yes gives true, no gives false, Enter gives the default, close gives the force-close error |
| Prompts.PromptConfirmation | src/utils/prompts.ts:94-99 | the force-close error iff closed; otherwise true iff the user answers yes (default no) |
| Prompts.PromptLockMetadata | src/utils/prompts.ts:145-152 | the force-close error iff closed; otherwise true iff the user answers yes (default no) |
| Prompts.FillName | src/utils/prompts.ts:17-28 | a non-empty given name is kept; otherwise answered iff some attempt has 1..32 UTF-16 units, and the first such attempt is stored |
| Prompts.FillSymbol | src/utils/prompts.ts:30-44 | a non-empty given symbol is kept; otherwise answered iff some attempt has 1..10 UTF-16 units, and the first such attempt is stored upper-cased, still valid under ASCII case mapping |
| Prompts.FillDecimals | src/utils/prompts.ts:46-59 | given decimals are kept; otherwise answered iff some attempt is accepted, storing the whole value of the first, at most 9 |
| Prompts.FillSupply | src/utils/prompts.ts:61-74 | a truthy given supply is kept; otherwise answered iff some attempt passes the supply check, and the first such is stored |
| Prompts.FillDescription | src/utils/prompts.ts:76-79 | a non-empty given description is kept; otherwise answered iff an attempt exists, storing it or the default for an empty one; never empty |
| Prompts.FillImage | src/utils/prompts.ts:81-84 | a given path (even empty) is kept; otherwise answered iff some attempt is blank or valid, storing the first such trimmed, or none when blank |
| Prompts.PromptTokenConfig | src/utils/prompts.ts:12-87 | given fields are kept unchanged, prompted ones satisfy their validators (the symbol under ASCII case mapping), the description is never empty, and closing any prompt yields the force-close error |
| Prompts.PromptTokenConfigSucceedsIff | src/utils/prompts.ts:12-87 | the session completes iff every missing field has an attempt its validator accepts (any attempt for the description, a blank or valid one for the logo) |
| Prompts.PromptedFieldsAreFirstAccepted | src/utils/prompts.ts:12-87 | each prompted field stores the first accepted attempt: the symbol upper-cased, decimals as the parsed value, the description defaulted when empty, the logo trimmed or none |
| Prompts.CompleteConfigAsksNothing | src/utils/prompts.ts:15-86 | a fully given configuration needs no answers and is returned as given |
| Prompts.UnansweredNameCloses | src/utils/prompts.ts:18-27 | a missing name with no answer closes the session |
| Prompts.EmptyNameIsAsked | src/utils/prompts.ts:18-27 | an empty given name is asked for; a 33-character answer is refused and the next one taken |
| Token.Send | src/lib/token.ts:48-94 | instructions run in order and stop at the first failure; the ledger reached is the effect of the prefix that went through |
| Token.RawSupply | src/lib/token.ts:66 | defined iff the supply is an integer, and then equal to supply × 10^decimals |
| Token.CreateToken | src/lib/token.ts:43-103 | succeeds iff all five steps complete; the result reports the network's addresses and signatures, the revoke signatures mint first then freeze, and the raw supply |
| Token.CreateTokenIsPrefix | src/lib/token.ts:48-94 | the ledger left behind is exactly the effect of the instructions that completed: fail-fast, never rolled back |
| Token.PrepareOnFreshLedger | src/lib/token.ts:48-63 | on a fresh ledger steps 1 and 2 give a mint with the payer as both authorities and an empty account |
| Token.FinishAfterPrepare | src/lib/token.ts:65-94 | steps 3 to 5 succeed iff the amount is a 64-bit amount that keeps the supply within 2^64 − 1, then revoke both authorities and add the amount to supply and balance |
| Token.FinishRevokes | src/lib/token.ts:76-94 | a successful finishing stage leaves both authorities revoked |
| Token.CreateTokenOnFreshLedger | src/lib/token.ts:43-103 | on a fresh ledger creation succeeds iff the supply is an integer whose raw amount lies in 0..2^64 − 1, leaving a revoked mint whose whole supply is in the payer's account |
| Token.FractionalSupplyLeavesLiveMint | src/lib/token.ts:66 | a fractional supply fails with the BigInt error after the mint exists, with both authorities still held |
| Token.OversizedSupplyLeavesLiveMint | src/lib/token.ts:66-74 | a whole supply whose raw amount exceeds 2^64 − 1 is refused by the model's supply instruction, leaving the mint with both authorities held and no supply |
| Token.HundredBillionWithNineDecimalsOverflows | src/lib/token.ts:66 | 100 000 000 000 tokens at 9 decimals is a raw amount beyond 2^64 − 1 |
| Token.VerifyAuthorities | src/lib/token.ts:111-121 | a failing `getMint` read fails with that read's error and a missing mint with "account not found"; otherwise each authority reads as its holder or none |
| Token.CreatedMintIsRevoked | src/lib/token.ts:76-94 | after any successful creation both authorities read back as revoked, and stay so under any later instructions |
| Token.EstimateCost | src/lib/token.ts:128-146 | fees are one 5000-lamport fee per instruction of the five-step sequence; total is rent plus fees |
| Ledger.RevokedAuthorityIsPermanent | src/lib/token.ts:83 | an authority set to none stays none whatever is sent afterwards |
| Ledger.SupplyFixedWithoutMintAuthority | src/lib/token.ts:76-84 | once the mint authority is revoked the supply can only shrink |
| Ledger.LockIsPermanent | src/services/authority.ts:112-117 | immutable metadata stays immutable whatever is sent afterwards |
| Burn.GetBurnInfo | src/lib/burn.ts:27-61 | a missing or unreadable token account gives the "No token account found" error; after it, a failing mint read gives that read's error; otherwise the balance, supply and decimals read from the ledger |
| Burn.InsufficientMessage | src/lib/burn.ts:91-97 | the message opens with the requested amount and names the raw balance and the raw requested amount |
| Burn.RawAmount | src/lib/burn.ts:85 | defined iff the amount is finite; the result is amount × 10^decimals rounded half up (within half a unit) |
| Burn.BurnTokens | src/lib/burn.ts:73-125 | the ledger changes only by the requested burn; a failure leaves it unchanged unless it came after the burn landed; a success burns a raw amount between 0 and the balance, lowering balance and supply by it, and reports the requested amount and mint unchanged |
| Burn.ShortBalanceRefused | src/lib/burn.ts:88-98 | a raw amount above the balance is refused with the "Insufficient balance" message and nothing changes |
| Burn.LandedBurnCanStillFail | src/lib/burn.ts:103-115 | a failure after the burn landed is reported as an error while balance and supply are already lowered by the raw amount |
| Burn.BurnSucceedsIff | src/lib/burn.ts:85-112 | without network failure the burn succeeds iff the account exists and the raw amount is between 0 and the balance |
| Burn.WholeBalanceBurnable | src/lib/burn.ts:90 | burning exactly the balance succeeds and empties the account |
| Burn.BurnLowersSupplyAndBalance | src/lib/burn.ts:100-116 | supply and balance drop by the same raw amount; authorities, decimals and metadata are untouched |
| Burn.TinyAmountBurnsNothing | src/lib/burn.ts:85 | 0.4 tokens at 0 decimals rounds to 0 and the burn changes nothing |
| Burn.ShortfallExample | src/lib/burn.ts:91-97 | burning 5 from a balance of 3 reports a shortfall of 2 |
| BurnCommand.Gate | src/commands/burn.ts:77-118 | proceeds iff `--yes`, or yes at the first question, "BURN" typed at some attempt, and yes at the final question; closed iff a question is closed before a decline |
| BurnCommand.TypedWordIsCaseSensitive | src/commands/burn.ts:98-104 | "burn" and "Burn" never pass; "BURN" does |
| BurnCommand.RunBurn | src/commands/burn.ts:24-147 | exit 0 iff cancelled or burned; the endpoint follows the cluster; the ledger changes only by the confirmed burn; a failed burn that changed it failed after landing and exits 1 with that error |
| BurnCommand.NoBurnWithoutConsent | src/commands/burn.ts:77-118 | a changed ledger implies `--yes` or all three confirmations |
| BurnCommand.DecliningExitsCleanly | src/commands/burn.ts:87-115 | declining (no or Enter) either yes/no question exits 0 with no burn and no error |
| BurnCommand.ClosingExitsOne | src/commands/burn.ts:87-110 | closing the first or the last question exits 1 with the force-close error under the burn context and no change |
| BurnCommand.YesSkipsGate | src/commands/burn.ts:77 | under `--yes` the answers make no difference |
| BurnCommand.AmountRule | src/commands/burn.ts:45-53 | the amount is refused (exit 1, no change) iff it is NaN or not above zero |
| BurnCommand.MissingAccountExitsOne | src/commands/burn.ts:55-62 | a missing account exits 1 with the lookup error reported |
| BurnCommand.LookupReadFailureExitsOne | src/commands/burn.ts:55-62 | a failing account or mint read in the lookup exits 1 with no change and one report under the lookup context: "No token account found" for the account read, the read's own error for the mint read |
| BurnCommand.LandedBurnFailureExitsOne | src/commands/burn.ts:120-138 | a burn that lands and then fails exits 1 under the burn context with the balance already lowered |
| BurnCommand.ConfirmedBurnOutcome | src/commands/burn.ts:120-138 | with both lookup reads succeeding, a confirmed burn within the balance exits 0 lowering it by the raw amount; beyond it exits 1 with no change |
| BurnCommand.RawOfAcceptedAmount | src/lib/burn.ts:85 | an accepted finite amount converts to a non-negative raw amount |
| BurnCommand.InfiniteAmountFails | src/commands/burn.ts:46-47 | Infinity passes the option check but the burn fails with exit 1 and no change |
| Cluster.RpcUrl | src/commands/create.ts:59 | the mainnet endpoint iff the cluster is exactly `mainnet-beta`, otherwise devnet |
| Cluster.OnlyExactNameReachesMainnet | src/commands/burn.ts:30 | `testnet`, `Mainnet-Beta` and `mainnet` all connect to devnet |
| Authority.Describe | src/services/authority.ts:72-82 | revoked iff no holder; yours iff the holder is the payer; never both |
| Authority.GetAuthorityStatus | src/services/authority.ts:40-89 | fails iff the mint read fails (with its error) or the mint is missing; the mint and freeze rows describe the mint's holders (revoked iff none, yours iff the payer); missing or unreadable metadata reads as no authority and not mutable; readable metadata is copied and is yours iff its update authority is the payer |
| Authority.MintRowsIgnoreMetadata | src/services/authority.ts:45-49 | the mint and freeze rows depend on the mint and its read alone |
| Authority.MissingMetadataReadsImmutable | src/services/authority.ts:51-68 | missing or unreadable metadata reads as no authority, not mutable, not yours |
| Authority.CreatedTokenShowsRevoked | src/services/authority.ts:72-82 | a token this tool created, under any later instructions, reads without error iff its mint read succeeds, and then reports both authorities revoked and not yours |
| Authority.RevokeMetadataAuthority | src/services/authority.ts:100-121 | a success requires mutable metadata whose update authority is the payer, and only sets `isMutable` to false; a failure changes nothing |
| Authority.RevokeShowsImmutable | src/services/authority.ts:112-117 | after revoking, the status reads immutable with the authority still recorded, and the mint rows are unchanged |
| Authority.SecondRevokeRefused | src/services/authority.ts:93 | a second revoke is refused as immutable and changes nothing |
| Authority.OnlyUpdateAuthorityRevokes | src/services/authority.ts:98 | a payer that is not the update authority cannot revoke |
| Ipfs.PinataClient | src/services/ipfs.ts:28-47 | a client iff the JWT is set and non-empty; otherwise the error that names PINATA_JWT |
| Ipfs.GatewayUri | src/services/ipfs.ts:88-91 | the gateway prefix followed by the content id |
| Ipfs.GatewayUriInjective | src/services/ipfs.ts:90 | different content ids give different URIs |
| Ipfs.MimeType | src/services/ipfs.ts:54-65 | the table entry for the lower-cased extension, image/png otherwise |
| Ipfs.MimeTableMatchesWhitelist | src/services/ipfs.ts:56-62 | the MIME table covers exactly the validated image extensions |
| Ipfs.MimeTypeIgnoresCase | src/services/ipfs.ts:55 | a path and its upper-cased form get the same MIME type |
| Ipfs.FileName | src/services/ipfs.ts:80 | "image" for an empty path or one ending in '/'; otherwise exactly the non-empty suffix after the last '/' |
| Ipfs.FileNameOfJoinedPath | src/services/ipfs.ts:80 | `dir/name` uploads under `name` |
| Ipfs.ClassifiersFollowTables | src/services/ipfs.ts:93-146 | both upload catch chains are the first-match reading of their ordered tables |
| Ipfs.MappedError | src/services/ipfs.ts:93-146 | a JWT error is rethrown as is; every other class becomes a new plain error; the missing-file message names the path; the generic message carries the prefix and the original message |
| Ipfs.MissingImageMessage | src/services/ipfs.ts:98-107 | the message names the path it looked for |
| Ipfs.MetadataUploadSkipsMissingFile | src/services/ipfs.ts:176-209 | the metadata upload classifies like the image upload except that it has no missing-file class |
| Ipfs.FirstMatchWins | src/services/ipfs.ts:94-117 | a JWT error wins over every other test; an auth status wins over later tests |
| Ipfs.UploadImage | src/services/ipfs.ts:73-148 | succeeds iff client, read and upload succeed, returning the gateway URI; any failure goes through the image mapping |
| Ipfs.UploadMetadata | src/services/ipfs.ts:156-220 | succeeds iff client and upload succeed, returning the gateway URI; a missing JWT is rethrown as is; an upload failure goes through the metadata mapping |
| Ipfs.MissingJwtPassesThrough | src/services/ipfs.ts:94-96 | without a JWT the image upload fails with the JWT error itself |
| Ipfs.MissingFileReported | src/services/ipfs.ts:98-107 | an ENOENT read error is reported with the image path |
| Metadata.ClassifierFollowsTable | src/services/metadata.ts:93-131 | the catch chain is the first-match reading of its ordered table |
| Metadata.ClassifyMetadataError | src/services/metadata.ts:93-131 | the class is the first-match reading of the ordered table |
| Metadata.MapMetadataError | src/services/metadata.ts:93-142 | the error is rethrown unchanged iff it mentions PINATA_JWT |
| Metadata.CreateTokenMetadata | src/services/metadata.ts:44-143 | a failure changes nothing; a success needs the payer to hold the mint authority, uploads JSON naming the config and image URI, sets the account field to the signature, and creates one mutable metadata record owned by the payer |
| Metadata.MetadataLinksUp | src/services/metadata.ts:58-92 | the result's URIs are the gateway URIs of the two uploads |
| Metadata.ImageFailureStopsEarly | src/services/metadata.ts:58-59 | a failed image upload stops before the JSON upload and changes nothing |
| Metadata.SecondMetadataRefused | src/services/metadata.ts:99-107 | a mint with metadata gets the "already exists" message |
| Metadata.RevokedMintRefusesMetadata | src/services/metadata.ts:72-81 | a mint whose mint authority is revoked gets no metadata: the step fails and nothing changes |
| Metadata.RevokedMintGenericFailure | src/services/metadata.ts:72-142 | with both uploads done, that refusal ends in the generic "Metadata creation failed" message with troubleshooting text |
| Metadata.InvalidAuthorityIsGeneric | src/services/metadata.ts:93-131 | the authority refusal matches none of the four specific classes |
| Metadata.AuthFailurePassesThrough | src/services/metadata.ts:95-97 | Pinata's auth message names PINATA_JWT, so it passes through unwrapped |
| Metadata.UploadFailureWrappedTwice | src/services/metadata.ts:134-141 | other upload failures are wrapped again in the generic metadata message |
| Display.ClusterParam | src/utils/display.ts:22 | empty iff the cluster is `mainnet-beta`, otherwise "?cluster=<name>" |
| Display.ExplorerUrl | src/utils/display.ts:21-24 | the tx prefix, the signature, then a query exactly when not mainnet |
| Display.ExplorerAddressUrl | src/utils/display.ts:32-35 | the address prefix, the address, then a query exactly when not mainnet |
| Display.ExplorerUrlInjective | src/utils/display.ts:21-24 | for '?'-free signatures, equal links iff equal signature and cluster |
| Display.ExplorerAddressUrlInjective | src/utils/display.ts:32-35 | for '?'-free addresses, equal links iff equal address and cluster |
| Display.LinksFollowEndpoint | src/utils/display.ts:22 | a link has no query iff the command talks to the mainnet endpoint |
| Display.ErrorHeader | src/utils/display.ts:54 | " (<context>)" appears only for a non-empty context |
| Display.HintFollowsTable | src/utils/display.ts:58-75 | the hint chain is the first-match reading of its table over the lower-cased message |
| Display.ChooseHint | src/utils/display.ts:52-75 | the hint is the first-match reading of its table over the lower-cased message |
| Display.HintIgnoresCase | src/utils/display.ts:52 | a message and its upper-cased form get the same hint |
| Display.FundsHintWins | src/utils/display.ts:58-66 | a message mentioning "insufficient" gets the airdrop hint whatever else it mentions |
| Display.HintLines | src/utils/display.ts:58-75 | each group is three lines under "To fix", or four under "Troubleshooting" |
| Display.DisplayError | src/utils/display.ts:50-78 | header, message, the chosen hint group, blank line |
| Display.OneHintGroup | src/utils/display.ts:57-75 | exactly one group heading is printed, right after the message |
| Display.RevokeLabel | src/utils/display.ts:126 | the mint label iff index 0, the freeze label at every other index |
| Display.RevokeLines | src/utils/display.ts:125-130 | one line per signature, labelled by position, linking its explorer URL |
| Display.TwoRevokeLines | src/utils/display.ts:125-130 | two signatures are labelled mint first, freeze second |
| Display.CreatedTokenRevokeLines | src/utils/display.ts:125-130 | for a created token the mint revocation is linked first and the freeze revocation second |
| Text.Lower | src/utils/display.ts:52 | same length, each ASCII letter lower-cased |
| Text.Upper | src/commands/create.ts:88 | same length, each ASCII letter upper-cased |
| Text.LowerForgetsCase | src/utils/display.ts:52 | lower-casing is idempotent and forgets an earlier upper-casing |
| Text.Contains | src/utils/display.ts:58-66 | text found is no longer than the string; empty text is always found; text as long as the string is found iff it equals it; found iff it occurs at some index (`Text.ContainsIffOccurs`) |
| Text.UpperHasNoLowercase | src/utils/prompts.ts:43 | an upper-cased string has no lower-case letter |
| Text.ContainsIffOccurs | src/utils/display.ts:58-66 | `includes` is true iff the text occurs at some index |
| Text.Trim | src/utils/prompts.ts:124-138 | the middle slice between a whitespace prefix and suffix, with non-whitespace ends |
| Text.TrimEmptyIffBlank | src/utils/prompts.ts:124 | trimming gives "" iff the string is all whitespace |
| Text.TrimIdempotent | src/utils/prompts.ts:129-138 | trimming twice changes nothing more |
| Text.NatTextRoundTrip | src/lib/burn.ts:94 | reading back the rendered digits gives the number |
| JsNumber.ToBigInt | src/lib/token.ts:66 | the exact integer iff the number is an integer, otherwise the RangeError |
| JsNumber.Round | src/lib/burn.ts:85 | the nearest integer, halves up; special values unchanged |
| JsNumber.IntegerText | src/lib/burn.ts:93-96 | integers below 10^21 in magnitude render as their plain decimal digits |
| JsNumber.StripTens | src/lib/burn.ts:93-96 | a positive integer splits into digits without a trailing zero times a power of ten |
| JsNumber.NatTextShift | src/lib/burn.ts:93-96 | multiplying by 10^t appends t zero digits |
| JsNumber.NatTextBounds | src/lib/burn.ts:93-96 | a number with L digits lies between 10^(L-1) and 10^L |
| JsNumber.ExponentFormIff | src/lib/burn.ts:93-96 | exponent notation is used iff the magnitude is at least 10^21 or below 10^-6 |
| JsNumber.LargeExample | src/lib/burn.ts:93-96 | 10^21 renders as "1e+21" |
| JsNumber.SmallExamples | src/lib/burn.ts:93-96 | 10^-7 renders as "1e-7" and 10^-6 as "0.000001" |
| JsNumber.FractionExamples | src/lib/burn.ts:93-96 | 1.5 renders as "1.5" and -0.025 as "-0.025" |
| JsNumber.ToText | src/lib/burn.ts:93-96 | never empty; a decimal's text starts with '-' iff it is negative and is "0" iff it is zero |
| Rules.FirstMatch | src/utils/display.ts:58-75 | the label of the first row whose guard holds, otherwise the default |
| Rules.FirstMatchIsWitnessed | src/utils/display.ts:58-75 | the chosen label is the default or belongs to a row whose guard holds |
| CreateCommand.ImagePrecheck | src/commands/create.ts:44-53 | an error iff a non-empty `--image` is given and fails validation |
| CreateCommand.BuildPartial | src/commands/create.ts:86-112 | refused iff decimals do not parse to 0..9 or a given supply is NaN or not positive; a flag symbol is upper-cased; empty flags count as missing |
| CreateCommand.DecimalsNeverPrompted | src/commands/create.ts:32 | the defaulted decimals option means the prompt's decimals come from the option |
| CreateCommand.NameOptionNotLengthChecked | src/commands/create.ts:87 | a 40-character flag name is accepted although the prompt would refuse it |
| CreateCommand.DryRunPlan | src/commands/create.ts:125-146 | 10 steps with a logo and `--lock-metadata`, 9 with a logo only, 5 without |
| CreateCommand.PlanShape | src/commands/create.ts:125-146 | the plan starts by loading the keypair and mentions metadata iff a logo is set |
| CreateCommand.PlanRevokesBoth | src/commands/create.ts:136-145 | every plan revokes the mint authority immediately before the freeze authority |
| CreateCommand.PlanOrderDiffersFromRun | src/commands/create.ts:136-145 | the plan puts the metadata account before the revocations, while a successful creation has already revoked both with no metadata present |
| CreateCommand.LockDecision | src/commands/create.ts:252-257 | the flag locks; otherwise, unless `--yes` suppresses the question, the force-close error iff closed and a lock iff yes |
| CreateCommand.AfterCreate | src/commands/create.ts:173-291 | a failing verification read exits 1 with its error under the creation context and nothing after it; success implies both mint reads succeeded, both authorities verified revoked and mint and balance untouched; metadata only after verification and when wanted; lock only after metadata was created and when decided; a closed lock question exits 1 with the force-close error last |
| CreateCommand.AfterVerified | src/commands/create.ts:194-291 | metadata is attempted iff wanted; the run fails at the status read iff that read fails or there is no mint; mint and balance are untouched; the lock is asked only after metadata was created |
| CreateCommand.AfterMetadata | src/commands/create.ts:242-291 | the status read fails iff its mint read fails or there is no mint, and a failing read exits 1 with its error after the metadata reports; the lock is asked only after metadata was created, closing it exits 1 with the force-close error after the metadata reports, and a lock only sets the metadata immutable |
| CreateCommand.AfterConfig | src/commands/create.ts:120-176 | dry run iff `--dry-run`; cancelled iff the confirmation is no or Enter; exit 1 with the force-close error iff it is closed; none of these changes the ledger |
| CreateCommand.AfterKeypair | src/commands/create.ts:62-115 | a failed rent query, low balance, bad decimals and bad supply stop with exit 1 and no change, in that order; the rent failure is reported under the creation context |
| CreateCommand.RunCreate | src/commands/create.ts:41-291 | exit 0 iff dry run, cancelled or created; an image error, a keypair error and a rent query error are reported first, in that order; the ledger changes only once creation starts; success implies revoked authorities |
| CreateCommand.DecimalsOptionRule | src/commands/create.ts:89-99 | the decimals option is refused iff it does not parse to 0..9, with exit 1 and no change |
| CreateCommand.SupplyOptionRule | src/commands/create.ts:100-110 | a given supply is refused iff NaN or not positive, with exit 1 and no change |
| CreateCommand.DryRunChangesNothing | src/commands/create.ts:121-153 | a dry run never changes the ledger or creates anything |
| CreateCommand.CancelledCreatesNothing | src/commands/create.ts:156-164 | declining the confirmation (no or Enter) exits 0 with no change and no error |
| CreateCommand.ClosedConfirmationCreatesNothing | src/commands/create.ts:156-164 | closing the confirmation exits 1 with the force-close error under the creation context and no change |
| CreateCommand.DryRunListsPlan | src/commands/create.ts:121-153 | a complete dry run exits 0 with the plan for the completed configuration |
| CreateCommand.CreationPassesVerification | src/commands/create.ts:176-190 | after a successful `createToken` the "not revoked" verdict never comes; with both mint reads succeeding the run ends created or at a closed lock question |
| CreateCommand.ReadFailureAfterCreation | src/commands/create.ts:173-291 | a failing mint read after a successful creation exits 1 with its error last under the creation context, while the token exists with both authorities revoked |
| CreateCommand.MetadataFollowsLogo | src/commands/create.ts:196 | after the prompts, metadata is wanted iff a logo path is set |
| CreateCommand.MetadataFailureKeepsSuccess | src/commands/create.ts:214-226 | with both mint reads succeeding, a failed metadata step is reported but the command still exits 0 with the token untouched |
| CreateCommand.YesWithoutFlagNeverLocks | src/commands/create.ts:255-257 | under `--yes` without `--lock-metadata` nothing is locked |
| CreateCommand.MetadataNeverAttaches | src/commands/create.ts:176-248 | once both authorities are verified revoked, the ledger is unchanged and a wanted metadata step fails with a report under the metadata context first; the run ends created iff the status read succeeds, then with exit 0 and that single report, and otherwise exits 1 |
| CreateCommand.LockNeverReached | src/commands/create.ts:250-266 | after any successful creation no metadata is created and the lock is neither asked nor applied; with both mint reads succeeding the run ends created |

## Left out

- Network, SDK and chain calls (web3.js, spl-token, Umi, Pinata) are parameters. Their results, signatures, addresses and failures are inputs. The chain itself is the abstract `Ledger`, with no signing, fees or account layouts. Of the programs' admission rules it keeps the token program's amount and authority checks and the metadata program's rule that attaching metadata to an existing mint needs the mint authority's signature (its createV1 instruction).
- File-system access (`access`, `stat`, `readFile`) is a table of file facts per path.
- Terminal output (chalk, ora spinners, the educational text, the cost table) is not modelled. Error output is kept as the sequence of reports a run shows.
- `loadKeypair` throws "Not implemented" in src/lib/wallet.ts, and `checkSufficientBalance` is not defined there. Both are inputs to the `create` model: a keypair result and an optional shortfall text.
- The rent-exemption query behind `estimateCost` is an input whose failure ends the run. The estimate itself (`Token.EstimateCost`) feeds only the undefined balance check and the cost table, so the command model does not compute it.
- Token.Send, Metadata.CreateTokenMetadata and Authority.RevokeMetadataAuthority model a network failure only before the transaction lands. A transaction that lands but whose confirmation times out is reported as failed by the source while its effect stays; these members leave the ledger unchanged instead. The burn does model that case (`Burn.LandedBurnCanStillFail`).
- BurnCommand.RunBurn, BurnCommand.ConfirmedBurnOutcome, CreateCommand.RunCreate, CreateCommand.AfterKeypair, CreateCommand.AfterConfig, CreateCommand.AfterCreate, CreateCommand.AfterVerified, CreateCommand.AfterMetadata, CreateCommand.MetadataFailureKeepsSuccess, CreateCommand.MetadataNeverAttaches, CreateCommand.CreationPassesVerification and CreateCommand.LockNeverReached treat the result displays as returning normally. `displayBurnResult` (src/commands/burn.ts:7, called at :141) and `displayMetadataResult` and `displayAuthorityDashboard` (src/commands/create.ts:13-14, called at :234 and :248) are imported from src/utils/display.ts, which does not define them. As written, the import fails or the call throws, so a run the model ends with exit 0 as burned or created would exit 1 there.
- Ledger.Apply refuses an amount above 2^64 − 1 with "amount out of range". The instruction encoder the SDK uses may instead truncate such an amount; the model does not follow that encoding.
- Token.OversizedSupplyLeavesLiveMint states the model's refusal in `Ledger.Apply`. If the encoder truncates instead, the real supply instruction mints the truncated amount and creation goes on.
- JsNumber.ToText renders the exact decimal value. A real double has shortest round-trip digits, which can differ from that decimal for values that binary floating point cannot hold exactly.
- `formatSOL`'s `toFixed(9)`, the burn preview balances and the supply-impact percentage are floating-point display values and are left out.
- `Math.round`, `Math.pow` and `Number(x) / 10^d` are idealised as exact decimal arithmetic, so binary rounding error is not modelled.
- Parsing with `Number` and `parseInt` is not modelled. The command options and prompt answers arrive already parsed, as an idealised number or `None` for `NaN`.
- Case mapping covers ASCII letters only. `trim` uses the ECMAScript whitespace set as a character predicate.
- Prompts.FillSymbol, Prompts.PromptTokenConfig and Text.UpperKeepsUtf16Length hold under ASCII case mapping only. The source validates the raw answer (src/utils/prompts.ts:31-43) and upper-cases afterwards, and full Unicode `toUpperCase` can lengthen a string, so "ßßßßßßßßßß" is accepted and stored as twenty 'S'.
- `validateImagePath`'s catch-all is modelled for a failing `stat`. Other unexpected exceptions inside it do not arise in the model.
- The supply reads before and after a burn are treated as atomic. A concurrent mint or burn between them is not modelled.
- src/index.ts (command registration) and src/utils/educational.ts (spinner text) hold no decision logic and are not part of this model.
- Metadata.MapMetadataError: the contract states only the passthrough case. The other classes are stated by `Metadata.ClassifierFollowsTable` and the lemmas after it.

=== FILE: authority.dfy ===
/** Reading the three authorities of a token (mint, freeze, metadata
    update) relative to the wallet, and making metadata immutable. */
module Authority {
  import opened Wrappers
  import opened Ledger
  import Token

  /** One SPL authority: who holds it (`None` once revoked) and whether
      that is the wallet. */
  datatype AuthorityInfo = AuthorityInfo(authority: Option<Address>, isRevoked: bool, yours: bool)

  /** The metadata update authority and whether the metadata can still change. */
  datatype MetadataAuthority = MetadataAuthority(authority: Option<Address>, isMutable: bool, yours: bool)

  datatype AuthorityStatus = AuthorityStatus(mint: AuthorityInfo, freeze: AuthorityInfo, metadataUpdate: MetadataAuthority)

  /** Describes one authority against the wallet; a revoked authority
      belongs to nobody, so it is never the wallet's. */
  function Describe(holder: Option<Address>, payer: Address): (info: AuthorityInfo)
    ensures info.authority == holder
    ensures info.isRevoked <==> holder.None?
    ensures info.yours <==> holder == Some(payer)
    ensures !(info.isRevoked && info.yours)
  {
    AuthorityInfo(holder, holder.None?, holder == Some(payer))
  }

  /** What the two reads answer besides the ledger: the RPC error of the
      `getMint` read, if it fails, and whether the metadata fetch fails. */
  datatype StatusNet = StatusNet(mintFault: Option<string>, metadataFault: bool)

  const CleanReads: StatusNet := StatusNet(None, false)

  /** `getAuthorityStatus`: the mint read must succeed, and fails for a
      missing mint; the metadata fetch is caught, so missing metadata, like
      a failed fetch, reads as no authority and not mutable. */
  function GetAuthorityStatus(l: Ledger, payer: Address, net: StatusNet): (r: Result<AuthorityStatus, string>)
    ensures r.Err? <==> net.mintFault.Some? || l.mint.None?
    ensures r.Err? ==> r.error == if net.mintFault.Some? then net.mintFault.value else AccountNotFound
    ensures r.Ok? ==> r.value.mint == Describe(AuthorityOf(l.mint.value, MintTokens), payer)
    ensures r.Ok? ==> r.value.freeze == Describe(AuthorityOf(l.mint.value, FreezeAccount), payer)
    ensures r.Ok? && (l.metadata.None? || net.metadataFault) ==> r.value.metadataUpdate == MetadataAuthority(None, false, false)
    ensures r.Ok? && l.metadata.Some? && !net.metadataFault ==>
              && r.value.metadataUpdate.authority == l.metadata.value.updateAuthority
              && r.value.metadataUpdate.isMutable == l.metadata.value.isMutable
              && (r.value.metadataUpdate.yours <==> l.metadata.value.updateAuthority == Some(payer))
  {
    if net.mintFault.Some? then Err(net.mintFault.value)
    else
      match l.mint
      case None => Err(AccountNotFound)
      case Some(m) =>
        var found := l.metadata.Some? && !net.metadataFault;
        var update := if found then l.metadata.value.updateAuthority else None;
        var mutable := found && l.metadata.value.isMutable;
        Ok(AuthorityStatus(
             Describe(m.mintAuthority, payer),
             Describe(m.freezeAuthority, payer),
             MetadataAuthority(update, mutable, update == Some(payer))))
  }

  /** The mint and freeze rows depend on the mint alone: two ledgers with
      the same mint report them identically, whatever their metadata. */
  lemma MintRowsIgnoreMetadata(l1: Ledger, l2: Ledger, payer: Address, net1: StatusNet, net2: StatusNet)
    requires l1.mint == l2.mint && net1.mintFault == net2.mintFault
    ensures GetAuthorityStatus(l1, payer, net1).Ok? <==> GetAuthorityStatus(l2, payer, net2).Ok?
    ensures GetAuthorityStatus(l1, payer, net1).Ok? ==>
              && GetAuthorityStatus(l1, payer, net1).value.mint == GetAuthorityStatus(l2, payer, net2).value.mint
              && GetAuthorityStatus(l1, payer, net1).value.freeze == GetAuthorityStatus(l2, payer, net2).value.freeze
  {
  }

  /** Missing metadata, or metadata the fetch failed to read, reads like
      revoked, immutable metadata: no authority, not mutable, not yours. */
  lemma MissingMetadataReadsImmutable(l: Ledger, payer: Address, net: StatusNet)
    requires l.mint.Some? && net.mintFault.None? && (l.metadata.None? || net.metadataFault)
    ensures var s := GetAuthorityStatus(l, payer, net).value.metadataUpdate;
            s.authority.None? && !s.isMutable && !s.yours
  {
  }

  /** A token created by this tool reports mint and freeze authority as
      revoked, and neither as the wallet's, for as long as the ledger lives. */
  lemma CreatedTokenShowsRevoked(l: Ledger, payer: Address, config: Token.TokenConfig, net: Token.CreateNet, later: seq<Op>,
                                 status: StatusNet)
    requires Token.CreateToken(l, payer, config, net).outcome.Ok?
    requires ApplyAll(Token.CreateToken(l, payer, config, net).ledger, later).Ok?
    ensures var s := GetAuthorityStatus(ApplyAll(Token.CreateToken(l, payer, config, net).ledger, later).value, payer, status);
            s.Ok? <==> status.mintFault.None?
    ensures var s := GetAuthorityStatus(ApplyAll(Token.CreateToken(l, payer, config, net).ledger, later).value, payer, status);
            s.Ok? ==> s.value.mint == AuthorityInfo(None, true, false) && s.value.freeze == AuthorityInfo(None, true, false)
  {
    Token.CreatedMintIsRevoked(l, payer, config, net, later);
  }

  /** What the update transaction answers: its signature, or a failure. */
  datatype RevokeNet = RevokeNet(signature: string, fault: Option<string>)

  datatype RevokeRun = RevokeRun(outcome: Result<string, string>, ledger: Ledger)

  /** `revokeMetadataAuthority`: an update signed by the wallet that sets
      `isMutable` to false. */
  function RevokeMetadataAuthority(l: Ledger, payer: Address, net: RevokeNet): (run: RevokeRun)
    ensures run.outcome.Err? ==> run.ledger == l
    ensures run.outcome.Ok? ==>
              && l.metadata.Some?
              && l.metadata.value.updateAuthority == Some(payer)
              && l.metadata.value.isMutable
              && run.ledger == l.(metadata := Some(l.metadata.value.(isMutable := false)))
              && run.outcome.value == net.signature
  {
    if net.fault.Some? then RevokeRun(Err(net.fault.value), l)
    else
      match Apply(l, LockMetadata(payer))
      case Err(e) => RevokeRun(Err(e), l)
      case Ok(l') => RevokeRun(Ok(net.signature), l')
  }

  /** After a successful revoke the status reads immutable, the update
      authority is still recorded, and the mint and freeze rows are as before. */
  lemma RevokeShowsImmutable(l: Ledger, payer: Address, net: RevokeNet)
    requires l.mint.Some?
    requires RevokeMetadataAuthority(l, payer, net).outcome.Ok?
    ensures var before := GetAuthorityStatus(l, payer, CleanReads).value;
            var after := GetAuthorityStatus(RevokeMetadataAuthority(l, payer, net).ledger, payer, CleanReads).value;
            && before.metadataUpdate == MetadataAuthority(Some(payer), true, true)
            && after.metadataUpdate == MetadataAuthority(Some(payer), false, true)
            && after.mint == before.mint
            && after.freeze == before.freeze
  {
  }

  /** Revoking is one-way: a second revoke that reaches the chain is
      refused because the data is immutable, and changes nothing. */
  lemma SecondRevokeRefused(l: Ledger, payer: Address, net: RevokeNet, net2: RevokeNet)
    requires RevokeMetadataAuthority(l, payer, net).outcome.Ok?
    requires net2.fault.None?
    ensures var l' := RevokeMetadataAuthority(l, payer, net).ledger;
            RevokeMetadataAuthority(l', payer, net2) == RevokeRun(Err(DataImmutable), l')
  {
  }

  /** Only the holder of the update authority can revoke it. */
  lemma OnlyUpdateAuthorityRevokes(l: Ledger, payer: Address, net: RevokeNet)
    requires l.metadata.Some? && l.metadata.value.updateAuthority != Some(payer)
    ensures RevokeMetadataAuthority(l, payer, net).outcome.Err?
    ensures net.fault.None? ==> RevokeMetadataAuthority(l, payer, net).outcome == Err(OwnerMismatch)
  {
  }
}

=== FILE: burn.dfy ===
/** Burning: reading the holder's balance, converting a human amount to
    raw units, refusing a burn larger than the balance, and the burn's
    effect on supply and balance. */
module Burn {
  import opened Wrappers
  import opened JsNumber
  import opened Ledger
  import Text

  /** What `getBurnInfo` reports. */
  datatype BurnInfo = BurnInfo(balance: nat, supply: nat, decimals: nat)

  /** The message for a holder without an associated account for the mint. */
  function NoAccountMessage(mint: Address, owner: Address): string {
    NoAccountLead + "Mint: " + mint + "\n" + "Owner: " + owner
  }

  const NoAccountLead: string := "No token account found for this mint. You may not hold any of this token.\n\n"

  /** What the two reads of `getBurnInfo` answer besides the ledger: whether
      the account read fails, and the RPC error of the mint read, if any. */
  datatype InfoNet = InfoNet(accountFault: bool, mintFault: Option<string>)

  const CleanInfo: InfoNet := InfoNet(false, None)

  /** `getBurnInfo`: the holder's balance and the mint's supply and
      decimals. Any failure of the account read, a missing account included,
      becomes the "No token account found" error; a failure of the mint read
      after it is passed on as it is. */
  function GetBurnInfo(l: Ledger, mint: Address, owner: Address, net: InfoNet): (r: Result<BurnInfo, string>)
    requires Valid(l)
    ensures l.balance.None? || net.accountFault ==> r == Err(NoAccountMessage(mint, owner))
    ensures l.balance.Some? && !net.accountFault && net.mintFault.Some? ==> r == Err(net.mintFault.value)
    ensures r.Ok? <==> l.balance.Some? && !net.accountFault && net.mintFault.None?
    ensures r.Ok? ==> r.value == BurnInfo(l.balance.value, l.mint.value.supply, l.mint.value.decimals)
  {
    if l.balance.None? || net.accountFault then Err(NoAccountMessage(mint, owner))
    else if net.mintFault.Some? then Err(net.mintFault.value)
    else Ok(BurnInfo(l.balance.value, l.mint.value.supply, l.mint.value.decimals))
  }

  /** `BigInt(Math.round(amount * Math.pow(10, decimals)))`. */
  function RawAmount(amount: Number, decimals: nat): (r: Result<int, string>)
    ensures r.Ok? <==> amount.Dec?
    ensures r.Ok? ==>
              var p := Pow10(amount.scale);
              2 * r.value * p - p <= 2 * amount.digits * Pow10(decimals)
              && 2 * amount.digits * Pow10(decimals) < 2 * r.value * p + p
  {
    var rounded := Round(ScaleUp(amount, decimals));
    if rounded.Dec? then
      ToBigIntOfWhole(rounded.digits);
      ToBigInt(rounded)
    else
      ToBigInt(rounded)
  }

  /** The balance a raw amount stands for, as `Number(raw) / Math.pow(10, decimals)` gives it. */
  function HumanAmount(raw: nat, decimals: nat): Number {
    Dec(raw, decimals)
  }

  /** The message for a burn larger than the balance. */
  function InsufficientMessage(amount: Number, balance: nat, raw: int, decimals: nat): (msg: string)
    ensures Text.Contains(msg, ShortLead + ToText(amount))
    ensures Text.Contains(msg, Text.NatText(balance))
    ensures Text.Contains(msg, Text.IntText(raw))
  {
    var current := HumanAmount(balance, decimals);
    var lead := ShortLead + ToText(amount);
    var head := " tokens.\n\n" + CurrentLabel + ToText(current) + " tokens (";
    var between := RawUnitsLine + RequestedLabel + ToText(amount) + " tokens (";
    var tail := RawUnitsLine + "Shortfall: " + ToText(Minus(amount, current)) + " tokens";
    Text.ContainsPieces(lead, head, Text.NatText(balance), between, Text.IntText(raw), tail);
    lead + head + Text.NatText(balance) + between + Text.IntText(raw) + tail
  }

  const ShortLead: string := "Insufficient balance to burn "
  const CurrentLabel: string := "Current balance: "
  const RequestedLabel: string := "Requested burn: "
  const RawUnitsLine: string := " raw units)\n"

  /** What `burnTokens` reports. */
  datatype BurnResult = BurnResult(
    signature: string,
    amountBurned: Number,
    supplyBefore: nat,
    supplyAfter: nat,
    mint: Address)

  /** What the network answers: the burn's signature, a failure before the
      burn lands (the supply read or the submission), and a failure after it
      has landed (a confirmation that times out, or the second supply read). */
  datatype BurnNet = BurnNet(signature: string, fault: Option<string>, afterFault: Option<string>)

  /** A run of `burnTokens`: its result or error, and the ledger afterwards. */
  datatype BurnRun = BurnRun(outcome: Result<BurnResult, string>, ledger: Ledger)

  /** `burnTokens`: convert the amount, read the account, refuse a burn
      beyond the balance, read the supply, burn, read the supply again. */
  function BurnTokens(l: Ledger, mint: Address, amount: Number, decimals: nat, net: BurnNet): (run: BurnRun)
    ensures run.ledger != l ==>
              && RawAmount(amount, decimals).Ok?
              && Apply(l, Op.Burn(RawAmount(amount, decimals).value)) == Ok(run.ledger)
    ensures run.outcome.Err? && run.ledger != l ==> net.afterFault.Some? && run.outcome.error == net.afterFault.value
    ensures net.afterFault.None? && run.outcome.Err? ==> run.ledger == l
    ensures run.outcome.Ok? ==> net.fault.None? && net.afterFault.None?
    ensures run.outcome.Ok? ==>
              && l.balance.Some? && l.mint.Some?
              && RawAmount(amount, decimals).Ok?
              && var raw := RawAmount(amount, decimals).value;
              && 0 <= raw <= l.balance.value
              && run.outcome.value.supplyAfter == run.outcome.value.supplyBefore - raw
              && run.outcome.value.supplyBefore == l.mint.value.supply
              && run.ledger.balance == Some(l.balance.value - raw)
              && run.outcome.value.amountBurned == amount
              && run.outcome.value.mint == mint
              && run.outcome.value.signature == net.signature
  {
    match RawAmount(amount, decimals)
    case Err(e) => BurnRun(Err(e), l)
    case Ok(raw) =>
      match l.balance
      case None => BurnRun(Err(AccountNotFound), l)
      case Some(balance) =>
        if balance < raw then
          BurnRun(Err(InsufficientMessage(amount, balance, raw, decimals)), l)
        else
          match l.mint
          case None => BurnRun(Err(AccountNotFound), l)
          case Some(before) =>
            if net.fault.Some? then BurnRun(Err(net.fault.value), l)
            else
              match Apply(l, Op.Burn(raw))
              case Err(e) => BurnRun(Err(e), l)
              case Ok(l') =>
                if net.afterFault.Some? then BurnRun(Err(net.afterFault.value), l')
                else BurnRun(Ok(BurnResult(net.signature, amount, before.supply, l'.mint.value.supply, mint)), l')
  }

  /** A burn larger than the balance is refused with the "Insufficient
      balance" message, and nothing is read or written after the check. */
  lemma ShortBalanceRefused(l: Ledger, mint: Address, amount: Number, decimals: nat, net: BurnNet)
    requires l.balance.Some? && RawAmount(amount, decimals).Ok?
    requires l.balance.value < RawAmount(amount, decimals).value
    ensures var run := BurnTokens(l, mint, amount, decimals, net);
            && run.outcome == Err(InsufficientMessage(amount, l.balance.value, RawAmount(amount, decimals).value, decimals))
            && run.ledger == l
  {
  }

  /** A failure after the burn has landed is reported as a failure, but the
      tokens are gone: supply and balance are already lowered by the raw amount. */
  lemma LandedBurnCanStillFail(l: Ledger, mint: Address, amount: Number, decimals: nat, net: BurnNet)
    requires Valid(l) && net.fault.None? && net.afterFault.Some?
    requires l.balance.Some? && RawAmount(amount, decimals).Ok?
    requires 0 < RawAmount(amount, decimals).value <= l.balance.value
    ensures var run := BurnTokens(l, mint, amount, decimals, net);
            var raw := RawAmount(amount, decimals).value;
            && run.outcome == Err(net.afterFault.value)
            && run.ledger.balance == Some(l.balance.value - raw)
            && run.ledger.mint == Some(l.mint.value.(supply := l.mint.value.supply - raw))
            && run.ledger != l
  {
  }

  /** On a well-formed ledger with no network failure, the burn succeeds
      exactly when the holder has an account and the rounded raw amount is
      between 0 and the balance; the whole balance can be burned. */
  lemma BurnSucceedsIff(l: Ledger, mint: Address, amount: Number, decimals: nat, net: BurnNet)
    requires Valid(l) && net.fault.None? && net.afterFault.None?
    ensures BurnTokens(l, mint, amount, decimals, net).outcome.Ok? <==>
              && l.balance.Some?
              && RawAmount(amount, decimals).Ok?
              && 0 <= RawAmount(amount, decimals).value <= l.balance.value
  {
  }

  /** Burning the whole balance, stated in whole tokens, empties the account. */
  lemma WholeBalanceBurnable(l: Ledger, mint: Address, decimals: nat, net: BurnNet)
    requires Valid(l) && net.fault.None? && net.afterFault.None? && l.balance.Some?
    ensures var run := BurnTokens(l, mint, HumanAmount(l.balance.value, decimals), decimals, net);
            run.outcome.Ok? && run.ledger.balance == Some(0)
  {
    var amount := HumanAmount(l.balance.value, decimals);
    var raw := RawAmount(amount, decimals).value;
    var b := l.balance.value;
    var p := Pow10(decimals);
    assert 2 * raw * p - p <= 2 * b * p < 2 * raw * p + p;
    RoundedExactly(raw, b, p);
  }

  /** Two integers whose doubled products with `p` are within `p` of each other are equal. */
  lemma RoundedExactly(r: int, b: int, p: int)
    requires p >= 1
    requires 2 * r * p - p <= 2 * b * p < 2 * r * p + p
    ensures r == b
  {
    assert (2 * (r - b) - 1) * p <= 0;
    assert (2 * (b - r) - 1) * p < 0;
  }

  /** A burn lowers supply and balance by the same raw amount and leaves
      authorities, decimals and metadata alone. */
  lemma BurnLowersSupplyAndBalance(l: Ledger, mint: Address, amount: Number, decimals: nat, net: BurnNet)
    requires BurnTokens(l, mint, amount, decimals, net).outcome.Ok?
    ensures var run := BurnTokens(l, mint, amount, decimals, net);
            var raw := RawAmount(amount, decimals).value;
            && run.ledger.mint == Some(l.mint.value.(supply := l.mint.value.supply - raw))
            && run.ledger.balance == Some(l.balance.value - raw)
            && run.ledger.metadata == l.metadata
  {
  }

  /** An amount below half a raw unit rounds to zero: the burn goes through
      and burns nothing. */
  lemma TinyAmountBurnsNothing(l: Ledger, mint: Address, net: BurnNet)
    requires Valid(l) && net.fault.None? && net.afterFault.None? && l.balance.Some?
    ensures var run := BurnTokens(l, mint, Dec(4, 1), 0, net);
            run.outcome.Ok? && run.ledger == l
  {
    assert RawAmount(Dec(4, 1), 0) == Ok(0);
    var m := l.mint.value;
    assert m.(supply := m.supply - 0) == m;
    assert Apply(l, Op.Burn(0)) == Ok(l);
  }

  /** Burning 5 whole tokens from a balance of 3 reports a shortfall of 2. */
  lemma ShortfallExample(l: Ledger, mint: Address, net: BurnNet)
    requires l.balance == Some(3)
    ensures var current := " tokens.\n\n" + CurrentLabel + "3" + " tokens (";
            var requested := RawUnitsLine + RequestedLabel + "5" + " tokens (";
            var shortfall := RawUnitsLine + "Shortfall: " + "2" + " tokens";
            BurnTokens(l, mint, FromInt(5), 0, net).outcome ==
              Err(ShortLead + "5" + current + "3" + requested + "5" + shortfall)
  {
    assert RawAmount(FromInt(5), 0) == Ok(5);
    assert ToText(FromInt(5)) == "5";
    assert ToText(HumanAmount(3, 0)) == "3";
    assert Text.NatText(3) == "3";
    assert Text.IntText(5) == "5";
    assert Minus(FromInt(5), HumanAmount(3, 0)) == Dec(2, 0);
    assert ToText(Dec(2, 0)) == "2";
  }
}

=== FILE: burn_command.dfy ===
/** The `burn` command: check the options, look the holder's account up,
    pass the three-level confirmation gate unless `--yes` is given, and
    burn. Declining ends the command quietly (exit 0); bad input or a
    failed lookup or burn ends it with exit 1. */
module BurnCommand {
  import opened Wrappers
  import opened JsNumber
  import opened Ledger
  import Burn
  import Cluster
  import Prompts
  import Display

  /** The command-line options, after parsing: the mint address (`None`
      when it is not a valid address), the amount as `Number` reads it. */
  datatype BurnOptions = BurnOptions(
    mintText: string,
    mint: Option<Address>,
    amount: Number,
    cluster: string,
    yes: bool)

  /** The answers at the gate: the first yes/no question, the attempts at
      typing the confirmation word, and the final yes/no question. */
  datatype GateAnswers = GateAnswers(understand: Prompts.ConfirmKey, typed: seq<string>, final: Prompts.ConfirmKey)

  /** What the environment supplies: the loaded keypair's address (or the
      loading error), the answers to the lookup's reads, and the network's
      answer to the burn. */
  datatype BurnEnv = BurnEnv(keypair: Result<Address, string>, info: Burn.InfoNet, net: Burn.BurnNet)

  /** How the gate ends: the burn may go ahead, the user declined, or the
      user force-closed one of the three questions. */
  datatype GateOutcome = Proceed | Declined | Closed

  /** The word the typed question insists on. */
  const ConfirmWord: string := "BURN"

  predicate TypedWordAccepted(value: string) { value == ConfirmWord }

  /** The three-level confirmation; `--yes` skips it entirely. The typed
      question cannot be declined, only answered correctly or closed. */
  function Gate(yes: bool, answers: GateAnswers): (g: GateOutcome)
    ensures g == Proceed <==>
              yes || (&& answers.understand == Prompts.Yes
                      && (exists j :: 0 <= j < |answers.typed| && answers.typed[j] == ConfirmWord)
                      && answers.final == Prompts.Yes)
    ensures g == Closed <==>
              !yes && (|| answers.understand == Prompts.Close
                       || (&& answers.understand == Prompts.Yes
                           && ((forall j :: 0 <= j < |answers.typed| ==> answers.typed[j] != ConfirmWord)
                               || answers.final == Prompts.Close)))
  {
    if yes then Proceed
    else
      match Prompts.PromptConfirmation(answers.understand)
      case Err(_) => Closed
      case Ok(understood) =>
        if !understood then Declined
        else
          match Prompts.Ask(answers.typed, TypedWordAccepted)
          case Err(_) => Closed
          case Ok(_) =>
            match Prompts.PromptConfirmation(answers.final)
            case Err(_) => Closed
            case Ok(confirmed) => if confirmed then Proceed else Declined
  }

  /** The typed word is case-sensitive: only upper-case "BURN" gets past it. */
  lemma TypedWordIsCaseSensitive(understand: Prompts.ConfirmKey, final: Prompts.ConfirmKey)
    ensures Gate(false, GateAnswers(understand, ["burn", "Burn"], final)) != Proceed
    ensures understand == Prompts.Yes && final == Prompts.Yes ==>
              Gate(false, GateAnswers(understand, ["burn", "BURN"], final)) == Proceed
  {
    var typed := ["burn", "BURN"];
    if understand == Prompts.Yes && final == Prompts.Yes {
      assert typed[1] == ConfirmWord;
    }
  }

  /** How a run of the command ends. */
  datatype BurnStage = KeypairFailed | BadMint | BadAmount | LookupFailed | Cancelled | PromptClosed | BurnFailed | Burned

  /** A run: exit code, the ledger afterwards, the RPC endpoint used (once
      the keypair is loaded), the error reports shown, and how it ended. */
  datatype BurnCommandRun = BurnCommandRun(
    exitCode: nat,
    ledger: Ledger,
    endpoint: Option<string>,
    reports: seq<Display.Report>,
    stage: BurnStage)

  const MintAddressHint: string := "\n\nMust be a valid base58 Solana address"
  const AmountError: string := "Amount must be a positive number"

  /** `Number(options.amount)` is accepted when it is not `NaN` and above zero. */
  predicate AmountAccepted(amount: Number) {
    !(amount.NaN? || AtMost(amount, 0))
  }

  function Fail(l: Ledger, endpoint: Option<string>, message: string, context: string, stage: BurnStage): BurnCommandRun {
    BurnCommandRun(1, l, endpoint, [Display.Report(message, Some(context))], stage)
  }

  /** The `burn` command's action. */
  function RunBurn(l: Ledger, opts: BurnOptions, answers: GateAnswers, env: BurnEnv): (run: BurnCommandRun)
    requires Valid(l)
    ensures run.exitCode == 0 <==> run.stage == Cancelled || run.stage == Burned
    ensures run.endpoint.Some? ==> run.endpoint.value == Cluster.RpcUrl(opts.cluster)
    ensures run.stage !in {Burned, BurnFailed} ==> run.ledger == l
    ensures env.net.afterFault.None? && run.stage != Burned ==> run.ledger == l
    ensures run.ledger != l ==>
              && opts.mint.Some? && l.mint.Some? && Gate(opts.yes, answers) == Proceed
              && run.ledger == Burn.BurnTokens(l, opts.mint.value, opts.amount, l.mint.value.decimals, env.net).ledger
    ensures run.stage == BurnFailed && run.ledger != l ==>
              && env.net.afterFault.Some? && run.exitCode == 1
              && run.reports == [Display.Report(env.net.afterFault.value, Some(Display.TokenBurn))]
    ensures run.stage == Burned ==>
              && env.keypair.Ok? && opts.mint.Some? && AmountAccepted(opts.amount)
              && l.balance.Some? && l.mint.Some?
              && Gate(opts.yes, answers) == Proceed
              && Burn.BurnTokens(l, opts.mint.value, opts.amount, l.mint.value.decimals, env.net).outcome.Ok?
              && run.ledger == Burn.BurnTokens(l, opts.mint.value, opts.amount, l.mint.value.decimals, env.net).ledger
  {
    match env.keypair
    case Err(e) => Fail(l, None, e, Display.TokenBurn, KeypairFailed)
    case Ok(owner) =>
      var endpoint := Some(Cluster.RpcUrl(opts.cluster));
      match opts.mint
      case None =>
        Fail(l, endpoint, "Invalid mint address: " + opts.mintText + MintAddressHint,
             Display.ParameterValidation, BadMint)
      case Some(mint) =>
        if !AmountAccepted(opts.amount) then
          Fail(l, endpoint, AmountError, Display.ParameterValidation, BadAmount)
        else
          match Burn.GetBurnInfo(l, mint, owner, env.info)
          case Err(e) => Fail(l, endpoint, e, Display.AccountLookup, LookupFailed)
          case Ok(info) =>
            match Gate(opts.yes, answers)
            case Declined => BurnCommandRun(0, l, endpoint, [], Cancelled)
            case Closed => Fail(l, endpoint, Prompts.ForceClosed, Display.TokenBurn, PromptClosed)
            case Proceed =>
              var burn := Burn.BurnTokens(l, mint, opts.amount, info.decimals, env.net);
              match burn.outcome
              case Err(e) => Fail(burn.ledger, endpoint, e, Display.TokenBurn, BurnFailed)
              case Ok(_) => BurnCommandRun(0, burn.ledger, endpoint, [], Burned)
  }

  /** Nothing is burned without consent: when the ledger changed, either
      `--yes` was given or all three confirmations were passed. */
  lemma NoBurnWithoutConsent(l: Ledger, opts: BurnOptions, answers: GateAnswers, env: BurnEnv)
    requires Valid(l)
    requires RunBurn(l, opts, answers, env).ledger != l
    ensures opts.yes || (answers.understand == Prompts.Yes && answers.final == Prompts.Yes
                         && exists j :: 0 <= j < |answers.typed| && answers.typed[j] == ConfirmWord)
  {
  }

  /** Declining at either yes/no question ends the command with exit 0 and burns nothing. */
  lemma DecliningExitsCleanly(l: Ledger, opts: BurnOptions, answers: GateAnswers, env: BurnEnv)
    requires Valid(l) && !opts.yes && env.info == Burn.CleanInfo
    requires env.keypair.Ok? && opts.mint.Some? && AmountAccepted(opts.amount) && l.balance.Some?
    requires Prompts.PromptConfirmation(answers.understand) == Ok(false)
             || (&& answers.understand == Prompts.Yes
                 && Prompts.Ask(answers.typed, TypedWordAccepted).Ok?
                 && Prompts.PromptConfirmation(answers.final) == Ok(false))
    ensures var run := RunBurn(l, opts, answers, env);
            run.exitCode == 0 && run.ledger == l && run.stage == Cancelled && run.reports == []
  {
  }

  /** Force-closing any of the three questions is an error: exit 1 with the
      prompt's error under the burn context, and nothing is burned. */
  lemma ClosingExitsOne(l: Ledger, opts: BurnOptions, answers: GateAnswers, env: BurnEnv)
    requires Valid(l) && !opts.yes && env.info == Burn.CleanInfo
    requires env.keypair.Ok? && opts.mint.Some? && AmountAccepted(opts.amount) && l.balance.Some?
    requires answers.understand == Prompts.Close
             || (answers.understand == Prompts.Yes && answers.typed == [ConfirmWord] && answers.final == Prompts.Close)
    ensures var run := RunBurn(l, opts, answers, env);
            && run.exitCode == 1 && run.ledger == l && run.stage == PromptClosed
            && run.reports == [Display.Report(Prompts.ForceClosed, Some(Display.TokenBurn))]
  {
  }

  /** With `--yes` the answers at the gate make no difference. */
  lemma YesSkipsGate(l: Ledger, opts: BurnOptions, a1: GateAnswers, a2: GateAnswers, env: BurnEnv)
    requires Valid(l) && opts.yes
    ensures RunBurn(l, opts, a1, env) == RunBurn(l, opts, a2, env)
  {
  }

  /** The amount is refused, with exit 1 and no change, exactly when it is
      `NaN` or not above zero (once the keypair and mint are in hand). */
  lemma AmountRule(l: Ledger, opts: BurnOptions, answers: GateAnswers, env: BurnEnv)
    requires Valid(l) && env.keypair.Ok? && opts.mint.Some?
    ensures RunBurn(l, opts, answers, env).stage == BadAmount <==> !AmountAccepted(opts.amount)
    ensures !AmountAccepted(opts.amount) ==>
              RunBurn(l, opts, answers, env) ==
                Fail(l, Some(Cluster.RpcUrl(opts.cluster)), AmountError, Display.ParameterValidation, BadAmount)
  {
  }

  /** A holder without an account for the mint gets exit 1 and the lookup error. */
  lemma MissingAccountExitsOne(l: Ledger, opts: BurnOptions, answers: GateAnswers, env: BurnEnv)
    requires Valid(l) && env.keypair.Ok? && opts.mint.Some? && AmountAccepted(opts.amount)
    requires l.balance.None?
    ensures var run := RunBurn(l, opts, answers, env);
            && run.exitCode == 1 && run.ledger == l
            && run.reports == [Display.Report(Burn.NoAccountMessage(opts.mint.value, env.keypair.value), Some(Display.AccountLookup))]
  {
  }

  /** A confirmed burn of no more than the balance succeeds and lowers the
      balance by the raw amount; one beyond the balance exits 1. */
  lemma ConfirmedBurnOutcome(l: Ledger, opts: BurnOptions, answers: GateAnswers, env: BurnEnv)
    requires Valid(l) && env.keypair.Ok? && opts.mint.Some? && AmountAccepted(opts.amount) && opts.amount.Dec?
    requires env.info == Burn.CleanInfo
    requires l.balance.Some? && Gate(opts.yes, answers) == Proceed && env.net.fault.None? && env.net.afterFault.None?
    ensures var raw := Burn.RawAmount(opts.amount, l.mint.value.decimals);
            var run := RunBurn(l, opts, answers, env);
            && raw.Ok?
            && (raw.value <= l.balance.value ==>
                  run.exitCode == 0 && run.ledger.balance == Some(l.balance.value - raw.value))
            && (raw.value > l.balance.value ==> run.exitCode == 1 && run.ledger == l)
  {
    RawOfAcceptedAmount(opts.amount, l.mint.value.decimals);
    Burn.BurnSucceedsIff(l, opts.mint.value, opts.amount, l.mint.value.decimals, env.net);
  }

  /** A failed read at the lookup ends the command with exit 1 under the
      lookup context before any question is asked: a failing account read
      is reported as a missing account even when the account exists, and a
      failing mint read passes its own error on. */
  lemma LookupReadFailureExitsOne(l: Ledger, opts: BurnOptions, answers: GateAnswers, env: BurnEnv)
    requires Valid(l) && env.keypair.Ok? && opts.mint.Some? && AmountAccepted(opts.amount)
    requires env.info.accountFault || env.info.mintFault.Some?
    ensures var run := RunBurn(l, opts, answers, env);
            && run.exitCode == 1 && run.stage == LookupFailed && run.ledger == l
            && |run.reports| == 1 && run.reports[0].context == Some(Display.AccountLookup)
    ensures env.info.accountFault ==>
              RunBurn(l, opts, answers, env).reports[0].message == Burn.NoAccountMessage(opts.mint.value, env.keypair.value)
    ensures l.balance.Some? && !env.info.accountFault ==>
              RunBurn(l, opts, answers, env).reports[0].message == env.info.mintFault.value
  {
  }

  /** A burn that lands but whose confirmation or follow-up read fails ends
      with exit 1 under the burn context, yet the balance is already lowered:
      running the command again burns a second time. */
  lemma LandedBurnFailureExitsOne(l: Ledger, opts: BurnOptions, answers: GateAnswers, env: BurnEnv)
    requires Valid(l) && env.keypair.Ok? && opts.mint.Some? && AmountAccepted(opts.amount) && opts.amount.Dec?
    requires env.info == Burn.CleanInfo
    requires l.balance.Some? && Gate(opts.yes, answers) == Proceed
    requires env.net.fault.None? && env.net.afterFault.Some?
    requires Burn.RawAmount(opts.amount, l.mint.value.decimals).Ok?
    requires 0 < Burn.RawAmount(opts.amount, l.mint.value.decimals).value <= l.balance.value
    ensures var raw := Burn.RawAmount(opts.amount, l.mint.value.decimals).value;
            var run := RunBurn(l, opts, answers, env);
            && run.exitCode == 1 && run.stage == BurnFailed
            && run.reports == [Display.Report(env.net.afterFault.value, Some(Display.TokenBurn))]
            && run.ledger.balance == Some(l.balance.value - raw)
  {
    Burn.LandedBurnCanStillFail(l, opts.mint.value, opts.amount, l.mint.value.decimals, env.net);
  }

  /** A finite accepted amount converts to a non-negative raw amount. */
  lemma RawOfAcceptedAmount(amount: Number, decimals: nat)
    requires AmountAccepted(amount) && amount.Dec?
    ensures Burn.RawAmount(amount, decimals).Ok? && Burn.RawAmount(amount, decimals).value >= 0
  {
    var raw := Burn.RawAmount(amount, decimals).value;
    var p := Pow10(amount.scale);
    assert amount.digits > 0;
    NonNegativeRounding(amount.digits * Pow10(decimals), raw, p);
  }

  /** An infinite amount passes the option check but cannot be converted
      to raw units, so the burn fails with exit 1 and nothing changes. */
  lemma InfiniteAmountFails(l: Ledger, opts: BurnOptions, answers: GateAnswers, env: BurnEnv)
    requires Valid(l) && env.keypair.Ok? && opts.mint.Some? && opts.amount == Infinity && env.info == Burn.CleanInfo
    requires l.balance.Some? && Gate(opts.yes, answers) == Proceed
    ensures var run := RunBurn(l, opts, answers, env);
            run.exitCode == 1 && run.stage == BurnFailed && run.ledger == l
  {
  }

  /** A positive quantity rounds to a non-negative whole number. */
  lemma NonNegativeRounding(m: int, r: int, p: int)
    requires p >= 1 && m > 0
    requires 2 * m < 2 * r * p + p
    ensures r >= 0
  {

  }
}

=== FILE: cluster.dfy ===
/** Network selection: the cluster name given on the command line picks the
    RPC endpoint, and mainnet must be asked for by its exact name. */
module Cluster {
  const DevnetUrl: string := "https://api.devnet.solana.com"
  const MainnetUrl: string := "https://api.mainnet-beta.solana.com"
  const Mainnet: string := "mainnet-beta"

  /** The endpoint both commands connect to. */
  function RpcUrl(cluster: string): (url: string)
    ensures url == MainnetUrl <==> cluster == Mainnet
    ensures url == DevnetUrl <==> cluster != Mainnet
  {
    if cluster == Mainnet then MainnetUrl else DevnetUrl
  }

  /** Any spelling other than the exact one, "testnet" included, falls back to devnet. */
  lemma OnlyExactNameReachesMainnet()
    ensures RpcUrl("testnet") == DevnetUrl
    ensures RpcUrl("Mainnet-Beta") == DevnetUrl
    ensures RpcUrl("mainnet") == DevnetUrl
  {
  }
}

=== FILE: create_command.dfy ===
/** The `create` command: check the options, complete the configuration
    with prompts, then either list the plan (dry run) or create the token,
    check that both authorities are revoked, attach metadata when a logo
    was given, and optionally lock the metadata. */
module CreateCommand {
  import opened Wrappers
  import opened JsNumber
  import opened Ledger
  import Text
  import Token
  import Prompts
  import ImageValidation
  import Metadata
  import Authority
  import Cluster
  import Display

  /** The command-line options. `decimals` is `parseInt` of the option,
      whose default is "9" (`None` for `NaN`); `supply` is `Number` of the
      option when one was given as a non-empty string. */
  datatype CreateOptions = CreateOptions(
    name: Option<string>,
    symbol: Option<string>,
    decimals: Option<int>,
    supply: Option<Number>,
    description: Option<string>,
    image: Option<string>,
    lockMetadata: bool,
    dryRun: bool,
    cluster: string,
    yes: bool)

  /** What the environment supplies: the keypair's address (or the loading
      error), the file facts, the node's answer to the rent-exemption query
      behind the cost estimate, the balance shortfall text when the wallet is
      short, the user's answers, and the services' answers, including the
      RPC errors of the two mint reads after creation. */
  datatype CreateEnv = CreateEnv(
    keypair: Result<Address, string>,
    fs: ImageValidation.FileSystem,
    rent: Result<nat, string>,
    shortfall: Option<string>,
    answers: Prompts.Answers,
    confirm: Prompts.ConfirmKey,
    net: Token.CreateNet,
    verifyRead: Option<string>,
    metadata: Metadata.MetadataEnv,
    statusReads: Authority.StatusNet,
    lockKey: Prompts.ConfirmKey,
    revokeNet: Authority.RevokeNet)

  /** How a run ends. */
  datatype CreateStage =
    | BadImage | KeypairFailed | CostFailed | LowBalance | BadDecimals | BadSupply | PromptClosed
    | DryRun | Cancelled
    | CreateFailed | VerifyFailed | StatusFailed | LockClosed | Created

  /** What happened after the token was created. */
  datatype Followup = Followup(metadataAttempted: bool, metadataCreated: bool, lockAttempted: bool, locked: bool)

  const NoFollowup: Followup := Followup(false, false, false, false)

  /** A run: exit code, ledger afterwards, how it ended, the RPC endpoint
      (once the keypair is loaded), the completed configuration (once the
      prompts are done), the dry-run plan, the follow-up steps and the error
      reports shown. */
  datatype CreateCommandRun = CreateCommandRun(
    exitCode: nat,
    ledger: Ledger,
    stage: CreateStage,
    endpoint: Option<string>,
    config: Option<Token.TokenConfig>,
    plan: seq<string>,
    followup: Followup,
    reports: seq<Display.Report>)

  // ---------------------------------------------------------------------
  // Option checks
  // ---------------------------------------------------------------------

  /** The early `--image` check; `None` when there is no image option or it is valid. */
  function ImagePrecheck(image: Option<string>, fs: ImageValidation.FileSystem): (error: Option<string>)
    ensures error.Some? <==> Prompts.GivenText(image) && !ImageValidation.ValidateImagePath(image.value, fs).valid
  {
    if !Prompts.GivenText(image) then None
    else
      var v := ImageValidation.ValidateImagePath(image.value, fs);
      if v.valid then None else Some(v.error.GetOr("Invalid image path"))
  }

  /** The option checks reuse the prompts' wording. */
  const DecimalsError: string := Prompts.DecimalsRangeError
  const SupplyError: string := Prompts.SupplyError

  /** The configuration given on the command line: a symbol is upper-cased,
      decimals must parse to 0..9 and a given supply must be above zero. */
  function BuildPartial(opts: CreateOptions): (r: Result<Prompts.PartialConfig, string>)
    ensures r.Err? <==>
              || opts.decimals.None? || opts.decimals.value < 0 || opts.decimals.value > 9
              || (opts.supply.Some? && (opts.supply.value.NaN? || AtMost(opts.supply.value, 0)))
    ensures r.Err? ==> r.error == DecimalsError || r.error == SupplyError
    ensures r.Ok? ==> r.value.decimals == Some(opts.decimals.value as nat)
    ensures r.Ok? && Prompts.GivenText(opts.name) ==> r.value.name == opts.name
    ensures r.Ok? && !Prompts.GivenText(opts.name) ==> r.value.name.None?
    ensures r.Ok? ==> (Prompts.GivenText(opts.symbol) <==> r.value.symbol.Some?)
    ensures r.Ok? && Prompts.GivenText(opts.symbol) ==> r.value.symbol == Some(Text.Upper(opts.symbol.value))
    ensures r.Ok? && opts.supply.Some? ==> r.value.supply == opts.supply && Truthy(opts.supply.value)
    ensures r.Ok? ==> (Prompts.GivenText(opts.image) <==> r.value.imagePath.Some?)
  {
    if opts.decimals.None? || opts.decimals.value < 0 || opts.decimals.value > 9 then Err(DecimalsError)
    else if opts.supply.Some? && (opts.supply.value.NaN? || AtMost(opts.supply.value, 0)) then Err(SupplyError)
    else
      Ok(Prompts.PartialConfig(
           if Prompts.GivenText(opts.name) then opts.name else None,
           if Prompts.GivenText(opts.symbol) then Some(Text.Upper(opts.symbol.value)) else None,
           Some(opts.decimals.value as nat),
           opts.supply,
           if Prompts.GivenText(opts.description) then opts.description else None,
           if Prompts.GivenText(opts.image) then opts.image else None))
  }

  /** Because the decimals option has a default, decimals are never asked for. */
  lemma DecimalsNeverPrompted(opts: CreateOptions, answers: Prompts.Answers, fs: ImageValidation.FileSystem)
    requires BuildPartial(opts).Ok?
    ensures var c := Prompts.PromptTokenConfig(BuildPartial(opts).value, answers, fs);
            c.Ok? ==> c.value.decimals == opts.decimals.value
  {
  }

  /** A name given on the command line is taken as it is: no length check
      applies to it, unlike a prompted name. */
  lemma NameOptionNotLengthChecked(opts: CreateOptions)
    requires opts.decimals == Some(9) && opts.supply.None?
    requires opts.name.Some? && |opts.name.value| == 40
    ensures BuildPartial(opts).Ok? && BuildPartial(opts).value.name == opts.name
    ensures !Prompts.NameMessage(opts.name.value).None?
  {
  }

  // ---------------------------------------------------------------------
  // Dry run
  // ---------------------------------------------------------------------

  /** The steps a dry run lists. */
  const StepLoadKeypair: string := "Load keypair"
  const StepUploadLogo: string := "Upload logo to IPFS"
  const StepCreateJson: string := "Create metadata JSON"
  const StepUploadJson: string := "Upload metadata JSON to IPFS"
  const StepCreateMint: string := "Create SPL token mint"
  const StepMintSupply: string := "Mint initial supply"
  const StepCreateMetadataAccount: string := "Create Metaplex metadata account"
  const StepRevokeMint: string := "Revoke mint authority"
  const StepRevokeFreeze: string := "Revoke freeze authority"
  const StepRevokeUpdate: string := "Revoke metadata update authority"

  /** The plan a dry run prints, step by step. */
  function DryRunPlan(config: Token.TokenConfig, lockMetadata: bool): (plan: seq<string>)
    ensures |plan| == if Prompts.GivenText(config.imagePath) then (if lockMetadata then 10 else 9) else 5
  {
    if Prompts.GivenText(config.imagePath) then
      [StepLoadKeypair, StepUploadLogo, StepCreateJson, StepUploadJson,
       StepCreateMint, StepMintSupply, StepCreateMetadataAccount,
       StepRevokeMint, StepRevokeFreeze]
      + (if lockMetadata then [StepRevokeUpdate] else [])
    else
      [StepLoadKeypair, StepCreateMint, StepMintSupply, StepRevokeMint, StepRevokeFreeze]
  }

  /** The plan starts with loading the keypair and mentions metadata exactly when a logo is set. */
  lemma PlanShape(config: Token.TokenConfig, lockMetadata: bool)
    ensures var plan := DryRunPlan(config, lockMetadata);
            plan[0] == StepLoadKeypair
            && ((StepCreateMetadataAccount in plan) <==> Prompts.GivenText(config.imagePath))
            && ((StepRevokeUpdate in plan) <==> Prompts.GivenText(config.imagePath) && lockMetadata)
  {
    var plan := DryRunPlan(config, lockMetadata);
    if Prompts.GivenText(config.imagePath) {
      assert plan[6] == StepCreateMetadataAccount;
      if lockMetadata {
        assert plan[9] == StepRevokeUpdate;
      }
    }
  }

  /** Every plan ends the token part by revoking the mint authority and then the freeze authority. */
  lemma PlanRevokesBoth(config: Token.TokenConfig, lockMetadata: bool)
    ensures var plan := DryRunPlan(config, lockMetadata);
            exists i :: 0 <= i < |plan| - 1 && plan[i] == StepRevokeMint && plan[i + 1] == StepRevokeFreeze
  {
    var plan := DryRunPlan(config, lockMetadata);
    if Prompts.GivenText(config.imagePath) {
      assert plan[7] == StepRevokeMint && plan[8] == StepRevokeFreeze;
    } else {
      assert plan[3] == StepRevokeMint && plan[4] == StepRevokeFreeze;
    }
  }

  /** The plan lists the metadata account before the two revocations, but
      a run revokes both authorities inside token creation, before any
      metadata account exists. */
  lemma PlanOrderDiffersFromRun(payer: Address, config: Token.TokenConfig, net: Token.CreateNet, lockMetadata: bool)
    requires Prompts.GivenText(config.imagePath) && net.fault.None?
    ensures var plan := DryRunPlan(config, lockMetadata);
            plan[6] == StepCreateMetadataAccount && plan[7] == StepRevokeMint && plan[8] == StepRevokeFreeze
    ensures var run := Token.CreateToken(Empty, payer, config, net);
            run.outcome.Ok? ==>
              && run.ledger.mint.Some? && run.ledger.mint.value.mintAuthority.None?
              && run.ledger.mint.value.freezeAuthority.None? && run.ledger.metadata.None?
  {
    Token.CreateTokenOnFreshLedger(payer, config, net);
  }

  // ---------------------------------------------------------------------
  // After creation
  // ---------------------------------------------------------------------

  const NotRevokedLead: string := "Authorities not properly revoked:\n"

  /** The message shown when an authority is still held after creation. */
  function NotRevokedMessage(check: Token.AuthorityCheck): string {
    NotRevokedLead
    + "Mint Authority: " + check.mintAuthority.GetOr("REVOKED") + "\n"
    + "Freeze Authority: " + check.freezeAuthority.GetOr("REVOKED")
  }

  /** Whether to lock: the flag, or else the answer to the question, which
      is not asked under `--yes`; closing the question is an error. */
  function LockDecision(flag: bool, yes: bool, key: Prompts.ConfirmKey): (lock: Result<bool, string>)
    ensures flag ==> lock == Ok(true)
    ensures !flag && yes ==> lock == Ok(false)
    ensures !flag && !yes ==> (lock.Err? <==> key == Prompts.Close)
    ensures !flag && !yes && lock.Ok? ==> (lock.value <==> key == Prompts.Yes)
    ensures lock.Err? ==> lock.error == Prompts.ForceClosed
  {
    if flag then Ok(true)
    else if yes then Ok(false)
    else Prompts.PromptLockMetadata(key)
  }

  /** Metadata is attempted when the configuration has both a logo path and a description. */
  predicate WantsMetadata(config: Token.TokenConfig) {
    Prompts.GivenText(config.imagePath) && Prompts.GivenText(config.description)
  }

  /** The steps after `createToken` succeeded, from the ledger it left. */
  function AfterCreate(l: Ledger, payer: Address, config: Token.TokenConfig, result: Token.TokenResult,
                       opts: CreateOptions, env: CreateEnv, endpoint: string): (run: CreateCommandRun)
    ensures run.exitCode == 0 <==> run.stage == Created
    ensures run.stage in {VerifyFailed, StatusFailed, LockClosed, Created}
    ensures run.stage == VerifyFailed ==> run.ledger == l
    ensures env.verifyRead.Some? ==>
              && run.stage == StatusFailed && run.ledger == l && run.followup == NoFollowup
              && run.reports == [Display.Report(env.verifyRead.value, Some(Display.TokenCreation))]
    ensures run.stage == LockClosed ==>
              && run.followup.metadataCreated && !run.followup.lockAttempted
              && !opts.lockMetadata && !opts.yes && env.lockKey == Prompts.Close
              && run.ledger.mint == l.mint && run.ledger.balance == l.balance
              && |run.reports| > 0 && run.reports[|run.reports| - 1] == Display.Report(Prompts.ForceClosed, Some(Display.TokenCreation))
    ensures run.stage == Created ==>
              && env.verifyRead.None? && env.statusReads.mintFault.None?
              && Token.VerifyAuthorities(l, None) == Ok(Token.AuthorityCheck(None, None))
              && run.ledger.mint == l.mint && run.ledger.balance == l.balance
    ensures run.followup.metadataAttempted ==> WantsMetadata(config) && env.verifyRead.None? && run.stage != VerifyFailed
    ensures run.followup.metadataCreated ==> run.followup.metadataAttempted
    ensures run.followup.lockAttempted ==>
              && run.followup.metadataCreated
              && LockDecision(opts.lockMetadata, opts.yes, env.lockKey) == Ok(true)
    ensures run.followup.locked ==> run.followup.lockAttempted
    ensures run.config == Some(config)
  {
    match Token.VerifyAuthorities(l, env.verifyRead)
    case Err(e) =>
      CreateCommandRun(1, l, StatusFailed, Some(endpoint), Some(config), [], NoFollowup, [Display.Report(e, Some(Display.TokenCreation))])
    case Ok(check) =>
      if check.mintAuthority.Some? || check.freezeAuthority.Some? then
        CreateCommandRun(1, l, VerifyFailed, Some(endpoint), Some(config), [], NoFollowup,
                         [Display.Report(NotRevokedMessage(check), Some(Display.Verification))])
      else
        AfterVerified(l, payer, config, opts, env, endpoint)
  }

  /** The optional metadata step, once verification has passed, followed
      by the status read and the lock. */
  function AfterVerified(l: Ledger, payer: Address, config: Token.TokenConfig, opts: CreateOptions, env: CreateEnv,
                         endpoint: string): (run: CreateCommandRun)
    ensures run.exitCode == 0 <==> run.stage == Created
    ensures run.stage in {StatusFailed, LockClosed, Created}
    ensures run.stage == StatusFailed <==> env.statusReads.mintFault.Some? || l.mint.None?
    ensures run.followup.metadataAttempted == WantsMetadata(config)
    ensures run.followup.metadataCreated ==> run.followup.metadataAttempted
    ensures run.stage == LockClosed ==>
              && run.followup.metadataCreated && !run.followup.lockAttempted
              && !opts.lockMetadata && !opts.yes && env.lockKey == Prompts.Close
              && |run.reports| > 0 && run.reports[|run.reports| - 1] == Display.Report(Prompts.ForceClosed, Some(Display.TokenCreation))
    ensures run.ledger.mint == l.mint && run.ledger.balance == l.balance
    ensures run.followup.lockAttempted ==>
              && run.followup.metadataCreated
              && LockDecision(opts.lockMetadata, opts.yes, env.lockKey) == Ok(true)
    ensures run.followup.locked ==> run.followup.lockAttempted
    ensures run.config == Some(config)
  {
    var attempted := WantsMetadata(config);
    var md := if attempted then
                Some(Metadata.CreateTokenMetadata(l, payer,
                       Metadata.MetadataConfig(config.name, config.symbol, config.description.value, config.imagePath.value),
                       env.metadata))
              else None;
    var created := md.Some? && md.value.outcome.Ok?;
    var l2 := if md.Some? then md.value.ledger else l;
    var mdReports := if md.Some? && md.value.outcome.Err?
                     then [Display.Report(md.value.outcome.error.message, Some(Display.MetadataCreation))] else [];
    AfterMetadata(l2, payer, config, opts, env, endpoint, attempted, created, mdReports)
  }

  /** The status read and the optional lock, once the metadata step has run
      (or been skipped): `created` says whether it produced metadata, and
      `mdReports` holds its reported failure, if any. */
  function AfterMetadata(l: Ledger, payer: Address, config: Token.TokenConfig, opts: CreateOptions, env: CreateEnv,
                         endpoint: string, attempted: bool, created: bool, mdReports: seq<Display.Report>): (run: CreateCommandRun)
    ensures run.exitCode == 0 <==> run.stage == Created
    ensures run.stage in {StatusFailed, LockClosed, Created}
    ensures run.stage == StatusFailed <==> env.statusReads.mintFault.Some? || l.mint.None?
    ensures env.statusReads.mintFault.Some? ==>
              run.reports == mdReports + [Display.Report(env.statusReads.mintFault.value, Some(Display.TokenCreation))]
    ensures run.followup.metadataAttempted == attempted && run.followup.metadataCreated == created
    ensures run.stage == LockClosed ==>
              && created && !run.followup.lockAttempted
              && !opts.lockMetadata && !opts.yes && env.lockKey == Prompts.Close
              && run.ledger == l
              && run.reports == mdReports + [Display.Report(Prompts.ForceClosed, Some(Display.TokenCreation))]
    ensures run.ledger.mint == l.mint && run.ledger.balance == l.balance
    ensures !run.followup.locked ==> run.ledger == l
    ensures run.followup.lockAttempted ==>
              && created && l.metadata.Some?
              && LockDecision(opts.lockMetadata, opts.yes, env.lockKey) == Ok(true)
    ensures run.followup.locked ==>
              && run.followup.lockAttempted
              && run.ledger == l.(metadata := Some(l.metadata.value.(isMutable := false)))
    ensures run.config == Some(config)
  {
    match Authority.GetAuthorityStatus(l, payer, env.statusReads)
    case Err(e) =>
      CreateCommandRun(1, l, StatusFailed, Some(endpoint), Some(config), [],
                       Followup(attempted, created, false, false), mdReports + [Display.Report(e, Some(Display.TokenCreation))])
    case Ok(status) =>
      var asked := created && status.metadataUpdate.authority.Some?;
      var lock := if asked then LockDecision(opts.lockMetadata, opts.yes, env.lockKey) else Ok(false);
      if lock.Err? then
        CreateCommandRun(1, l, LockClosed, Some(endpoint), Some(config), [],
                         Followup(attempted, created, false, false), mdReports + [Display.Report(lock.error, Some(Display.TokenCreation))])
      else if lock.value then
        var revoke := Authority.RevokeMetadataAuthority(l, payer, env.revokeNet);
        var lockReports := if revoke.outcome.Err?
                           then [Display.Report(revoke.outcome.error, Some(Display.MetadataRevocation))] else [];
        CreateCommandRun(0, revoke.ledger, Created, Some(endpoint), Some(config), [],
                         Followup(attempted, created, true, revoke.outcome.Ok?), mdReports + lockReports)
      else
        CreateCommandRun(0, l, Created, Some(endpoint), Some(config), [],
                         Followup(attempted, created, false, false), mdReports)
  }

  // ---------------------------------------------------------------------
  // The whole command
  // ---------------------------------------------------------------------

  function Stop(l: Ledger, code: nat, stage: CreateStage, endpoint: Option<string>, config: Option<Token.TokenConfig>,
                reports: seq<Display.Report>): CreateCommandRun {
    CreateCommandRun(code, l, stage, endpoint, config, [], NoFollowup, reports)
  }

  /** From the completed configuration on: the dry run, the confirmation, and creation. */
  function AfterConfig(l: Ledger, payer: Address, endpoint: string, config: Token.TokenConfig,
                       opts: CreateOptions, env: CreateEnv): (run: CreateCommandRun)
    ensures run.exitCode == 0 <==> run.stage in {DryRun, Cancelled, Created}
    ensures run.endpoint == Some(endpoint) && run.config == Some(config)
    ensures run.stage in {DryRun, Cancelled, PromptClosed, CreateFailed, VerifyFailed, StatusFailed, LockClosed, Created}
    ensures run.stage == DryRun <==> opts.dryRun
    ensures run.stage in {DryRun, Cancelled, PromptClosed} ==> run.ledger == l
    ensures run.stage == Cancelled <==> !opts.dryRun && !opts.yes && (env.confirm == Prompts.No || env.confirm == Prompts.Enter)
    ensures run.stage == PromptClosed <==> !opts.dryRun && !opts.yes && env.confirm == Prompts.Close
    ensures run.stage == PromptClosed ==>
              run.exitCode == 1 && run.reports == [Display.Report(Prompts.ForceClosed, Some(Display.TokenCreation))]
    ensures run.stage == DryRun ==> run.plan == DryRunPlan(config, opts.lockMetadata)
    ensures run.stage == Created ==> Token.VerifyAuthorities(run.ledger, None) == Ok(Token.AuthorityCheck(None, None))
  {
    if opts.dryRun then
      CreateCommandRun(0, l, DryRun, Some(endpoint), Some(config), DryRunPlan(config, opts.lockMetadata), NoFollowup, [])
    else if !opts.yes && Prompts.PromptConfirmation(env.confirm).Err? then
      Stop(l, 1, PromptClosed, Some(endpoint), Some(config),
           [Display.Report(Prompts.PromptConfirmation(env.confirm).error, Some(Display.TokenCreation))])
    else if !opts.yes && !Prompts.PromptConfirmation(env.confirm).value then
      Stop(l, 0, Cancelled, Some(endpoint), Some(config), [])
    else
      var create := Token.CreateToken(l, payer, config, env.net);
      match create.outcome
      case Err(e) =>
        Stop(create.ledger, 1, CreateFailed, Some(endpoint), Some(config), [Display.Report(e, Some(Display.TokenCreation))])
      case Ok(result) =>
        AfterCreate(create.ledger, payer, config, result, opts, env, endpoint)
  }

  const LowBalanceLead: string := "Insufficient SOL balance\n\n"

  /** From the loaded keypair on: the balance check, the options, and the prompts. */
  function AfterKeypair(l: Ledger, payer: Address, opts: CreateOptions, env: CreateEnv): (run: CreateCommandRun)
    ensures run.exitCode == 0 <==> run.stage in {DryRun, Cancelled, Created}
    ensures run.endpoint == Some(Cluster.RpcUrl(opts.cluster))
    ensures run.stage in {CostFailed, LowBalance, BadDecimals, BadSupply, PromptClosed, DryRun, Cancelled} ==> run.ledger == l
    ensures run.stage == CostFailed <==> env.rent.Err?
    ensures run.stage == CostFailed ==>
              run.exitCode == 1 && run.reports == [Display.Report(env.rent.error, Some(Display.TokenCreation))]
    ensures run.stage == LowBalance <==> env.rent.Ok? && env.shortfall.Some?
    ensures run.stage == BadDecimals <==>
              env.rent.Ok? && env.shortfall.None? && BuildPartial(opts).Err? && BuildPartial(opts).error == DecimalsError
    ensures run.stage == BadSupply <==>
              env.rent.Ok? && env.shortfall.None? && BuildPartial(opts).Err? && BuildPartial(opts).error == SupplyError
    ensures run.stage in {BadDecimals, BadSupply} ==>
              run.exitCode == 1 && run.reports == [Display.Report(BuildPartial(opts).error, Some(Display.ParameterValidation))]
    ensures run.stage == Created ==> Token.VerifyAuthorities(run.ledger, None) == Ok(Token.AuthorityCheck(None, None))
    ensures run.stage == DryRun ==>
              && run.config.Some?
              && |run.plan| == if Prompts.GivenText(run.config.value.imagePath) then (if opts.lockMetadata then 10 else 9) else 5
  {
    var endpoint := Cluster.RpcUrl(opts.cluster);
    if env.rent.Err? then
      Stop(l, 1, CostFailed, Some(endpoint), None, [Display.Report(env.rent.error, Some(Display.TokenCreation))])
    else if env.shortfall.Some? then
      Stop(l, 1, LowBalance, Some(endpoint), None,
           [Display.Report(LowBalanceLead + env.shortfall.value, Some(Display.BalanceCheck))])
    else
      match BuildPartial(opts)
      case Err(e) =>
        Stop(l, 1, if e == DecimalsError then BadDecimals else BadSupply, Some(endpoint), None,
             [Display.Report(e, Some(Display.ParameterValidation))])
      case Ok(partial) =>
        match Prompts.PromptTokenConfig(partial, env.answers, env.fs)
        case Err(e) => Stop(l, 1, PromptClosed, Some(endpoint), None, [Display.Report(e, Some(Display.TokenCreation))])
        case Ok(config) => AfterConfig(l, payer, endpoint, config, opts, env)
  }

  /** The `create` command's action. */
  function RunCreate(l: Ledger, opts: CreateOptions, env: CreateEnv): (run: CreateCommandRun)
    ensures run.exitCode == 0 <==> run.stage in {DryRun, Cancelled, Created}
    ensures run.stage == BadImage <==> ImagePrecheck(opts.image, env.fs).Some?
    ensures run.stage == KeypairFailed <==> ImagePrecheck(opts.image, env.fs).None? && env.keypair.Err?
    ensures run.stage == CostFailed <==> ImagePrecheck(opts.image, env.fs).None? && env.keypair.Ok? && env.rent.Err?
    ensures run.endpoint.Some? <==> ImagePrecheck(opts.image, env.fs).None? && env.keypair.Ok?
    ensures run.endpoint.Some? ==> run.endpoint.value == Cluster.RpcUrl(opts.cluster)
    ensures run.stage !in {CreateFailed, VerifyFailed, StatusFailed, LockClosed, Created} ==> run.ledger == l
    ensures run.stage == Created ==> Token.VerifyAuthorities(run.ledger, None) == Ok(Token.AuthorityCheck(None, None))
  {
    match ImagePrecheck(opts.image, env.fs)
    case Some(e) => Stop(l, 1, BadImage, None, None, [Display.Report(e, Some(Display.ParameterValidation))])
    case None =>
      match env.keypair
      case Err(e) => Stop(l, 1, KeypairFailed, None, None, [Display.Report(e, Some(Display.TokenCreation))])
      case Ok(payer) => AfterKeypair(l, payer, opts, env)
  }

  /** The decimals option is refused, with exit 1 and no change, exactly
      when it does not parse to a whole number from 0 to 9 (once the image,
      keypair and balance checks have passed). */
  lemma DecimalsOptionRule(l: Ledger, opts: CreateOptions, env: CreateEnv)
    requires ImagePrecheck(opts.image, env.fs).None? && env.keypair.Ok? && env.rent.Ok? && env.shortfall.None?
    ensures var run := RunCreate(l, opts, env);
            run.stage == BadDecimals <==> (opts.decimals.None? || opts.decimals.value < 0 || opts.decimals.value > 9)
    ensures var run := RunCreate(l, opts, env);
            run.stage == BadDecimals ==>
              run.exitCode == 1 && run.ledger == l && run.reports == [Display.Report(DecimalsError, Some(Display.ParameterValidation))]
  {
  }

  /** A given supply is refused, with exit 1 and no change, when it is `NaN`
      or not above zero. */
  lemma SupplyOptionRule(l: Ledger, opts: CreateOptions, env: CreateEnv)
    requires ImagePrecheck(opts.image, env.fs).None? && env.keypair.Ok? && env.rent.Ok? && env.shortfall.None?
    requires opts.decimals.Some? && 0 <= opts.decimals.value <= 9
    ensures var run := RunCreate(l, opts, env);
            run.stage == BadSupply <==> (opts.supply.Some? && (opts.supply.value.NaN? || AtMost(opts.supply.value, 0)))
    ensures var run := RunCreate(l, opts, env);
            run.stage == BadSupply ==> run.exitCode == 1 && run.ledger == l
  {
  }

  /** A dry run creates nothing and exits 0 once the configuration is complete. */
  lemma DryRunChangesNothing(l: Ledger, opts: CreateOptions, env: CreateEnv)
    requires opts.dryRun
    ensures var run := RunCreate(l, opts, env);
            run.ledger == l && run.stage != Created && run.followup == NoFollowup
  {
  }

  /** When the user does not confirm, nothing is created and the command exits 0. */
  lemma CancelledCreatesNothing(l: Ledger, opts: CreateOptions, env: CreateEnv)
    requires ImagePrecheck(opts.image, env.fs).None? && env.keypair.Ok? && env.rent.Ok? && env.shortfall.None?
    requires BuildPartial(opts).Ok? && Prompts.PromptTokenConfig(BuildPartial(opts).value, env.answers, env.fs).Ok?
    requires !opts.dryRun && !opts.yes && (env.confirm == Prompts.No || env.confirm == Prompts.Enter)
    ensures var run := RunCreate(l, opts, env);
            run.exitCode == 0 && run.stage == Cancelled && run.ledger == l && run.reports == []
  {
  }

  /** Closing the confirmation question is an error: exit 1 under the token
      creation context, and nothing is created. */
  lemma ClosedConfirmationCreatesNothing(l: Ledger, opts: CreateOptions, env: CreateEnv)
    requires ImagePrecheck(opts.image, env.fs).None? && env.keypair.Ok? && env.rent.Ok? && env.shortfall.None?
    requires BuildPartial(opts).Ok? && Prompts.PromptTokenConfig(BuildPartial(opts).value, env.answers, env.fs).Ok?
    requires !opts.dryRun && !opts.yes && env.confirm == Prompts.Close
    ensures var run := RunCreate(l, opts, env);
            && run.exitCode == 1 && run.stage == PromptClosed && run.ledger == l
            && run.reports == [Display.Report(Prompts.ForceClosed, Some(Display.TokenCreation))]
  {
  }

  /** A dry run with a complete configuration exits 0 with the plan for that configuration. */
  lemma DryRunListsPlan(l: Ledger, opts: CreateOptions, env: CreateEnv)
    requires ImagePrecheck(opts.image, env.fs).None? && env.keypair.Ok? && env.rent.Ok? && env.shortfall.None?
    requires BuildPartial(opts).Ok? && Prompts.PromptTokenConfig(BuildPartial(opts).value, env.answers, env.fs).Ok?
    requires opts.dryRun
    ensures var run := RunCreate(l, opts, env);
            var config := Prompts.PromptTokenConfig(BuildPartial(opts).value, env.answers, env.fs).value;
            && run.exitCode == 0 && run.stage == DryRun && run.ledger == l
            && run.plan == DryRunPlan(config, opts.lockMetadata)
  {
  }

  /** A token this command created passes the authority check: after a
      successful creation the "not revoked" verdict never comes, and only a
      failing mint read can stop the run there. */
  lemma CreationPassesVerification(l: Ledger, payer: Address, config: Token.TokenConfig, result: Token.TokenResult,
                                   opts: CreateOptions, env: CreateEnv, endpoint: string)
    requires Token.CreateToken(l, payer, config, env.net).outcome.Ok?
    ensures AfterCreate(Token.CreateToken(l, payer, config, env.net).ledger, payer, config, result, opts, env, endpoint).stage
              != VerifyFailed
    ensures env.verifyRead.None? && env.statusReads.mintFault.None? ==>
              AfterCreate(Token.CreateToken(l, payer, config, env.net).ledger, payer, config, result, opts, env, endpoint).stage
                in {Created, LockClosed}
  {
    Token.CreatedMintIsRevoked(l, payer, config, env.net, []);
  }

  /** A failing mint read after creation (the verification read or the
      status read) ends the run with exit 1 under the creation context,
      although the token already exists with both authorities revoked. */
  lemma ReadFailureAfterCreation(l: Ledger, payer: Address, config: Token.TokenConfig, result: Token.TokenResult,
                                 opts: CreateOptions, env: CreateEnv, endpoint: string)
    requires Token.CreateToken(l, payer, config, env.net).outcome.Ok?
    requires env.verifyRead.Some? || env.statusReads.mintFault.Some?
    ensures var created := Token.CreateToken(l, payer, config, env.net).ledger;
            var run := AfterCreate(created, payer, config, result, opts, env, endpoint);
            && run.exitCode == 1 && run.stage == StatusFailed
            && run.ledger.mint == created.mint
            && Token.VerifyAuthorities(run.ledger, None) == Ok(Token.AuthorityCheck(None, None))
            && |run.reports| > 0 && run.reports[|run.reports| - 1].context == Some(Display.TokenCreation)
  {
    var created := Token.CreateToken(l, payer, config, env.net).ledger;
    Token.CreatedMintIsRevoked(l, payer, config, env.net, []);
    if env.verifyRead.None? {
      MetadataNeverAttaches(created, payer, config, result, opts, env, endpoint);
    }
  }

  /** After the prompts the description is never empty, so metadata is
      attempted exactly when a logo path is set. */
  lemma MetadataFollowsLogo(partial: Prompts.PartialConfig, answers: Prompts.Answers, fs: ImageValidation.FileSystem)
    requires Prompts.PromptTokenConfig(partial, answers, fs).Ok?
    ensures var config := Prompts.PromptTokenConfig(partial, answers, fs).value;
            WantsMetadata(config) <==> Prompts.GivenText(config.imagePath)
  {
  }

  /** A failed metadata step is reported but the command still succeeds,
      and the token and its revoked authorities are untouched by it. */
  lemma MetadataFailureKeepsSuccess(l: Ledger, payer: Address, config: Token.TokenConfig, result: Token.TokenResult,
                                    opts: CreateOptions, env: CreateEnv, endpoint: string)
    requires Token.VerifyAuthorities(l, env.verifyRead) == Ok(Token.AuthorityCheck(None, None))
    requires env.statusReads.mintFault.None? && WantsMetadata(config)
    requires Metadata.CreateTokenMetadata(l, payer,
               Metadata.MetadataConfig(config.name, config.symbol, config.description.value, config.imagePath.value),
               env.metadata).outcome.Err?
    ensures var run := AfterCreate(l, payer, config, result, opts, env, endpoint);
            && run.exitCode == 0 && run.stage == Created && run.ledger == l
            && run.followup == Followup(true, false, false, false)
            && |run.reports| == 1 && run.reports[0].context == Some(Display.MetadataCreation)
  {
  }

  /** Under `--yes` without `--lock-metadata` the metadata is never locked. */
  lemma YesWithoutFlagNeverLocks(l: Ledger, payer: Address, config: Token.TokenConfig, result: Token.TokenResult,
                                 opts: CreateOptions, env: CreateEnv, endpoint: string)
    requires opts.yes && !opts.lockMetadata
    ensures !AfterCreate(l, payer, config, result, opts, env, endpoint).followup.lockAttempted
    ensures AfterCreate(l, payer, config, result, opts, env, endpoint).stage != LockClosed
  {
  }

  /** Metadata needs the mint authority's signature, and the verification
      step has just confirmed it is revoked: the metadata step, when
      attempted, always fails and is only reported, and the ledger is left
      as creation made it. Unless the status read fails, the command still
      exits 0. */
  lemma MetadataNeverAttaches(l: Ledger, payer: Address, config: Token.TokenConfig, result: Token.TokenResult,
                              opts: CreateOptions, env: CreateEnv, endpoint: string)
    requires Token.VerifyAuthorities(l, env.verifyRead) == Ok(Token.AuthorityCheck(None, None))
    ensures var run := AfterCreate(l, payer, config, result, opts, env, endpoint);
            && run.ledger == l
            && run.followup == Followup(WantsMetadata(config), false, false, false)
            && (run.stage == Created <==> env.statusReads.mintFault.None?)
            && (run.stage != Created ==> run.stage == StatusFailed && run.exitCode == 1)
            && (WantsMetadata(config) ==> |run.reports| >= 1 && run.reports[0].context == Some(Display.MetadataCreation))
    ensures var run := AfterCreate(l, payer, config, result, opts, env, endpoint);
            env.statusReads.mintFault.None? ==>
              && run.exitCode == 0
              && (WantsMetadata(config) ==> |run.reports| == 1)
              && (!WantsMetadata(config) ==> run.reports == [])
  {
    if WantsMetadata(config) {
      var mdConfig := Metadata.MetadataConfig(config.name, config.symbol, config.description.value, config.imagePath.value);
      Metadata.RevokedMintRefusesMetadata(l, payer, mdConfig, env.metadata);
    }
  }

  /** So the lock question is never reached after a successful creation,
      whatever the options and answers: `--lock-metadata` has no effect and
      closing the lock question cannot happen. */
  lemma LockNeverReached(l: Ledger, payer: Address, config: Token.TokenConfig, result: Token.TokenResult,
                         opts: CreateOptions, env: CreateEnv, endpoint: string)
    requires Token.CreateToken(l, payer, config, env.net).outcome.Ok?
    ensures var run := AfterCreate(Token.CreateToken(l, payer, config, env.net).ledger, payer, config, result, opts, env, endpoint);
            && run.stage != LockClosed
            && !run.followup.metadataCreated && !run.followup.lockAttempted && !run.followup.locked
    ensures env.verifyRead.None? && env.statusReads.mintFault.None? ==>
              AfterCreate(Token.CreateToken(l, payer, config, env.net).ledger, payer, config, result, opts, env, endpoint).stage
                == Created
  {
    var created := Token.CreateToken(l, payer, config, env.net).ledger;
    Token.CreatedMintIsRevoked(l, payer, config, env.net, []);
    if env.verifyRead.None? {
      MetadataNeverAttaches(created, payer, config, result, opts, env, endpoint);
    }
  }
}

=== FILE: display.dfy ===
/** The decision logic behind the terminal output: explorer links, the
    error header and the remediation hint picked for an error message, and
    the labels given to the revoke transactions. */
module Display {
  import opened Wrappers
  import Text
  import Rules
  import Cluster
  import Token
  import Ledger

  // ---------------------------------------------------------------------
  // Explorer links
  // ---------------------------------------------------------------------

  const TxPrefix: string := "https://explorer.solana.com/tx/"
  const AddressPrefix: string := "https://explorer.solana.com/address/"

  /** The query naming the cluster; mainnet is the explorer's default and gets none. */
  function ClusterParam(cluster: string): (q: string)
    ensures q == [] <==> cluster == Cluster.Mainnet
    ensures q != [] ==> q == "?cluster=" + cluster
  {
    if cluster == Cluster.Mainnet then "" else "?cluster=" + cluster
  }

  /** An identifier that cannot be mistaken for the start of the query. */
  predicate NoQuery(id: string) {
    forall i :: 0 <= i < |id| ==> id[i] != '?'
  }

  /** `getExplorerUrl`. */
  function ExplorerUrl(signature: string, cluster: string): (url: string)
    ensures |url| >= |TxPrefix| + |signature|
    ensures url[..|TxPrefix|] == TxPrefix
    ensures url[|TxPrefix|..|TxPrefix| + |signature|] == signature
    ensures |url| == |TxPrefix| + |signature| <==> cluster == Cluster.Mainnet
  {
    TxPrefix + signature + ClusterParam(cluster)
  }

  /** `getExplorerAddressUrl`. */
  function ExplorerAddressUrl(address: string, cluster: string): (url: string)
    ensures |url| >= |AddressPrefix| + |address|
    ensures url[..|AddressPrefix|] == AddressPrefix
    ensures url[|AddressPrefix|..|AddressPrefix| + |address|] == address
    ensures |url| == |AddressPrefix| + |address| <==> cluster == Cluster.Mainnet
  {
    AddressPrefix + address + ClusterParam(cluster)
  }

  /** The position of the first '?' at or after `i`, or the length when there is none. */
  function QueryStart(u: string, i: nat): (k: nat)
    requires i <= |u|
    ensures i <= k <= |u|
    ensures k < |u| ==> u[k] == '?'
    decreases |u| - i
  {
    if i == |u| then |u| else if u[i] == '?' then i else QueryStart(u, i + 1)
  }

  /** Skipping a stretch without '?' does not move the first '?'. */
  lemma {:induction false} QueryStartSkips(u: string, i: nat, j: nat)
    requires i <= j <= |u|
    requires forall k :: i <= k < j ==> u[k] != '?'
    ensures QueryStart(u, i) == QueryStart(u, j)
    decreases j - i
  {
    if i < j {
      QueryStartSkips(u, i + 1, j);
    }
  }

  /** In a link the query, if any, starts right after the identifier. */
  lemma QueryAfterId(p: string, id: string, c: string)
    requires NoQuery(id)
    ensures QueryStart(p + id + ClusterParam(c), |p|) == |p| + |id|
  {
    var u := p + id + ClusterParam(c);
    QueryStartSkips(u, |p|, |p| + |id|);
  }

  /** A link built from a fixed prefix, a '?'-free identifier and a cluster
      query determines the identifier and the cluster. */
  lemma LinkDeterminesInputs(p: string, id1: string, c1: string, id2: string, c2: string)
    requires NoQuery(id1) && NoQuery(id2)
    requires p + id1 + ClusterParam(c1) == p + id2 + ClusterParam(c2)
    ensures id1 == id2 && c1 == c2
  {
    var u := p + id1 + ClusterParam(c1);
    var q1, q2 := ClusterParam(c1), ClusterParam(c2);
    QueryAfterId(p, id1, c1);
    QueryAfterId(p, id2, c2);
    assert id1 == u[|p|..|p| + |id1|] == id2;
    assert q1 == u[|p| + |id1|..] == q2;
    if q1 != [] {
      assert c1 == q1[9..] == c2;
    }
  }

  /** Distinct transactions, or one transaction on distinct clusters, get distinct links. */
  lemma ExplorerUrlInjective(s1: string, c1: string, s2: string, c2: string)
    requires NoQuery(s1) && NoQuery(s2)
    ensures ExplorerUrl(s1, c1) == ExplorerUrl(s2, c2) <==> s1 == s2 && c1 == c2
  {
    if ExplorerUrl(s1, c1) == ExplorerUrl(s2, c2) {
      LinkDeterminesInputs(TxPrefix, s1, c1, s2, c2);
    }
  }

  /** The same holds for address links. */
  lemma ExplorerAddressUrlInjective(a1: string, c1: string, a2: string, c2: string)
    requires NoQuery(a1) && NoQuery(a2)
    ensures ExplorerAddressUrl(a1, c1) == ExplorerAddressUrl(a2, c2) <==> a1 == a2 && c1 == c2
  {
    if ExplorerAddressUrl(a1, c1) == ExplorerAddressUrl(a2, c2) {
      LinkDeterminesInputs(AddressPrefix, a1, c1, a2, c2);
    }
  }

  /** A link carries no query exactly when the command talks to the mainnet endpoint. */
  lemma LinksFollowEndpoint(signature: string, cluster: string)
    ensures ExplorerUrl(signature, cluster) == TxPrefix + signature <==> Cluster.RpcUrl(cluster) == Cluster.MainnetUrl
  {
  }

  // ---------------------------------------------------------------------
  // Error report
  // ---------------------------------------------------------------------

  /** One call of `displayError`: the message and the context it was shown under. */
  datatype Report = Report(message: string, context: Option<string>)

  /** The first line of an error report; a context is shown only when it is non-empty. */
  function ErrorHeader(context: Option<string>): (h: string)
    ensures context.None? || context == Some("") ==> h == "\n\U{2717} Error:\n"
    ensures context.Some? && context.value != "" ==>
              Text.OccursAt(h, " (" + context.value + ")", |"\n\U{2717} Error"|)
  {
    var shown := if context.Some? && context.value != "" then " (" + context.value + ")" else "";
    var h := "\n\U{2717} Error" + shown + ":\n";
    assert h[|"\n\U{2717} Error"|..|"\n\U{2717} Error"| + |shown|] == shown;
    h
  }

  /** The contexts the commands name when they report an error. */
  const ParameterValidation: string := "parameter validation"
  const TokenCreation: string := "token creation"
  const BalanceCheck: string := "balance check"
  const Verification: string := "verification"
  const MetadataCreation: string := "metadata creation"
  const MetadataRevocation: string := "metadata authority revocation"
  const TokenBurn: string := "token burn"
  const AccountLookup: string := "token account lookup"

  /** The remediation groups of `displayError`. */
  datatype Hint = AirdropHint | KeygenHint | RetryHint | GenericHint

  predicate AboutFunds(lower: string) { Text.Contains(lower, "insufficient") || Text.Contains(lower, "balance") }
  predicate AboutKeypair(lower: string) { Text.Contains(lower, "keypair") || Text.Contains(lower, "file not found") }
  predicate AboutTimeout(lower: string) { Text.Contains(lower, "timeout") || Text.Contains(lower, "blockhash") }

  /** The hint chosen for a message, matched against its lower-cased text in source order. */
  function ChooseHint(message: string): (h: Hint)
    ensures h == Rules.FirstMatch(HintRules(), Text.Lower(message), GenericHint)
  {
    var lower := Text.Lower(message);
    if AboutFunds(lower) then AirdropHint
    else if AboutKeypair(lower) then KeygenHint
    else if AboutTimeout(lower) then RetryHint
    else GenericHint
  }

  function HintRules(): seq<(Hint, string -> bool)> {
    [(AirdropHint, AboutFunds), (KeygenHint, AboutKeypair), (RetryHint, AboutTimeout)]
  }

  /** The `if` chain is the first-match reading of the table over the lower-cased message. */
  lemma HintFollowsTable(message: string)
    ensures ChooseHint(message) == Rules.FirstMatch(HintRules(), Text.Lower(message), GenericHint)
  {
  }

  /** Case does not matter: a message and its upper-cased form get the same hint. */
  lemma HintIgnoresCase(message: string)
    ensures ChooseHint(Text.Upper(message)) == ChooseHint(message)
  {
    Text.LowerForgetsCase(message);
  }

  /** A message about funds gets the airdrop hint even when it also mentions a timeout. */
  lemma FundsHintWins(message: string)
    requires Text.Contains(Text.Lower(message), "insufficient")
    ensures ChooseHint(message) == AirdropHint
  {
  }

  /** The lines a hint group prints. */
  function HintLines(h: Hint): (lines: seq<string>)
    ensures |lines| == if h == GenericHint then 4 else 3
    ensures lines[0] == (if h == GenericHint then Troubleshooting else ToFix)
  {
    match h
    case AirdropHint => [ToFix, AirdropCommand, AirdropNote]
    case KeygenHint => [ToFix, KeygenCommand, KeygenNote]
    case RetryHint => [ToFix, RetryAdvice, RetryNote]
    case GenericHint => [Troubleshooting, CheckNetwork, CheckEndpoint, CheckStatus]
  }

  const ToFix: string := "\nTo fix:"
  const Troubleshooting: string := "\nTroubleshooting:"
  const AirdropCommand: string := "  solana airdrop 1 --url devnet"
  const AirdropNote: string := "  (or use mainnet-beta with real SOL)"
  const KeygenCommand: string := "  solana-keygen new --outfile ~/.config/solana/id.json"
  const KeygenNote: string := "  (generates a new keypair file)"
  const RetryAdvice: string := "  Try again - devnet can be unstable"
  const RetryNote: string := "  (consider using mainnet-beta for production)"
  const CheckNetwork: string := "  - Check your network connection"
  const CheckEndpoint: string := "  - Verify cluster endpoint is accessible"
  const CheckStatus: string := "  - Check Solana status: status.solana.com"

  /** Whether a printed line opens a hint group. */
  predicate IsGroupHeading(line: string) {
    line == ToFix || line == Troubleshooting
  }

  /** `displayError`: the header, the message, one hint group and a blank line. */
  function DisplayError(message: string, context: Option<string>): (lines: seq<string>)
    ensures |lines| >= 6
    ensures lines[0] == ErrorHeader(context) && lines[1] == message
    ensures lines[2..|lines| - 1] == HintLines(ChooseHint(message))
    ensures lines[|lines| - 1] == ""
  {
    [ErrorHeader(context), message] + HintLines(ChooseHint(message)) + [""]
  }

  /** Exactly one hint group is printed: one heading, right after the message. */
  lemma OneHintGroup(message: string, context: Option<string>)
    requires !IsGroupHeading(message)
    ensures var lines := DisplayError(message, context);
            forall i :: 1 <= i < |lines| ==> (IsGroupHeading(lines[i]) <==> i == 2)
  {
  }

  // ---------------------------------------------------------------------
  // Creation summary
  // ---------------------------------------------------------------------

  /** The label of the revoke transaction at position `idx`. */
  function RevokeLabel(idx: nat): (caption: string)
    ensures caption == MintRevoked <==> idx == 0
    ensures caption == FreezeRevoked <==> idx != 0
  {
    if idx == 0 then MintRevoked else FreezeRevoked
  }

  const MintRevoked: string := "Mint authority revoked"
  const FreezeRevoked: string := "Freeze authority revoked"

  /** The transaction lines for the revoke signatures, from position `from` on. */
  function RevokeLines(sigs: seq<string>, from: nat, cluster: string): (lines: seq<string>)
    ensures |lines| == |sigs|
    ensures forall i :: 0 <= i < |sigs| ==>
              lines[i] == "  - " + RevokeLabel(from + i) + ": " + ExplorerUrl(sigs[i], cluster)
    decreases |sigs|
  {
    if sigs == [] then []
    else ["  - " + RevokeLabel(from) + ": " + ExplorerUrl(sigs[0], cluster)] + RevokeLines(sigs[1..], from + 1, cluster)
  }

  /** Two revoke signatures are labelled mint first, freeze second. */
  lemma TwoRevokeLines(mintTx: string, freezeTx: string, cluster: string)
    ensures RevokeLines([mintTx, freezeTx], 0, cluster) ==
              [ "  - " + MintRevoked + ": " + ExplorerUrl(mintTx, cluster),
                "  - " + FreezeRevoked + ": " + ExplorerUrl(freezeTx, cluster) ]
  {
    var lines := RevokeLines([mintTx, freezeTx], 0, cluster);
    assert lines[0] == "  - " + MintRevoked + ": " + ExplorerUrl(mintTx, cluster);
    assert lines[1] == "  - " + FreezeRevoked + ": " + ExplorerUrl(freezeTx, cluster);
  }

  /** For a token this tool created, the first revoke line links the mint
      revocation and the second the freeze revocation. */
  lemma CreatedTokenRevokeLines(l: Ledger.Ledger, payer: string, config: Token.TokenConfig, net: Token.CreateNet, cluster: string)
    requires Token.CreateToken(l, payer, config, net).outcome.Ok?
    ensures RevokeLines(Token.CreateToken(l, payer, config, net).outcome.value.revokeAuthoritiesTxSignatures, 0, cluster) ==
              [ "  - " + MintRevoked + ": " + ExplorerUrl(net.revokeMintTx, cluster),
                "  - " + FreezeRevoked + ": " + ExplorerUrl(net.revokeFreezeTx, cluster) ]
  {
    var r := Token.CreateToken(l, payer, config, net).outcome.value;
    assert r.revokeAuthoritiesTxSignatures == [net.revokeMintTx, net.revokeFreezeTx];
    TwoRevokeLines(net.revokeMintTx, net.revokeFreezeTx, cluster);
    assert RevokeLines(r.revokeAuthoritiesTxSignatures, 0, cluster) == RevokeLines([net.revokeMintTx, net.revokeFreezeTx], 0, cluster);
  }
}

=== FILE: errors.dfy ===
/** The parts of a thrown error the tool inspects: its message, the
    Node.js error code, and the HTTP status of a failed request. */
module Errors {
  import opened Wrappers
  import Text

  /** A thrown error: `error.message`, `error.code` and `error.response?.status`. */
  datatype Thrown = Thrown(message: string, code: Option<string>, status: Option<int>)

  /** `new Error(message)`. */
  function Plain(message: string): Thrown {
    Thrown(message, None, None)
  }

  /** The message names the Pinata JWT variable; such errors already carry
      their own remediation steps and are passed on unchanged. */
  predicate MentionsJwt(e: Thrown) {
    Text.Contains(e.message, "PINATA_JWT")
  }

  /** The HTTP status is `s`. */
  predicate HasStatus(e: Thrown, s: int) {
    e.status == Some(s)
  }

  /** A message that starts with "PINATA_JWT" mentions it. */
  lemma LeadingJwtMentioned(rest: string)
    ensures MentionsJwt(Plain("PINATA_JWT" + rest))
  {
    assert Text.OccursAt("PINATA_JWT" + rest, "PINATA_JWT", 0);
    Text.ContainsAt("PINATA_JWT" + rest, "PINATA_JWT", 0);
  }
}

=== FILE: image_validation.dfy ===
/** Image-path validation before an upload: the file must exist, carry an
    image extension, and be at most 10 MiB. File-system calls are replaced
    by a table of file facts; Node's `path.extname` is modelled exactly. */
module ImageValidation {
  import opened Wrappers
  import Text
  import JsNumber

  // ---------------------------------------------------------------------
  // Node's path.extname (POSIX)
  // ---------------------------------------------------------------------

  /** The path without its trailing slashes. */
  function StripTrailingSlashes(p: string): (r: string)
    ensures |r| <= |p| && r == p[..|r|]
    ensures r == [] || r[|r| - 1] != '/'
    ensures forall i :: |r| <= i < |p| ==> p[i] == '/'
  {
    if p != [] && p[|p| - 1] == '/' then StripTrailingSlashes(p[..|p| - 1]) else p
  }

  /** The index just after the last '/' of `s`, or 0 when there is none. */
  function AfterLastSlash(s: string): (k: nat)
    ensures k <= |s|
    ensures k == 0 || s[k - 1] == '/'
    ensures forall i :: k <= i < |s| ==> s[i] != '/'
  {
    if s == [] then 0
    else if s[|s| - 1] == '/' then |s|
    else AfterLastSlash(s[..|s| - 1])
  }

  /** The index of the last '.' of `s`, or -1 when there is none. */
  function LastDot(s: string): (k: int)
    ensures -1 <= k < |s|
    ensures k >= 0 ==> s[k] == '.'
    ensures forall i :: k < i < |s| ==> s[i] != '.'
  {
    if s == [] then -1
    else if s[|s| - 1] == '.' then |s| - 1
    else LastDot(s[..|s| - 1])
  }

  /** The properties `AfterLastSlash` ensures determine its result. */
  lemma AfterLastSlashUnique(s: string, k: nat)
    requires k <= |s| && (k == 0 || s[k - 1] == '/')
    requires forall i :: k <= i < |s| ==> s[i] != '/'
    ensures AfterLastSlash(s) == k
  {
  }

  /** The properties `LastDot` ensures determine its result. */
  lemma LastDotUnique(s: string, k: int)
    requires -1 <= k < |s| && (k >= 0 ==> s[k] == '.')
    requires forall i :: k < i < |s| ==> s[i] != '.'
    ensures LastDot(s) == k
  {
  }

  /** The last path component, trailing slashes ignored. */
  function BaseName(p: string): string {
    var s := StripTrailingSlashes(p);
    s[AfterLastSlash(s)..]
  }

  /** Where `path.extname(p)` sits in `p`: from the last '.' of the last
      component to the end of that component, or the empty span when the
      component has no dot, only a leading one (".png"), or is "..". */
  function ExtSpan(p: string): (span: (nat, nat))
    ensures span.0 <= span.1 <= |p|
    ensures span.0 < span.1 ==> p[span.0] == '.'
    ensures forall i :: span.0 <= i < span.1 ==> p[i] != '/'
    ensures forall i :: span.0 < i < span.1 ==> p[i] != '.'
  {
    var s := StripTrailingSlashes(p);
    var a := AfterLastSlash(s);
    var b := s[a..];
    var k := LastDot(b);
    if k <= 0 || b == ".." then (0, 0) else (a + k, |s|)
  }

  /** `path.extname(p)`. */
  function ExtName(p: string): (e: string)
    ensures e == [] || (e[0] == '.' && |e| <= |p|)
    ensures forall i :: 0 <= i < |e| ==> e[i] != '/'
    ensures forall i :: 0 < i < |e| ==> e[i] != '.'
  {
    p[ExtSpan(p).0..ExtSpan(p).1]
  }

  /** Node's own algorithm: one backwards scan with five state variables.
      It computes the same extension as the component-based definition. */
  method ScanExtName(path: string) returns (ext: string)
    ensures ext == ExtName(path)
  {
    ghost var e := |StripTrailingSlashes(path)|;
    var startDot := -1;
    var startPart := 0;
    var end := -1;
    var matchedSlash := true;
    var preDotState := 0;
    var i := |path| - 1;
    var done := false;
    while i >= 0 && !done
      invariant -1 <= i < |path|
      invariant matchedSlash <==> i + 1 >= e
      invariant matchedSlash ==> end == -1 && startDot == -1 && preDotState == 0
      invariant !matchedSlash ==> end == e
      invariant !matchedSlash ==> forall j :: i + 1 <= j < e ==> path[j] != '/'
      invariant !done ==> startPart == 0
      invariant done ==> 0 <= i && path[i] == '/' && startPart == i + 1 && !matchedSlash
      invariant startDot == -1 ==> forall j :: i + 1 <= j < e ==> path[j] != '.'
      invariant startDot != -1 ==> i + 1 <= startDot < e && path[startDot] == '.'
      invariant startDot != -1 ==> forall j :: startDot < j < e ==> path[j] != '.'
      invariant startDot == -1 || startDot == i + 1 ==> preDotState == 0
      invariant startDot > i + 1 ==> preDotState == (if path[i + 1] == '.' then 1 else -1)
      decreases i + 1, !done
    {
      var c := path[i];
      if c == '/' {
        if !matchedSlash {
          startPart := i + 1;
          done := true;
        } else {
          i := i - 1;
        }
      } else {
        if end == -1 {
          matchedSlash := false;
          end := i + 1;
        }
        if c == '.' {
          if startDot == -1 {
            startDot := i;
          } else if preDotState != 1 {
            preDotState := 1;
          }
        } else if startDot != -1 {
          preDotState := -1;
        }
        i := i - 1;
      }
    }
    ScanAgrees(path, e, startPart, startDot, end, preDotState);
    if startDot == -1 || end == -1 || preDotState == 0
       || (preDotState == 1 && startDot == end - 1 && startDot == startPart + 1) {
      ext := "";
    } else {
      ext := path[startDot..end];
    }
  }

  /** The scan's final state pins down the last component and its last dot. */
  lemma ScanAgrees(path: string, e: int, startPart: int, startDot: int, end: int, preDotState: int)
    requires e == |StripTrailingSlashes(path)|
    requires 0 <= startPart
    requires end == -1 ==> e == 0 && startDot == -1
    requires end != -1 ==> end == e && 0 <= startPart <= e
    requires end != -1 ==> startPart == 0 || path[startPart - 1] == '/'
    requires end != -1 ==> forall j :: startPart <= j < e ==> path[j] != '/'
    requires startDot == -1 ==> forall j :: startPart <= j < e ==> path[j] != '.'
    requires startDot != -1 ==> startPart <= startDot < e && path[startDot] == '.'
    requires startDot != -1 ==> forall j :: startDot < j < e ==> path[j] != '.'
    requires startDot == -1 || startDot == startPart ==> preDotState == 0
    requires startDot > startPart ==> preDotState == (if path[startPart] == '.' then 1 else -1)
    ensures ExtSpan(path) ==
              if startDot == -1 || end == -1 || preDotState == 0
                 || (preDotState == 1 && startDot == end - 1 && startDot == startPart + 1)
              then (0, 0) else (startDot, end)
  {
    if end != -1 {
      ComponentSpan(path, e, startPart, startDot);
    }
  }

  /** The extension span, given where the last component starts (`a`) and
      where its last dot is (`d`, or -1). */
  lemma ComponentSpan(path: string, e: int, a: int, d: int)
    requires e == |StripTrailingSlashes(path)|
    requires 0 <= a <= e
    requires a == 0 || path[a - 1] == '/'
    requires forall j :: a <= j < e ==> path[j] != '/'
    requires d == -1 ==> forall j :: a <= j < e ==> path[j] != '.'
    requires d != -1 ==> a <= d < e && path[d] == '.'
    requires d != -1 ==> forall j :: d < j < e ==> path[j] != '.'
    ensures ExtSpan(path) ==
              if d == -1 || d == a || (d == a + 1 && e == a + 2 && path[a] == '.')
              then (0, 0) else (d, e)
  {
    ComponentStart(path, e, a);
    ComponentDot(path, e, a, d);
    var s := StripTrailingSlashes(path);
    var b := s[a..];
    var k := if d == -1 then -1 else d - a;
    var dots := b == "..";
    assert dots <==> |b| == 2 && path[a] == '.' && path[a + 1] == '.' by {
      assert b == path[a..e];
      DotDot(b);
    }
    ExtSpanFrom(path, a, k);
    assert k <= 0 <==> d == -1 || d == a;
    assert k > 0 ==> (dots <==> d == a + 1 && e == a + 2 && path[a] == '.');
  }

  /** `ExtSpan` in terms of the last component's start and its last dot. */
  lemma ExtSpanFrom(p: string, a: int, k: int)
    requires AfterLastSlash(StripTrailingSlashes(p)) == a
    requires LastDot(StripTrailingSlashes(p)[a..]) == k
    ensures var s := StripTrailingSlashes(p);
            ExtSpan(p) == if k <= 0 || s[a..] == ".." then (0, 0) else (a + k, |s|)
  {
  }

  /** Where the last component begins. */
  lemma ComponentStart(path: string, e: int, a: int)
    requires e == |StripTrailingSlashes(path)|
    requires 0 <= a <= e
    requires a == 0 || path[a - 1] == '/'
    requires forall j :: a <= j < e ==> path[j] != '/'
    ensures AfterLastSlash(StripTrailingSlashes(path)) == a
  {
    var s := StripTrailingSlashes(path);
    assert s == path[..e];
    AfterLastSlashUnique(s, a);
  }

  /** Where the last component's last dot is, relative to the component. */
  lemma ComponentDot(path: string, e: int, a: int, d: int)
    requires e == |StripTrailingSlashes(path)|
    requires 0 <= a <= e
    requires d == -1 ==> forall j :: a <= j < e ==> path[j] != '.'
    requires d != -1 ==> a <= d < e && path[d] == '.'
    requires d != -1 ==> forall j :: d < j < e ==> path[j] != '.'
    ensures LastDot(StripTrailingSlashes(path)[a..]) == if d == -1 then -1 else d - a
  {
    var b := StripTrailingSlashes(path)[a..];
    assert b == path[a..e];
    LastDotUnique(b, if d == -1 then -1 else d - a);
  }

  lemma DotDot(b: string)
    ensures b == ".." <==> |b| == 2 && b[0] == '.' && b[1] == '.'
  {
  }

  /** Two strings with '/' and '.' at the same positions. */
  predicate SameShape(s: string, t: string) {
    |s| == |t| && forall i :: 0 <= i < |s| ==> (s[i] == '/' <==> t[i] == '/') && (s[i] == '.' <==> t[i] == '.')
  }

  /** The extension is found at the same place in paths of the same shape. */
  lemma ExtSpanByShape(s: string, t: string)
    requires SameShape(s, t)
    ensures ExtSpan(s) == ExtSpan(t)
  {
    var ss := StripTrailingSlashes(s);
    var ts := StripTrailingSlashes(t);
    assert |ss| == |ts|;
    assert SameShape(ss, ts);
    var a := AfterLastSlash(ss);
    AfterLastSlashUnique(ts, a);
    var sb := ss[a..];
    var tb := ts[a..];
    assert SameShape(sb, tb);
    var k := LastDot(sb);
    LastDotUnique(tb, k);
    DotDot(sb);
    DotDot(tb);
    ExtSpanFrom(s, a, k);
    ExtSpanFrom(t, a, k);
  }

  // ---------------------------------------------------------------------
  // validateImagePath
  // ---------------------------------------------------------------------

  /** What `stat` answers for a path: its size, or the error it throws. */
  datatype StatReply = Size(bytes: nat) | StatFails(message: string)

  /** What the file system says about a path: whether `access` succeeds, and `stat`. */
  datatype FileFacts = FileFacts(accessible: bool, stat: StatReply)

  /** The file system, as facts per path; a path it does not list does not exist. */
  type FileSystem = map<string, FileFacts>

  function Facts(fs: FileSystem, path: string): FileFacts {
    if path in fs then fs[path] else FileFacts(false, StatFails(NoSuchFile))
  }

  datatype ValidationResult = ValidationResult(valid: bool, error: Option<string>)

  const ValidExtensions: seq<string> := [".png", ".jpg", ".jpeg", ".gif", ".webp"]

  /** The Pinata free-tier cap: 10 MiB. */
  const MaxSize: nat := 10 * 1024 * 1024

  /** `list.join(sep)`. */
  function Join(list: seq<string>, sep: string): string {
    if list == [] then ""
    else if |list| == 1 then list[0]
    else list[0] + sep + Join(list[1..], sep)
  }

  /** `(bytes / (1024 * 1024)).toFixed(2)`: the size in MiB rounded half up
      to two places (the quotient is exact in binary, so `toFixed` rounds
      the true value). */
  function SizeInMiB(bytes: nat): string {
    var hundredths := (200 * bytes + MaxSize / 10) / (2 * (MaxSize / 10));
    var cents := hundredths % 100;
    Text.NatText(hundredths / 100) + "." + (if cents < 10 then "0" else "") + Text.NatText(cents)
  }

  function Invalid(message: string): ValidationResult {
    ValidationResult(false, Some(message))
  }

  /** The lower-cased extension the whitelist is checked against. */
  function CheckedExtension(path: string): string {
    Text.Lower(ExtName(path))
  }

  const SizeLimitNote: string := "MB. Maximum: 10MB (Pinata free tier limit)"
  const NoSuchFile: string := "ENOENT: no such file or directory"

  /** `validateImagePath`: existence, then extension, then size; the first
      failing check decides the message, and a failing `stat` becomes a
      "Validation error" instead of an exception. */
  function ValidateImagePath(path: string, fs: FileSystem): (r: ValidationResult)
    ensures r.valid <==> r.error.None?
    ensures r.valid <==>
              && Facts(fs, path).accessible
              && CheckedExtension(path) in ValidExtensions
              && Facts(fs, path).stat.Size?
              && Facts(fs, path).stat.bytes <= MaxSize
  {
    var facts := Facts(fs, path);
    if !facts.accessible then
      Invalid("File not found: " + path)
    else
      var ext := CheckedExtension(path);
      if ext !in ValidExtensions then
        Invalid("Invalid image format: " + ext + ". Supported: " + Join(ValidExtensions, ", "))
      else
        match facts.stat
        case StatFails(message) => Invalid("Validation error: " + message)
        case Size(bytes) =>
          if bytes > MaxSize then
            Invalid("Image too large: " + SizeInMiB(bytes) + SizeLimitNote)
          else
            ValidationResult(true, None)
  }

  /** A missing file is reported as missing whatever its name or size. */
  lemma MissingFileWins(path: string, fs: FileSystem)
    requires !Facts(fs, path).accessible
    ensures ValidateImagePath(path, fs) == Invalid("File not found: " + path)
  {
  }

  /** An existing file with a non-image extension is rejected for its format, whatever its size. */
  lemma BadExtensionWins(path: string, fs: FileSystem)
    requires Facts(fs, path).accessible
    requires CheckedExtension(path) !in ValidExtensions
    ensures var r := ValidateImagePath(path, fs);
            !r.valid && r.error.Some? && Text.Contains(r.error.value, "Invalid image format: ")
  {
    Text.ContainsLead("Invalid image format: ", CheckedExtension(path), ". Supported: ", Join(ValidExtensions, ", "));
  }

  /** A `stat` that throws after the first two checks passed does not
      escape: it is reported as a validation error carrying its message. */
  lemma StatFailureReported(path: string, fs: FileSystem, message: string)
    requires Facts(fs, path).accessible && CheckedExtension(path) in ValidExtensions
    requires Facts(fs, path).stat == StatFails(message)
    ensures ValidateImagePath(path, fs) == Invalid("Validation error: " + message)
  {
  }

  /** The size cap is inclusive: exactly 10 MiB passes, one byte more fails. */
  lemma SizeCapIsInclusive(path: string, fs: FileSystem)
    requires Facts(fs, path).accessible && CheckedExtension(path) in ValidExtensions
    ensures Facts(fs, path).stat == Size(10485760) ==> ValidateImagePath(path, fs).valid
    ensures Facts(fs, path).stat == Size(10485761) ==> !ValidateImagePath(path, fs).valid
  {
  }

  /** The extension check ignores letter case: a path and its upper-cased
      form get the same verdict on the extension. */
  lemma ExtensionCheckIgnoresCase(path: string)
    ensures CheckedExtension(Text.Upper(path)) == CheckedExtension(path)
  {
    var up := Text.Upper(path);
    assert SameShape(path, up) by {
      assert forall i :: 0 <= i < |path| ==> up[i] == Text.UpperChar(path[i]);
    }
    ExtSpanByShape(path, up);
    var ext := ExtName(path);
    assert ExtName(up) == Text.Upper(ext) by {
      Text.UpperSlice(path, ExtSpan(path).0, ExtSpan(path).1);
    }
    Text.LowerForgetsCase(ext);
  }

  /** `LOGO.PNG` passes the extension check. */
  lemma UpperCaseLogoAccepted()
    ensures CheckedExtension("LOGO.PNG") == ".png"
  {
    assert StripTrailingSlashes("LOGO.PNG") == "LOGO.PNG";
    assert AfterLastSlash("LOGO.PNG") == 0;
    assert "LOGO.PNG"[4] == '.';
    assert LastDot("LOGO.PNG") == 4;
  }
}

=== FILE: ipfs.dfy ===
/** Uploads to IPFS through Pinata: the client check, the MIME type and
    file name of an uploaded image, the gateway URI of a content id, and
    the first-match-wins mapping of upload failures to remediation
    messages. The Pinata service and the file system are parameters. */
module Ipfs {
  import opened Wrappers
  import opened Errors
  import Text
  import ImageValidation
  import Rules

  // ---------------------------------------------------------------------
  // Client, gateway URI, MIME type, file name
  // ---------------------------------------------------------------------

  const JwtMissingMessage: string :=
    "PINATA_JWT environment variable not set.\n\n"
    + "To fix:\n"
    + "  1. Create account at https://app.pinata.cloud/register\n"
    + "  2. Generate API key: Dashboard -> API Keys -> New Key\n"
    + "  3. Copy JWT token\n"
    + "  4. Set environment variable: export PINATA_JWT=\"your-jwt-here\"\n"
    + "  5. Or create .env file: PINATA_JWT=your-jwt-here"

  /** `getPinataClient`: the JWT to authenticate with, or the error naming
      the variable when it is unset or empty. */
  function PinataClient(jwt: Option<string>): (r: Result<string, Thrown>)
    ensures r.Ok? <==> jwt.Some? && jwt.value != ""
    ensures r.Ok? ==> r.value == jwt.value
    ensures r.Err? ==> r.error == Plain(JwtMissingMessage) && MentionsJwt(r.error)
  {
    if jwt.None? || jwt.value == "" then
      LeadingJwtMentioned(JwtMissingMessage[|"PINATA_JWT"|..]);
      assert "PINATA_JWT" + JwtMissingMessage[|"PINATA_JWT"|..] == JwtMissingMessage;
      Err(Plain(JwtMissingMessage))
    else
      Ok(jwt.value)
  }

  const Gateway: string := "https://gateway.pinata.cloud/ipfs/"

  /** An upload's content id and the public gateway URL serving it. */
  datatype IpfsUpload = IpfsUpload(cid: string, uri: string)

  /** The gateway URL of a content id. */
  function GatewayUri(cid: string): (uri: string)
    ensures |uri| == |Gateway| + |cid|
    ensures uri[..|Gateway|] == Gateway && uri[|Gateway|..] == cid
  {
    Gateway + cid
  }

  /** The content id can be read back from its gateway URL, so different
      uploads have different URLs. */
  lemma GatewayUriInjective(a: string, b: string)
    requires GatewayUri(a) == GatewayUri(b)
    ensures a == b
  {
    assert a == GatewayUri(a)[|Gateway|..];
  }

  /** The MIME type for each supported extension. */
  const MimeTypes: map<string, string> := map[
    ".png" := "image/png",
    ".jpg" := "image/jpeg",
    ".jpeg" := "image/jpeg",
    ".gif" := "image/gif",
    ".webp" := "image/webp"]

  /** `getMimeType`: by the lower-cased extension, PNG when unknown. */
  function MimeType(path: string): (mime: string)
    ensures ImageValidation.CheckedExtension(path) in MimeTypes ==> mime == MimeTypes[ImageValidation.CheckedExtension(path)]
    ensures ImageValidation.CheckedExtension(path) !in MimeTypes ==> mime == "image/png"
  {
    var ext := ImageValidation.CheckedExtension(path);
    if ext in MimeTypes then MimeTypes[ext] else "image/png"
  }

  /** The MIME table covers exactly the extensions image validation accepts,
      so an accepted image never falls back to the PNG default by accident. */
  lemma MimeTableMatchesWhitelist()
    ensures MimeTypes.Keys == set e | e in ImageValidation.ValidExtensions
  {
  }

  /** The MIME type ignores letter case: `LOGO.JPG` and `logo.jpg` are both JPEG. */
  lemma MimeTypeIgnoresCase(path: string)
    ensures MimeType(Text.Upper(path)) == MimeType(path)
  {
    ImageValidation.ExtensionCheckIgnoresCase(path);
  }

  /** `path.split('/').pop() || 'image'`: the text after the last '/', or
      "image" when that is empty. */
  function FileName(path: string): (name: string)
    ensures name != []
    ensures path == [] || path[|path| - 1] == '/' ==> name == "image"
    ensures path != [] && path[|path| - 1] != '/' ==>
              exists k :: && 0 <= k < |path| && name == path[k..] && (k == 0 || path[k - 1] == '/')
                          && forall i :: k <= i < |path| ==> path[i] != '/'
  {
    var k := ImageValidation.AfterLastSlash(path);
    if k == |path| then "image" else path[k..]
  }

  /** A name without '/' under any directory is uploaded under its own name. */
  lemma FileNameOfJoinedPath(dir: string, name: string)
    requires name != [] && forall i :: 0 <= i < |name| ==> name[i] != '/'
    ensures FileName(dir + "/" + name) == name
  {
    var p := dir + "/" + name;
    ImageValidation.AfterLastSlashUnique(p, |dir| + 1);
    assert p[|dir| + 1..] == name;
  }

  // ---------------------------------------------------------------------
  // Failure mapping
  // ---------------------------------------------------------------------

  /** The remediation classes of an upload failure. */
  datatype UploadFailure = JwtPassthrough | FileMissing | AuthFailed | RateLimited | OverFreeLimit | OtherFailure

  /** The image upload's `catch` tests, in source order. */
  function ClassifyImageError(e: Thrown): UploadFailure {
    if MentionsJwt(e) then JwtPassthrough
    else if e.code == Some("ENOENT") then FileMissing
    else if HasStatus(e, 401) || HasStatus(e, 403) then AuthFailed
    else if HasStatus(e, 429) then RateLimited
    else if HasStatus(e, 402) || Text.Contains(e.message, "over_free_limit") then OverFreeLimit
    else OtherFailure
  }

  /** The metadata upload's `catch` tests: the same order without the missing-file test. */
  function ClassifyMetadataUploadError(e: Thrown): UploadFailure {
    if MentionsJwt(e) then JwtPassthrough
    else if HasStatus(e, 401) || HasStatus(e, 403) then AuthFailed
    else if HasStatus(e, 429) then RateLimited
    else if HasStatus(e, 402) || Text.Contains(e.message, "over_free_limit") then OverFreeLimit
    else OtherFailure
  }

  predicate IsMissingFile(e: Thrown) { e.code == Some("ENOENT") }
  predicate IsAuthFailure(e: Thrown) { HasStatus(e, 401) || HasStatus(e, 403) }
  predicate IsRateLimit(e: Thrown) { HasStatus(e, 429) }
  predicate IsOverLimit(e: Thrown) { HasStatus(e, 402) || Text.Contains(e.message, "over_free_limit") }

  /** The image upload's mapping as a table of (class, test) rows. */
  function ImageRules(): seq<(UploadFailure, Thrown -> bool)> {
    [ (JwtPassthrough, MentionsJwt),
      (FileMissing, IsMissingFile),
      (AuthFailed, IsAuthFailure),
      (RateLimited, IsRateLimit),
      (OverFreeLimit, IsOverLimit) ]
  }

  /** The metadata upload's table: the image table without its missing-file row. */
  function MetadataUploadRules(): seq<(UploadFailure, Thrown -> bool)> {
    [ImageRules()[0]] + ImageRules()[2..]
  }

  /** The `if` chains are exactly the first-match reading of the tables. */
  lemma ClassifiersFollowTables(e: Thrown)
    ensures ClassifyImageError(e) == Rules.FirstMatch(ImageRules(), e, OtherFailure)
    ensures ClassifyMetadataUploadError(e) == Rules.FirstMatch(MetadataUploadRules(), e, OtherFailure)
  {
    var rules := ImageRules();
    assert MetadataUploadRules() == [rules[0], rules[2], rules[3], rules[4]];
  }

  /** Leaving out the missing-file row changes only the errors it caught:
      the two uploads classify every other error alike, and a missing-file
      error reaching the metadata upload falls through to the later rows. */
  lemma MetadataUploadSkipsMissingFile(e: Thrown)
    ensures ClassifyImageError(e) != FileMissing ==> ClassifyMetadataUploadError(e) == ClassifyImageError(e)
    ensures ClassifyMetadataUploadError(e) != FileMissing
  {
  }

  /** The order matters: a JWT error wins over every other test, and an
      authentication status wins over an over-limit message. */
  lemma FirstMatchWins(e: Thrown)
    ensures MentionsJwt(e) ==> ClassifyImageError(e) == JwtPassthrough && ClassifyMetadataUploadError(e) == JwtPassthrough
    ensures !MentionsJwt(e) && !IsMissingFile(e) && HasStatus(e, 401) ==> ClassifyImageError(e) == AuthFailed
  {
  }

  /** The authentication message, split around the variable name it mentions. */
  const AuthFailedMessage: string := AuthFailedLead + "PINATA_JWT" + AuthFailedTail

  const AuthFailedLead: string :=
    "Pinata authentication failed.\n\n"
    + "To fix:\n"
    + "  1. Verify "

  const AuthFailedTail: string :=
    " is correct\n"
    + "  2. Generate new API key at https://app.pinata.cloud/developers/api-keys\n"
    + "  3. Update environment variable with new JWT"

  const RateLimitMessage: string :=
    "Pinata rate limit exceeded.\n\n"
    + "To fix:\n"
    + "  - Wait a few minutes before retrying\n"
    + "  - Free tier: 180 requests per minute\n"
    + "  - Consider upgrading at https://pinata.cloud/pricing"

  const OverLimitMessage: string :=
    "Pinata free tier limit exceeded (1GB storage, 500 files).\n\n"
    + "To fix:\n"
    + "  - Delete old pins: https://app.pinata.cloud/pinmanager\n"
    + "  - Upgrade plan at https://pinata.cloud/pricing\n"
    + "  - Use different account for testing"

  const NetworkTroubleshooting: string :=
    "\n\nTroubleshooting:\n"
    + "  - Check internet connection\n"
    + "  - Verify Pinata service status: https://status.pinata.cloud\n"
    + "  - Try again in a few moments"

  /** The missing-file message names the path it looked for. */
  function MissingImageMessage(imagePath: string): (msg: string)
    ensures Text.Contains(msg, imagePath)
  {
    Text.ContainsOpening("Image file not found: ", imagePath, MissingImageSteps);
    Text.ContainsExtended("Image file not found: " + imagePath + MissingImageSteps, imagePath, imagePath);
    Text.ContainsExtended("Image file not found: " + imagePath + MissingImageSteps + imagePath, "\"", imagePath);
    "Image file not found: " + imagePath + MissingImageSteps + imagePath + "\""
  }

  const MissingImageSteps: string :=
    "\n\n"
    + "To fix:\n"
    + "  - Verify the file path is correct\n"
    + "  - Check file exists: ls -la \""

  /** The error an upload rethrows for a failure of class `c`; `genericPrefix`
      starts the catch-all message. */
  function MappedError(c: UploadFailure, e: Thrown, imagePath: string, genericPrefix: string): (r: Thrown)
    ensures c == JwtPassthrough ==> r == e
    ensures c != JwtPassthrough ==> r.code.None? && r.status.None?
    ensures c == FileMissing ==> Text.Contains(r.message, imagePath)
    ensures c == OtherFailure ==> Text.Contains(r.message, genericPrefix) && Text.Contains(r.message, e.message)
  {
    match c
    case JwtPassthrough => e
    case FileMissing => Plain(MissingImageMessage(imagePath))
    case AuthFailed => Plain(AuthFailedMessage)
    case RateLimited => Plain(RateLimitMessage)
    case OverFreeLimit => Plain(OverLimitMessage)
    case OtherFailure =>
      Text.ContainsOpening(genericPrefix, e.message, NetworkTroubleshooting);
      Plain(genericPrefix + e.message + NetworkTroubleshooting)
  }

  /** What reading the file and calling Pinata answer. `readError` is the
      error `readFile` throws, if any; `reply` is the content id or the
      error of the upload request. */
  datatype UploadEnv = UploadEnv(jwt: Option<string>, readError: Option<Thrown>, reply: Result<string, Thrown>)

  /** The raw outcome of the upload steps, before the `catch` mapping. */
  function ImageUploadSteps(env: UploadEnv): Result<string, Thrown> {
    match PinataClient(env.jwt)
    case Err(e) => Err(e)
    case Ok(_) =>
      if env.readError.Some? then Err(env.readError.value)
      else env.reply
  }

  /** `uploadImage`: client, then file read, then upload; any failure is
      rethrown through the image mapping. */
  function UploadImage(imagePath: string, env: UploadEnv): (r: Result<IpfsUpload, Thrown>)
    ensures r.Ok? <==> ImageUploadSteps(env).Ok?
    ensures r.Ok? ==> r.value == IpfsUpload(env.reply.value, GatewayUri(env.reply.value))
    ensures r.Err? ==>
              var e := ImageUploadSteps(env).error;
              r.error == MappedError(ClassifyImageError(e), e, imagePath, "IPFS upload failed: ")
  {
    match ImageUploadSteps(env)
    case Ok(cid) => Ok(IpfsUpload(cid, GatewayUri(cid)))
    case Err(e) => Err(MappedError(ClassifyImageError(e), e, imagePath, "IPFS upload failed: "))
  }

  /** The raw outcome of the metadata upload steps, before the `catch` mapping. */
  function MetadataUploadSteps(env: UploadEnv): Result<string, Thrown> {
    match PinataClient(env.jwt)
    case Err(e) => Err(e)
    case Ok(_) => env.reply
  }

  /** `uploadMetadata`: client, then upload; any failure is rethrown
      through the metadata mapping, which passes the JWT error on unchanged. */
  function UploadMetadata(env: UploadEnv): (r: Result<IpfsUpload, Thrown>)
    ensures PinataClient(env.jwt).Err? ==> r == Err(Plain(JwtMissingMessage))
    ensures r.Ok? <==> PinataClient(env.jwt).Ok? && env.reply.Ok?
    ensures r.Ok? ==> r.value == IpfsUpload(env.reply.value, GatewayUri(env.reply.value))
    ensures r.Err? && PinataClient(env.jwt).Ok? ==>
              r.error == MappedError(ClassifyMetadataUploadError(env.reply.error), env.reply.error, "", "Metadata upload failed: ")
  {
    match MetadataUploadSteps(env)
    case Ok(cid) => Ok(IpfsUpload(cid, GatewayUri(cid)))
    case Err(e) => Err(MappedError(ClassifyMetadataUploadError(e), e, "", "Metadata upload failed: "))
  }

  /** Without a JWT the image upload fails with the JWT error itself: the
      mapping passes it on unchanged, whatever the file and the service would do. */
  lemma MissingJwtPassesThrough(imagePath: string, env: UploadEnv)
    requires env.jwt.None?
    ensures UploadImage(imagePath, env) == Err(Plain(JwtMissingMessage))
  {
  }

  /** A missing image file is reported with its path, unless the read error mentions the JWT. */
  lemma MissingFileReported(imagePath: string, env: UploadEnv)
    requires PinataClient(env.jwt).Ok?
    requires env.readError.Some? && IsMissingFile(env.readError.value) && !MentionsJwt(env.readError.value)
    ensures UploadImage(imagePath, env) == Err(Plain(MissingImageMessage(imagePath)))
  {
  }
}

=== FILE: js_number.dfy ===
/** JavaScript numbers as the tool uses them: parsed from text, compared
    with constants, rounded with `Math.round` and converted with `BigInt`.
    Finite values are idealised as exact decimals, so binary floating-point
    rounding does not appear in the model. */
module JsNumber {
  import opened Wrappers
  import Text

  /** A number: `NaN`, the two infinities, or the exact decimal `digits · 10^-scale`. */
  datatype Number = NaN | Infinity | NegInfinity | Dec(digits: int, scale: nat)

  function Pow10(n: nat): (r: nat)
    ensures r >= 1
  {
    if n == 0 then 1 else 10 * Pow10(n - 1)
  }

  /** The number with integer value `i`. */
  function FromInt(i: int): Number {
    Dec(i, 0)
  }

  /** `Number.isInteger(x)`: finite and without a fractional part. */
  predicate IsInteger(x: Number) {
    x.Dec? && x.digits % Pow10(x.scale) == 0
  }

  /** `x > k`; false for `NaN`. */
  predicate Above(x: Number, k: int) {
    match x
    case NaN => false
    case Infinity => true
    case NegInfinity => false
    case Dec(m, s) => m > k * Pow10(s)
  }

  /** `x < k`; false for `NaN`. */
  predicate Below(x: Number, k: int) {
    match x
    case NaN => false
    case Infinity => false
    case NegInfinity => true
    case Dec(m, s) => m < k * Pow10(s)
  }

  /** `x <= k`; false for `NaN`. */
  predicate AtMost(x: Number, k: int) {
    !x.NaN? && !Above(x, k)
  }

  /** JavaScript truthiness of a number: `NaN` and zero are falsy. */
  predicate Truthy(x: Number) {
    match x
    case NaN => false
    case Dec(m, _) => m != 0
    case _ => true
  }

  /** The integer value of a number that `Number.isInteger` accepts. */
  function IntValue(x: Number): (v: int)
    requires IsInteger(x)
    ensures v * Pow10(x.scale) == x.digits
  {
    x.digits / Pow10(x.scale)
  }

  /** `BigInt(x)`: the exact integer when `x` is an integer, otherwise the
      `RangeError` the runtime raises. */
  function ToBigInt(x: Number): (r: Result<int, string>)
    ensures r.Ok? <==> IsInteger(x)
    ensures r.Ok? ==> r.value * Pow10(x.scale) == x.digits
    ensures r.Err? ==> r.error == BigIntRangeError(x)
  {
    if IsInteger(x) then Ok(IntValue(x)) else Err(BigIntRangeError(x))
  }

  /** A whole number with no fractional digits converts to itself. */
  lemma ToBigIntOfWhole(m: int)
    ensures ToBigInt(Dec(m, 0)) == Ok(m)
  {
    assert Pow10(0) == 1;
    assert m % 1 == 0 && m / 1 == m;
  }

  function BigIntRangeError(x: Number): string {
    "The number " + ToText(x) + NotAnIntegerNote
  }

  const NotAnIntegerNote: string := " cannot be converted to a BigInt because it is not an integer"

  /** `x * Math.pow(10, d)`. */
  function ScaleUp(x: Number, d: nat): (r: Number)
    ensures x.Dec? ==> r.Dec? && r.scale == x.scale && r.digits == x.digits * Pow10(d)
    ensures !x.Dec? ==> r == x
  {
    match x
    case Dec(m, s) => Dec(m * Pow10(d), s)
    case _ => x
  }

  /** `Math.round(x)`: the nearest integer, halves rounded up; special values unchanged. */
  function Round(x: Number): (r: Number)
    ensures x.Dec? ==> (r.Dec? && r.scale == 0
                        && 2 * r.digits * Pow10(x.scale) - Pow10(x.scale) <= 2 * x.digits
                        && 2 * x.digits < 2 * r.digits * Pow10(x.scale) + Pow10(x.scale))
    ensures !x.Dec? ==> r == x
  {
    match x
    case Dec(m, s) =>
      var q := (2 * m + Pow10(s)) / (2 * Pow10(s));
      RoundBounds(m, Pow10(s));
      Dec(q, 0)
    case _ => x
  }

  /** Euclidean division of `2m + p` by `2p` lands within half of `p` of `m`. */
  lemma RoundBounds(m: int, p: nat)
    requires p >= 1
    ensures var q := (2 * m + p) / (2 * p);
            2 * q * p - p <= 2 * m < 2 * q * p + p
  {
    var q := (2 * m + p) / (2 * p);
    var rem := (2 * m + p) % (2 * p);
    assert 2 * m + p == (2 * p) * q + rem && 0 <= rem < 2 * p;
    assert (2 * p) * q == 2 * q * p;
  }

  /** `a - b`, with JavaScript's rules for the special values. */
  function Minus(a: Number, b: Number): Number {
    match (a, b)
    case (NaN, _) => NaN
    case (_, NaN) => NaN
    case (Infinity, Infinity) => NaN
    case (NegInfinity, NegInfinity) => NaN
    case (Infinity, _) => Infinity
    case (_, NegInfinity) => Infinity
    case (NegInfinity, _) => NegInfinity
    case (_, Infinity) => NegInfinity
    case (Dec(m1, s1), Dec(m2, s2)) =>
      var s := if s1 < s2 then s2 else s1;
      Dec(m1 * Pow10(s - s1) - m2 * Pow10(s - s2), s)
  }

  // ---------------------------------------------------------------------
  // Rendering (`String(x)`, template literals)
  // ---------------------------------------------------------------------

  /** `String(x)`, following Number::toString (section 6.1.6.1.20 of
      ECMA-262): zero is "0", a negative number is "-" and its magnitude. */
  function ToText(x: Number): (t: string)
    ensures t != []
    ensures x.Dec? ==> (t[0] == '-' <==> x.digits < 0)
    ensures x.Dec? ==> (x.digits == 0 <==> t == "0")
  {
    match x
    case NaN => "NaN"
    case Infinity => "Infinity"
    case NegInfinity => "-Infinity"
    case Dec(m, s) =>
      if m == 0 then "0"
      else if m < 0 then "-" + MagnitudeText(-m, s)
      else MagnitudeText(m, s)
  }

  /** `a` without its trailing zero digits, and how many there were. */
  function StripTens(a: nat): (r: (nat, nat))
    requires a > 0
    ensures r.0 > 0 && r.0 % 10 != 0
    ensures a == r.0 * Pow10(r.1)
    decreases a
  {
    if a % 10 == 0 then
      var r := StripTens(a / 10);
      assert a == 10 * (a / 10);
      assert r.0 * Pow10(r.1 + 1) == 10 * (r.0 * Pow10(r.1));
      (r.0, r.1 + 1)
    else (a, 0)
  }

  /** The significant digits of the positive integer `a`. */
  function Significand(a: nat): (d: string)
    requires a > 0
    ensures d != []
  {
    Text.NatText(StripTens(a).0)
  }

  /** Where the decimal point of `a · 10^-scale` sits relative to the
      significant digits: the value is `0.d · 10^n`. */
  function PointPosition(a: nat, scale: nat): int
    requires a > 0
  {
    |Significand(a)| + StripTens(a).1 - scale
  }

  /** The rendering of the positive number `a · 10^-scale`: numbers from
      10^-6 up to 10^21 are written positionally and the others in exponent
      form. */
  function MagnitudeText(a: nat, scale: nat): (t: string)
    requires a > 0
    ensures |t| > 0 && Text.IsDigit(t[0])
    ensures t != "0"
  {
    var d := Significand(a);
    var k := |d|;
    var n := PointPosition(a, scale);
    if k <= n <= 21 then d + Zeros(n - k)
    else if 0 < n <= 21 then d[..n] + "." + d[n..]
    else if -6 < n <= 0 then "0." + Zeros(-n) + d
    else ExponentText(d, n - 1)
  }

  /** `d` as a first digit and the rest after a point, then the exponent with its sign. */
  function ExponentText(d: string, e: int): (r: string)
    requires d != []
    ensures 'e' in r
    ensures r[0] == d[0]
  {
    var mantissa := if |d| == 1 then d else d[..1] + "." + d[1..];
    var r := mantissa + "e" + (if e < 0 then "-" else "+") + Text.NatText(if e < 0 then -e else e);
    assert r[|mantissa|] == 'e';
    r
  }

  function Zeros(n: int): (r: string)
    ensures |r| == if n < 0 then 0 else n
    ensures forall i :: 0 <= i < |r| ==> r[i] == '0'
    decreases n
  {
    if n <= 0 then "" else "0" + Zeros(n - 1)
  }

  lemma {:induction false} ZerosAppend(n: nat)
    requires n > 0
    ensures Zeros(n) == Zeros(n - 1) + "0"
    decreases n
  {
    if n > 1 {
      ZerosAppend(n - 1);
    }
  }

  lemma {:induction false} Pow10Add(i: nat, j: nat)
    ensures Pow10(i + j) == Pow10(i) * Pow10(j)
    decreases i
  {
    if i > 0 {
      Pow10Add(i - 1, j);
      assert Pow10(i + j) == 10 * Pow10(i - 1 + j);
    }
  }

  lemma Pow10Monotone(i: nat, j: nat)
    requires i <= j
    ensures Pow10(i) <= Pow10(j)
  {
    Pow10Add(i, j - i);
  }

  lemma Pow10Below(i: nat, j: nat)
    requires Pow10(i) < Pow10(j)
    ensures i < j
  {
    if j <= i {
      Pow10Monotone(j, i);
    }
  }

  /** A number with `L` digits lies between 10^(L-1) and 10^L. */
  lemma {:induction false} NatTextBounds(n: nat)
    requires n >= 1
    ensures Pow10(|Text.NatText(n)| - 1) <= n < Pow10(|Text.NatText(n)|)
    decreases n
  {
    if n >= 10 {
      NatTextBounds(n / 10);
      var l := |Text.NatText(n / 10)|;
      assert |Text.NatText(n)| == l + 1;
      assert Pow10(l) == 10 * Pow10(l - 1);
    }
  }

  lemma NatTextTimesTen(b: nat)
    requires b > 0
    ensures Text.NatText(b * 10) == Text.NatText(b) + "0"
  {
    assert (b * 10) / 10 == b && (b * 10) % 10 == 0;
  }

  /** Appending `t` zero digits multiplies by 10^t. */
  lemma {:induction false} NatTextShift(s: nat, t: nat)
    requires s > 0
    ensures Text.NatText(s * Pow10(t)) == Text.NatText(s) + Zeros(t)
    decreases t
  {
    if t > 0 {
      var b := s * Pow10(t - 1);
      assert s * Pow10(t) == b * 10;
      NatTextTimesTen(b);
      NatTextShift(s, t - 1);
      ZerosAppend(t);
    }
  }

  /** The significant digits and trailing zeros bound the magnitude:
      10^(k+t-1) <= a < 10^(k+t). */
  lemma MagnitudeBounds(a: nat)
    requires a > 0
    ensures Pow10(|Significand(a)| + StripTens(a).1 - 1) <= a < Pow10(|Significand(a)| + StripTens(a).1)
  {
    var (s, t) := StripTens(a);
    var k := |Text.NatText(s)|;
    NatTextBounds(s);
    Pow10Add(k - 1, t);
    Pow10Add(k, t);
  }

  /** A positive integer of at most 21 digits renders as its decimal digits. */
  lemma PositiveIntegerText(a: nat)
    requires a > 0 && |Text.NatText(a)| <= 21
    ensures MagnitudeText(a, 0) == Text.NatText(a)
  {
    var (s, t) := StripTens(a);
    var d := Significand(a);
    NatTextShift(s, t);
    assert Text.NatText(a) == d + Zeros(t);
    assert PointPosition(a, 0) == |d| + t;
  }

  /** Integers below 10^21 have at most 21 digits. */
  lemma DigitsBelowE21(a: nat)
    requires 0 < a < Pow10(21)
    ensures |Text.NatText(a)| <= 21
  {
    NatTextBounds(a);
    Pow10Below(|Text.NatText(a)| - 1, 21);
  }

  /** Integers below 10^21 in magnitude render as their plain decimal digits. */
  lemma IntegerText(i: int)
    requires (if i < 0 then -i else i) < Pow10(21)
    ensures ToText(FromInt(i)) == Text.IntText(i)
  {
    if i != 0 {
      var a: nat := if i < 0 then -i else i;
      DigitsBelowE21(a);
      PositiveIntegerText(a);
    }
  }

  /** The point lies beyond the 21st digit exactly for magnitudes of 10^21 and more. */
  lemma LargeMagnitude(a: nat, scale: nat)
    requires a > 0
    ensures PointPosition(a, scale) > 21 <==> a >= Pow10(21 + scale)
  {
    var e := |Significand(a)| + StripTens(a).1;
    MagnitudeBounds(a);
    if e - scale > 21 {
      Pow10Monotone(21 + scale, e - 1);
    } else if a >= Pow10(21 + scale) {
      Pow10Below(21 + scale, e);
    }
  }

  /** The point lies six or more places before the digits exactly for magnitudes below 10^-6. */
  lemma SmallMagnitude(a: nat, scale: nat)
    requires a > 0
    ensures PointPosition(a, scale) <= -6 <==> a * Pow10(6) < Pow10(scale)
  {
    var e := |Significand(a)| + StripTens(a).1;
    MagnitudeBounds(a);
    if e - scale <= -6 {
      ScaledBelow(a, e, scale);
    } else {
      ScaledAtLeast(a, e, scale);
    }
  }

  lemma ScaledBelow(a: nat, e: nat, scale: nat)
    requires a < Pow10(e) && e + 6 <= scale
    ensures a * Pow10(6) < Pow10(scale)
  {
    Pow10Add(e, 6);
    Pow10Monotone(e + 6, scale);
    assert a * Pow10(6) < Pow10(e) * Pow10(6);
  }

  lemma ScaledAtLeast(a: nat, e: nat, scale: nat)
    requires e >= 1 && Pow10(e - 1) <= a && e + 6 > scale
    ensures a * Pow10(6) >= Pow10(scale)
  {
    Pow10Add(e - 1, 6);
    Pow10Monotone(scale, e - 1 + 6);
    assert a * Pow10(6) >= Pow10(e - 1) * Pow10(6);
  }

  /** The positional forms are built from digits, zeros and a point; the
      others have an exponent. */
  lemma ExponentExactlyOutside(a: nat, scale: nat)
    requires a > 0
    ensures ('e' in MagnitudeText(a, scale)) <==> !(-6 < PointPosition(a, scale) <= 21)
  {
    var r := MagnitudeText(a, scale);
    if -6 < PointPosition(a, scale) <= 21 {
      assert forall i :: 0 <= i < |r| ==> r[i] == '.' || Text.IsDigit(r[i]);
    }
  }

  /** Exponent notation is used exactly for magnitudes of 10^21 and above
      or below 10^-6. */
  lemma ExponentFormIff(a: nat, scale: nat)
    requires a > 0
    ensures ('e' in MagnitudeText(a, scale)) <==> (a >= Pow10(21 + scale) || a * Pow10(6) < Pow10(scale))
  {
    ExponentExactlyOutside(a, scale);
    LargeMagnitude(a, scale);
    SmallMagnitude(a, scale);
  }

  /** 10^t is a one followed by `t` zeros. */
  lemma {:induction false} StripTensPow10(t: nat)
    ensures StripTens(Pow10(t)) == (1, t)
    decreases t
  {
    if t > 0 {
      assert Pow10(t) % 10 == 0 && Pow10(t) / 10 == Pow10(t - 1);
      StripTensPow10(t - 1);
    }
  }

  /** 10^21 is the first integer in exponent form. */
  lemma LargeExample()
    ensures ToText(FromInt(Pow10(21))) == "1e+21"
  {
    var a := Pow10(21);
    StripTensPow10(21);
    assert Significand(a) == "1";
    assert PointPosition(a, 0) == 22;
    assert Text.NatText(21) == "21";
    assert MagnitudeText(a, 0) == ExponentText("1", 21);
  }

  /** 10^-7 is in exponent form, 10^-6 is not. */
  lemma SmallExamples()
    ensures ToText(Dec(1, 7)) == "1e-7"
    ensures ToText(Dec(1, 6)) == "0.000001"
  {
    assert StripTens(1) == (1, 0);
    assert Significand(1) == "1";
    assert PointPosition(1, 7) == -6;
    assert MagnitudeText(1, 7) == ExponentText("1", -7);
    assert PointPosition(1, 6) == -5;
  }

  /** Fractions inside the positional range. */
  lemma FractionExamples()
    ensures ToText(Dec(15, 1)) == "1.5"
    ensures ToText(Dec(-25, 3)) == "-0.025"
  {
    assert StripTens(15) == (15, 0);
    assert Significand(15) == "15";
    assert PointPosition(15, 1) == 1;
    assert StripTens(25) == (25, 0);
    assert Significand(25) == "25";
    assert PointPosition(25, 3) == -1;
  }
}

=== FILE: ledger.dfy ===
/** The on-chain state the tool reads and writes, abstracted to a single
    mint: the mint record, the signer's associated token account, and the
    mint's metadata account. Every instruction the tool sends through the
    token and metadata SDKs is an `Op`; `Apply` gives its effect, or the
    error the chain answers with. Transaction signing, fees and account
    layouts are not part of this model. */
module Ledger {
  import opened Wrappers

  /** A base58 account address, kept uninterpreted. */
  type Address = string

  /** A mint account: its two authorities (None once revoked), supply and decimals. */
  datatype MintState = MintState(
    mintAuthority: Option<Address>,
    freezeAuthority: Option<Address>,
    supply: nat,
    decimals: nat)

  /** The metadata account attached to the mint. */
  datatype MetadataAccount = MetadataAccount(
    updateAuthority: Option<Address>,
    isMutable: bool,
    name: string,
    symbol: string,
    uri: string)

  /** The mint (None before it is created), the signer's token-account
      balance (None while that account does not exist) and the metadata
      account (None while none is attached). */
  datatype Ledger = Ledger(
    mint: Option<MintState>,
    balance: Option<nat>,
    metadata: Option<MetadataAccount>)

  const Empty: Ledger := Ledger(None, None, None)

  datatype AuthorityType = MintTokens | FreezeAccount

  /** The instructions the tool sends. */
  datatype Op =
    | CreateMint(authority: Address, decimals: nat)
    | CreateAccount
    | MintTo(signer: Address, amount: int)
    | SetAuthority(signer: Address, kind: AuthorityType, newAuthority: Option<Address>)
    | Burn(amount: int)
    | CreateMetadata(authority: Address, name: string, symbol: string, uri: string)
    | LockMetadata(signer: Address)

  // Errors the chain or the SDK answers with.
  const AccountInUse: string := "account already in use"
  const AccountNotFound: string := "TokenAccountNotFoundError"
  const OwnerMismatch: string := "owner does not match"
  const InsufficientFunds: string := "insufficient funds"
  const AmountOutOfRange: string := "amount out of range"
  const DataImmutable: string := "Data is immutable"
  const Overflow: string := "Operation overflowed"
  const InvalidMintAuthority: string :=
    "Mint authority " + "provided does not " + "match the authority " + "on the mint"

  /** Token amounts and supplies are unsigned 64-bit integers on chain. */
  const MaxU64: nat := 0xFFFF_FFFF_FFFF_FFFF

  /** An amount an instruction can carry. */
  predicate U64(amount: int) {
    0 <= amount <= MaxU64
  }

  /** Accounts exist only for an existing mint, the signer's balance is
      part of the supply, and the supply fits in 64 bits. */
  predicate Valid(l: Ledger) {
    && (l.mint.Some? ==> l.mint.value.supply <= MaxU64)
    && (l.balance.Some? ==> l.mint.Some? && l.balance.value <= l.mint.value.supply)
    && (l.metadata.Some? ==> l.mint.Some?)
  }

  function AuthorityOf(m: MintState, kind: AuthorityType): Option<Address> {
    match kind
    case MintTokens => m.mintAuthority
    case FreezeAccount => m.freezeAuthority
  }

  /** The effect of one instruction. */
  function Apply(l: Ledger, op: Op): Result<Ledger, string> {
    match op
    case CreateMint(authority, decimals) =>
      if l.mint.Some? then Err(AccountInUse)
      else Ok(l.(mint := Some(MintState(Some(authority), Some(authority), 0, decimals))))
    case CreateAccount =>
      if l.mint.None? then Err(AccountNotFound)
      else if l.balance.Some? then Ok(l)
      else Ok(l.(balance := Some(0)))
    case MintTo(signer, amount) =>
      if !U64(amount) then Err(AmountOutOfRange)
      else if l.mint.None? || l.balance.None? then Err(AccountNotFound)
      else if l.mint.value.mintAuthority != Some(signer) then Err(OwnerMismatch)
      else if l.mint.value.supply + amount > MaxU64 then Err(Overflow)
      else
        var m := l.mint.value;
        Ok(l.(mint := Some(m.(supply := m.supply + amount)),
              balance := Some(l.balance.value + amount)))
    case SetAuthority(signer, kind, newAuthority) =>
      if l.mint.None? then Err(AccountNotFound)
      else
        var m := l.mint.value;
        if AuthorityOf(m, kind) != Some(signer) then Err(OwnerMismatch)
        else
          var m' := match kind
            case MintTokens => m.(mintAuthority := newAuthority)
            case FreezeAccount => m.(freezeAuthority := newAuthority);
          Ok(l.(mint := Some(m')))
    case Burn(amount) =>
      if !U64(amount) then Err(AmountOutOfRange)
      else if l.mint.None? || l.balance.None? then Err(AccountNotFound)
      else if l.balance.value < amount || l.mint.value.supply < amount then Err(InsufficientFunds)
      else
        var m := l.mint.value;
        Ok(l.(mint := Some(m.(supply := m.supply - amount)),
              balance := Some(l.balance.value - amount)))
    case CreateMetadata(authority, name, symbol, uri) =>
      // The metadata program attaches metadata to an existing mint only with the mint authority's signature.
      if l.mint.None? then Err(AccountNotFound)
      else if l.metadata.Some? then Err(AccountInUse)
      else if l.mint.value.mintAuthority != Some(authority) then Err(InvalidMintAuthority)
      else Ok(l.(metadata := Some(MetadataAccount(Some(authority), true, name, symbol, uri))))
    case LockMetadata(signer) =>
      if l.metadata.None? then Err(AccountNotFound)
      else
        var md := l.metadata.value;
        if md.updateAuthority != Some(signer) then Err(OwnerMismatch)
        else if !md.isMutable then Err(DataImmutable)
        else Ok(l.(metadata := Some(md.(isMutable := false))))
  }

  /** The effect of a sequence of instructions, stopping at the first error. */
  function ApplyAll(l: Ledger, ops: seq<Op>): Result<Ledger, string>
    decreases |ops|
  {
    if ops == [] then Ok(l)
    else
      match Apply(l, ops[0])
      case Err(e) => Err(e)
      case Ok(l') => ApplyAll(l', ops[1..])
  }

  /** No instruction breaks well-formedness. */
  lemma {:induction false} ApplyAllPreservesValid(l: Ledger, ops: seq<Op>)
    requires Valid(l)
    ensures ApplyAll(l, ops).Ok? ==> Valid(ApplyAll(l, ops).value)
    decreases |ops|
  {
    if ops != [] && Apply(l, ops[0]).Ok? {
      ApplyAllPreservesValid(Apply(l, ops[0]).value, ops[1..]);
    }
  }

  /** A revoked (None) authority stays revoked whatever is sent afterwards:
      no signer can match it. */
  lemma {:induction false} RevokedAuthorityIsPermanent(l: Ledger, ops: seq<Op>, kind: AuthorityType)
    requires l.mint.Some? && AuthorityOf(l.mint.value, kind).None?
    ensures ApplyAll(l, ops).Ok? ==>
              ApplyAll(l, ops).value.mint.Some? && AuthorityOf(ApplyAll(l, ops).value.mint.value, kind).None?
    decreases |ops|
  {
    if ops != [] && Apply(l, ops[0]).Ok? {
      RevokedAuthorityIsPermanent(Apply(l, ops[0]).value, ops[1..], kind);
    }
  }

  /** Once the mint authority is revoked the supply can only shrink. */
  lemma {:induction false} SupplyFixedWithoutMintAuthority(l: Ledger, ops: seq<Op>)
    requires l.mint.Some? && l.mint.value.mintAuthority.None?
    ensures ApplyAll(l, ops).Ok? ==>
              ApplyAll(l, ops).value.mint.Some? && ApplyAll(l, ops).value.mint.value.supply <= l.mint.value.supply
    decreases |ops|
  {
    if ops != [] && Apply(l, ops[0]).Ok? {
      SupplyFixedWithoutMintAuthority(Apply(l, ops[0]).value, ops[1..]);
    }
  }

  /** Locked (immutable) metadata stays locked whatever is sent afterwards. */
  lemma {:induction false} LockIsPermanent(l: Ledger, ops: seq<Op>)
    requires l.metadata.Some? && !l.metadata.value.isMutable
    ensures ApplyAll(l, ops).Ok? ==>
              ApplyAll(l, ops).value.metadata.Some? && !ApplyAll(l, ops).value.metadata.value.isMutable
    decreases |ops|
  {
    if ops != [] && Apply(l, ops[0]).Ok? {
      LockIsPermanent(Apply(l, ops[0]).value, ops[1..]);
    }
  }
}

=== FILE: metadata.dfy ===
/** Attaching metadata to a mint: upload the logo, upload a JSON document
    pointing at it, then create the on-chain metadata account pointing at
    the JSON; failures are mapped to remediation messages, first match wins. */
module Metadata {
  import opened Wrappers
  import opened Errors
  import opened Ledger
  import Text
  import Ipfs
  import Rules

  /** What the metadata step is given. */
  datatype MetadataConfig = MetadataConfig(name: string, symbol: string, description: string, imagePath: string)

  /** The JSON document uploaded to IPFS. */
  datatype MetadataJson = MetadataJson(name: string, symbol: string, description: string, image: string)

  /** What a successful run reports. The account field holds the
      transaction signature, as the source does. */
  datatype MetadataResult = MetadataResult(metadataUri: string, imageUri: string, metadataAccount: string, signature: string)

  /** What the services answer: the image upload, the JSON upload, and the
      on-chain transaction (its signature, or a failure of its own). */
  datatype MetadataEnv = MetadataEnv(
    image: Ipfs.UploadEnv,
    json: Ipfs.UploadEnv,
    createFault: Option<Thrown>,
    signature: string)

  /** A run: its result or error, the ledger afterwards, and the JSON
      document uploaded, if the run got that far. */
  datatype MetadataRun = MetadataRun(outcome: Result<MetadataResult, Thrown>, ledger: Ledger, json: Option<MetadataJson>)

  /** The remediation classes of a metadata failure. */
  datatype MetadataFailure = JwtPassthrough | AlreadyExists | NoFunds | ConfirmTimeout | OtherFailure

  predicate AlreadyInUse(e: Thrown) { Text.Contains(e.message, "account already in use") }
  predicate OutOfFunds(e: Thrown) { Text.Contains(e.message, "insufficient funds") }
  predicate TimedOut(e: Thrown) {
    Text.Contains(e.message, "blockhash not found") || Text.Contains(e.message, "Transaction was not confirmed")
  }

  /** The `catch` tests, in source order. */
  function ClassifyMetadataError(e: Thrown): (c: MetadataFailure)
    ensures c == Rules.FirstMatch(MetadataRules(), e, OtherFailure)
  {
    if MentionsJwt(e) then JwtPassthrough
    else if AlreadyInUse(e) then AlreadyExists
    else if OutOfFunds(e) then NoFunds
    else if TimedOut(e) then ConfirmTimeout
    else OtherFailure
  }

  function MetadataRules(): seq<(MetadataFailure, Thrown -> bool)> {
    [ (JwtPassthrough, MentionsJwt),
      (AlreadyExists, AlreadyInUse),
      (NoFunds, OutOfFunds),
      (ConfirmTimeout, TimedOut) ]
  }

  /** The `if` chain is the first-match reading of the table. */
  lemma ClassifierFollowsTable(e: Thrown)
    ensures ClassifyMetadataError(e) == Rules.FirstMatch(MetadataRules(), e, OtherFailure)
  {
  }

  const AlreadyExistsMessage: string :=
    "Metadata account already exists for this mint.\n\n"
    + "To fix:\n"
    + "  - This mint already has metadata attached\n"
    + "  - Use a different mint address\n"
    + "  - Or update existing metadata (not supported yet)"

  const NoFundsMessage: string :=
    "Insufficient SOL for metadata creation.\n\n"
    + "To fix:\n"
    + "  - Check wallet balance: solana balance\n"
    + "  - Request airdrop: solana airdrop 1 --url devnet\n"
    + "  - Metadata creation costs ~0.01 SOL"

  const TimeoutMessage: string :=
    "Transaction confirmation timeout.\n\n"
    + "To fix:\n"
    + "  - RPC endpoint may be slow or overloaded\n"
    + "  - Try again in a few moments\n"
    + "  - Consider using dedicated RPC (QuickNode, Helius)\n"
    + "  - Check network status: https://status.solana.com"

  const GenericTroubleshooting: string :=
    "\n\nTroubleshooting:\n"
    + "  - Verify mint address is valid SPL token\n"
    + "  - Check you have authority over this mint\n"
    + "  - Ensure sufficient SOL for transaction fees\n"
    + "  - Verify network connectivity"

  /** The error the `catch` rethrows. */
  function MapMetadataError(e: Thrown): (r: Thrown)
    ensures ClassifyMetadataError(e) == JwtPassthrough <==> r == e && MentionsJwt(e)
  {
    match ClassifyMetadataError(e)
    case JwtPassthrough => e
    case AlreadyExists => Plain(AlreadyExistsMessage)
    case NoFunds => Plain(NoFundsMessage)
    case ConfirmTimeout => Plain(TimeoutMessage)
    case OtherFailure =>
      var r := Plain("Metadata creation failed: " + e.message + GenericTroubleshooting);
      assert r != e by {
        assert |r.message| > |e.message|;
      }
      r
  }

  /** `createTokenMetadata`: image upload, then JSON upload, then the
      on-chain account; the first failure stops the rest. */
  function CreateTokenMetadata(l: Ledger, payer: Address, config: MetadataConfig, env: MetadataEnv): (run: MetadataRun)
    ensures run.outcome.Err? ==> run.ledger == l
    ensures run.outcome.Ok? ==> l.mint.Some? && l.mint.value.mintAuthority == Some(payer)
    ensures run.outcome.Ok? ==>
              && run.json.Some?
              && run.json.value == MetadataJson(config.name, config.symbol, config.description, run.outcome.value.imageUri)
              && run.outcome.value.metadataAccount == run.outcome.value.signature
              && run.outcome.value.signature == env.signature
              && run.ledger == l.(metadata := Some(MetadataAccount(Some(payer), true, config.name, config.symbol,
                                                                   run.outcome.value.metadataUri)))
  {
    match Ipfs.UploadImage(config.imagePath, env.image)
    case Err(e) => MetadataRun(Err(MapMetadataError(e)), l, None)
    case Ok(imageUpload) =>
      var json := MetadataJson(config.name, config.symbol, config.description, imageUpload.uri);
      match Ipfs.UploadMetadata(env.json)
      case Err(e) => MetadataRun(Err(MapMetadataError(e)), l, Some(json))
      case Ok(jsonUpload) =>
        if env.createFault.Some? then MetadataRun(Err(MapMetadataError(env.createFault.value)), l, Some(json))
        else
          match Apply(l, CreateMetadata(payer, config.name, config.symbol, jsonUpload.uri))
          case Err(e) => MetadataRun(Err(MapMetadataError(Plain(e))), l, Some(json))
          case Ok(l') =>
            MetadataRun(Ok(MetadataResult(jsonUpload.uri, imageUpload.uri, env.signature, env.signature)), l', Some(json))
  }

  /** A successful run links everything up: the JSON names the image's
      gateway URL and the on-chain account names the JSON's. */
  lemma MetadataLinksUp(l: Ledger, payer: Address, config: MetadataConfig, env: MetadataEnv)
    requires CreateTokenMetadata(l, payer, config, env).outcome.Ok?
    ensures var r := CreateTokenMetadata(l, payer, config, env).outcome.value;
            && r.imageUri == Ipfs.GatewayUri(env.image.reply.value)
            && r.metadataUri == Ipfs.GatewayUri(env.json.reply.value)
  {
  }

  /** A failed image upload stops everything: no JSON is uploaded and the ledger is untouched. */
  lemma ImageFailureStopsEarly(l: Ledger, payer: Address, config: MetadataConfig, env: MetadataEnv)
    requires Ipfs.UploadImage(config.imagePath, env.image).Err?
    ensures var run := CreateTokenMetadata(l, payer, config, env);
            run.outcome.Err? && run.json.None? && run.ledger == l
  {
  }

  /** A mint that already carries metadata gets the "already exists" message. */
  lemma SecondMetadataRefused(l: Ledger, payer: Address, config: MetadataConfig, env: MetadataEnv)
    requires l.mint.Some? && l.metadata.Some?
    requires Ipfs.UploadImage(config.imagePath, env.image).Ok? && Ipfs.UploadMetadata(env.json).Ok?
    requires env.createFault.None?
    ensures CreateTokenMetadata(l, payer, config, env).outcome == Err(Plain(AlreadyExistsMessage))
  {
    var uri := Ipfs.UploadMetadata(env.json).value.uri;
    MetadataAccountInUse(l, payer, config.name, config.symbol, uri);
    InUseClassified(Plain(AccountInUse));
  }

  lemma MetadataAccountInUse(l: Ledger, payer: Address, name: string, symbol: string, uri: string)
    requires l.mint.Some? && l.metadata.Some?
    ensures Apply(l, CreateMetadata(payer, name, symbol, uri)) == Err(AccountInUse)
  {
  }

  lemma InUseClassified(e: Thrown)
    requires e.message == AccountInUse
    ensures ClassifyMetadataError(e) == AlreadyExists
  {
    InUseLacksJwt();
    Text.ContainsSelf(AccountInUse);
  }

  lemma InUseLacksJwt()
    ensures !Text.Contains(AccountInUse, "PINATA_JWT")
  {
    var s := AccountInUse;
    assert forall i :: 0 <= i < |s| ==> s[i] != 'P';
    Text.LacksFirstChar(s, "PINATA_JWT");
  }

  /** Pinata's authentication message itself names PINATA_JWT, so when the
      image upload is refused for bad credentials the metadata step passes
      that message on unchanged instead of wrapping it. */
  lemma AuthFailurePassesThrough(l: Ledger, payer: Address, config: MetadataConfig, env: MetadataEnv)
    requires Ipfs.UploadImage(config.imagePath, env.image) == Err(Plain(Ipfs.AuthFailedMessage))
    ensures CreateTokenMetadata(l, payer, config, env).outcome == Err(Plain(Ipfs.AuthFailedMessage))
  {
    Text.ContainsSelf("PINATA_JWT");
    Text.ContainsInContext(Ipfs.AuthFailedLead, "PINATA_JWT", Ipfs.AuthFailedTail, "PINATA_JWT");
  }

  /** Any other image-upload failure, already worded by the upload step,
      is wrapped a second time in the generic metadata message. */
  lemma UploadFailureWrappedTwice(l: Ledger, payer: Address, config: MetadataConfig, env: MetadataEnv, e: Thrown)
    requires Ipfs.UploadImage(config.imagePath, env.image) == Err(e)
    requires ClassifyMetadataError(e) == OtherFailure
    ensures CreateTokenMetadata(l, payer, config, env).outcome ==
              Err(Plain("Metadata creation failed: " + e.message + GenericTroubleshooting))
  {
  }

  /** A mint whose mint authority is revoked cannot be given metadata:
      the step fails whatever the services answer, and nothing changes. */
  lemma RevokedMintRefusesMetadata(l: Ledger, payer: Address, config: MetadataConfig, env: MetadataEnv)
    requires l.mint.Some? && l.mint.value.mintAuthority.None?
    ensures var run := CreateTokenMetadata(l, payer, config, env);
            run.outcome.Err? && run.ledger == l
  {
  }

  /** With both uploads done and no metadata yet, a revoked mint authority
      ends the step in the generic "Metadata creation failed" message. */
  lemma RevokedMintGenericFailure(l: Ledger, payer: Address, config: MetadataConfig, env: MetadataEnv)
    requires l.mint.Some? && l.mint.value.mintAuthority.None? && l.metadata.None?
    requires Ipfs.UploadImage(config.imagePath, env.image).Ok? && Ipfs.UploadMetadata(env.json).Ok?
    requires env.createFault.None?
    ensures CreateTokenMetadata(l, payer, config, env).outcome ==
              Err(Plain("Metadata creation failed: " + InvalidMintAuthority + GenericTroubleshooting))
  {
    var uri := Ipfs.UploadMetadata(env.json).value.uri;
    MetadataNeedsMintAuthority(l, payer, config.name, config.symbol, uri);
    InvalidAuthorityIsGeneric();
  }

  lemma MetadataNeedsMintAuthority(l: Ledger, payer: Address, name: string, symbol: string, uri: string)
    requires l.mint.Some? && l.mint.value.mintAuthority.None? && l.metadata.None?
    ensures Apply(l, CreateMetadata(payer, name, symbol, uri)) == Err(InvalidMintAuthority)
  {
  }

  /** The metadata program's authority error matches none of the specific classes. */
  lemma InvalidAuthorityIsGeneric()
    ensures ClassifyMetadataError(Plain(InvalidMintAuthority)) == OtherFailure
  {
    var e := Plain(InvalidMintAuthority);
    AuthorityLacksPattern("PINATA_JWT", 0);
    assert !MentionsJwt(e);
    AuthorityLacksPattern("account already in use", 9);
    assert !AlreadyInUse(e);
    AuthorityLacksPattern("insufficient funds", 4);
    assert !OutOfFunds(e);
    AuthorityLacksPattern("blockhash not found", 0);
    AuthorityLacksPattern("Transaction was not confirmed", 0);
    assert !TimedOut(e);
  }

  lemma AuthorityLacksPattern(t: string, k: nat)
    requires k < |t| && (t[k] == 'P' || t[k] == 'l' || t[k] == 'f' || t[k] == 'b' || t[k] == 'T')
    ensures !Text.Contains(InvalidMintAuthority, t)
  {
    AuthorityMessageLacks(t[k]);
    Text.LacksCharOf(InvalidMintAuthority, t, k);
  }

  lemma AuthorityMessageLacks(x: char)
    requires x == 'P' || x == 'l' || x == 'f' || x == 'b' || x == 'T'
    ensures forall i :: 0 <= i < |InvalidMintAuthority| ==> InvalidMintAuthority[i] != x
  {
    var a, b, c, d := "Mint authority ", "provided does not ", "match the authority ", "on the mint";
    assert forall i :: 0 <= i < |a| ==> a[i] != x;
    assert forall i :: 0 <= i < |b| ==> b[i] != x;
    assert forall i :: 0 <= i < |c| ==> c[i] != x;
    assert forall i :: 0 <= i < |d| ==> d[i] != x;
  }
}

=== FILE: prompts.dfy ===
/** The interactive questions that complete a token configuration. A
    question is answered by a sequence of attempts: the prompt keeps asking
    until an attempt passes its validator, and if the attempts run out
    first the user has closed the prompt, which raises an error. */
module Prompts {
  import opened Wrappers
  import opened JsNumber
  import Text
  import TokenValidation
  import ImageValidation
  import Token

  /** The error a prompt raises when the user closes it instead of answering. */
  const ForceClosed: string := "User force closed the prompt"

  // ---------------------------------------------------------------------
  // Asking until an answer is accepted
  // ---------------------------------------------------------------------

  /** The position of the first accepted attempt. */
  function FirstAccepted<A>(attempts: seq<A>, accept: A -> bool): (r: Option<nat>)
    ensures r.Some? ==> r.value < |attempts| && accept(attempts[r.value])
    ensures r.Some? ==> forall j :: 0 <= j < r.value ==> !accept(attempts[j])
    ensures r.None? <==> forall j :: 0 <= j < |attempts| ==> !accept(attempts[j])
    decreases |attempts|
  {
    if attempts == [] then None
    else if accept(attempts[0]) then Some(0)
    else
      match FirstAccepted(attempts[1..], accept)
      case None => None
      case Some(k) => Some(k + 1)
  }

  /** The answer a validated prompt returns. */
  function Ask<A>(attempts: seq<A>, accept: A -> bool): (r: Result<A, string>)
    ensures r.Ok? ==> accept(r.value)
    ensures r.Ok? <==> exists j :: 0 <= j < |attempts| && accept(attempts[j])
    ensures r.Ok? ==> r.value == attempts[FirstAccepted(attempts, accept).value]
    ensures r.Err? ==> r.error == ForceClosed
  {
    match FirstAccepted(attempts, accept)
    case None => Err(ForceClosed)
    case Some(k) => Ok(attempts[k])
  }

  /** A rejected attempt only leads to the question being asked again. */
  lemma RejectedAttemptReasks<A>(attempts: seq<A>, accept: A -> bool)
    requires |attempts| > 0 && !accept(attempts[0])
    ensures Ask(attempts, accept) == Ask(attempts[1..], accept)
  {
    var r, r' := FirstAccepted(attempts, accept), FirstAccepted(attempts[1..], accept);
    if r'.Some? {
      assert attempts[1..][r'.value] == attempts[r'.value + 1];
    }
  }

  // ---------------------------------------------------------------------
  // Validators: `None` accepts, `Some(message)` rejects with that message
  // ---------------------------------------------------------------------

  const NameLengthError: string := "Name must be between 1 and 32 characters"
  const SymbolLengthError: string := "Symbol must be between 1 and 10 characters"
  const DecimalsRequired: string := "Decimals is required"
  const DecimalsRangeError: string := "Decimals must be an integer between 0 and 9"
  const SupplyError: string := "Supply must be a positive number"

  function NameMessage(value: string): Option<string> {
    if Text.Utf16Length(value) < 1 || Text.Utf16Length(value) > 32 then Some(NameLengthError) else None
  }

  function SymbolMessage(value: string): Option<string> {
    if Text.Utf16Length(value) < 1 || Text.Utf16Length(value) > 10 then Some(SymbolLengthError) else None
  }

  /** What the number prompt makes of a typed answer: an empty answer takes
      the default 9, and text that is not a number leaves no value. */
  datatype DecimalsAnswer = Blank | Unparsed | Typed(n: Number)

  function DecimalsValue(a: DecimalsAnswer): Option<Number> {
    match a
    case Blank => Some(FromInt(9))
    case Unparsed => None
    case Typed(n) => Some(n)
  }

  function DecimalsMessage(value: Option<Number>): Option<string> {
    match value
    case None => Some(DecimalsRequired)
    case Some(n) =>
      if !IsInteger(n) || Below(n, 0) || Above(n, 9) then Some(DecimalsRangeError)
      else None
  }

  function SupplyMessage(value: Number): Option<string> {
    if value.NaN? || AtMost(value, 0) then Some(SupplyError) else None
  }

  /** The prompt validators accept exactly what the library validators accept. */
  lemma ValidatorsAgreeWithLibrary(s: string, n: Number)
    ensures NameMessage(s).None? <==> TokenValidation.ValidateName(s)
    ensures SymbolMessage(s).None? <==> TokenValidation.ValidateSymbol(s)
    ensures DecimalsMessage(Some(n)).None? <==> TokenValidation.ValidateDecimals(n)
    ensures SupplyMessage(n).None? <==> TokenValidation.ValidateSupply(n)
  {
  }

  /** An empty decimals answer is the default 9 and is accepted; a
      non-number is refused as missing. */
  lemma DecimalsDefaultAccepted()
    ensures DecimalsMessage(DecimalsValue(Blank)).None?
    ensures DecimalsValue(Blank) == Some(FromInt(9))
    ensures DecimalsMessage(DecimalsValue(Unparsed)) == Some(DecimalsRequired)
  {
  }

  predicate NameAccepted(value: string) { NameMessage(value).None? }
  predicate SymbolAccepted(value: string) { SymbolMessage(value).None? }
  predicate DecimalsAccepted(a: DecimalsAnswer) { DecimalsMessage(DecimalsValue(a)).None? }
  predicate SupplyAccepted(value: Number) { SupplyMessage(value).None? }
  predicate AnyText(value: string) { true }

  /** The whole number an accepted decimals answer stands for. */
  function AcceptedDecimals(a: DecimalsAnswer): (d: nat)
    requires DecimalsAccepted(a)
    ensures TokenValidation.ValidateDecimals(DecimalsValue(a).value)
    ensures d <= 9 && FromInt(d) == Dec(IntValue(DecimalsValue(a).value), 0)
  {
    IntValue(DecimalsValue(a).value)
  }

  // ---------------------------------------------------------------------
  // The single questions
  // ---------------------------------------------------------------------

  const DefaultDescription: string := "Created with Memecoin Factory"

  /** `promptDescription`: an empty answer becomes the default text. */
  function PromptDescription(answers: seq<string>): (r: Result<string, string>)
    ensures r.Ok? <==> |answers| > 0
    ensures r.Ok? ==> r.value != ""
    ensures r.Ok? ==> (r.value == answers[0] || (answers[0] == "" && r.value == DefaultDescription))
  {
    match Ask(answers, AnyText)
    case Err(e) => Err(e)
    case Ok(a) => Ok(if a == "" then DefaultDescription else a)
  }

  /** An image answer ends the question when it is blank or names a valid image. */
  predicate ImageAnswerDone(fs: ImageValidation.FileSystem, a: string) {
    Text.Trim(a) == "" || ImageValidation.ValidateImagePath(Text.Trim(a), fs).valid
  }

  /** `ImageAnswerDone` as the acceptance test handed to `Ask`. */
  function ImageAccept(fs: ImageValidation.FileSystem): string -> bool {
    a => ImageAnswerDone(fs, a)
  }

  /** What an image answer stands for: no logo when it is blank, otherwise the trimmed path. */
  function TrimmedImage(a: string): Option<string> {
    if Text.Trim(a) == "" then None else Some(Text.Trim(a))
  }

  /** `promptImagePath`: a blank answer skips the logo; otherwise the trimmed
      path is returned once it validates, and an invalid one is asked again. */
  function PromptImagePath(attempts: seq<string>, fs: ImageValidation.FileSystem): (r: Result<Option<string>, string>)
    ensures r.Ok? && r.value.Some? ==>
              && r.value.value != ""
              && ImageValidation.ValidateImagePath(r.value.value, fs).valid
              && !Text.IsJsWhitespace(r.value.value[0])
              && !Text.IsJsWhitespace(r.value.value[|r.value.value| - 1])
    ensures r.Err? <==> forall j :: 0 <= j < |attempts| ==> !ImageAnswerDone(fs, attempts[j])
    ensures r.Ok? ==> r.value == TrimmedImage(attempts[FirstAccepted(attempts, ImageAccept(fs)).value])
  {
    match Ask(attempts, ImageAccept(fs))
    case Err(e) => Err(e)
    case Ok(a) => Ok(TrimmedImage(a))
  }

  /** A blank or whitespace-only first answer skips the logo. */
  lemma BlankImageSkips(attempts: seq<string>, fs: ImageValidation.FileSystem)
    requires |attempts| > 0 && Text.AllWhitespace(attempts[0])
    ensures PromptImagePath(attempts, fs) == Ok(None)
  {
    Text.TrimEmptyIffBlank(attempts[0]);
  }

  /** An answer that is neither blank nor a valid image is asked again. */
  lemma InvalidImageReasks(attempts: seq<string>, fs: ImageValidation.FileSystem)
    requires |attempts| > 0 && !ImageAnswerDone(fs, attempts[0])
    ensures PromptImagePath(attempts, fs) == PromptImagePath(attempts[1..], fs)
  {
    assert !ImageAccept(fs)(attempts[0]);
    RejectedAttemptReasks(attempts, ImageAccept(fs));
  }

  /** A valid path typed with surrounding spaces is returned trimmed. */
  lemma ValidImageTrimmed(attempts: seq<string>, fs: ImageValidation.FileSystem)
    requires |attempts| > 0 && Text.Trim(attempts[0]) != ""
    requires ImageValidation.ValidateImagePath(Text.Trim(attempts[0]), fs).valid
    ensures PromptImagePath(attempts, fs) == Ok(Some(Text.Trim(attempts[0])))
  {
  }

  /** The keys a yes/no question can be answered with; `Close` is the user
      force-closing the question (Ctrl+C), which raises an error. */
  datatype ConfirmKey = Yes | No | Enter | Close

  /** A yes/no question whose default is used when the user just presses Enter. */
  function Confirm(key: ConfirmKey, default: bool): (r: Result<bool, string>)
    ensures r.Err? <==> key == Close
    ensures r.Err? ==> r.error == ForceClosed
    ensures key == Yes ==> r == Ok(true)
    ensures key == No ==> r == Ok(false)
    ensures key == Enter ==> r == Ok(default)
  {
    match key
    case Yes => Ok(true)
    case No => Ok(false)
    case Enter => Ok(default)
    case Close => Err(ForceClosed)
  }

  /** `promptConfirmation`: defaults to no, so only an explicit yes confirms. */
  function PromptConfirmation(key: ConfirmKey): (r: Result<bool, string>)
    ensures r.Err? <==> key == Close
    ensures r.Err? ==> r.error == ForceClosed
    ensures r.Ok? ==> (r.value <==> key == Yes)
  {
    Confirm(key, false)
  }

  /** `promptLockMetadata`: the yes/no question above, asked about locking
      the metadata; locking needs an explicit yes. */
  function PromptLockMetadata(key: ConfirmKey): (r: Result<bool, string>)
    ensures r.Err? <==> key == Close
    ensures r.Ok? ==> (r.value <==> key == Yes)
  {
    PromptConfirmation(key)
  }

  // ---------------------------------------------------------------------
  // Completing a partial configuration
  // ---------------------------------------------------------------------

  /** The values given on the command line, each possibly missing. */
  datatype PartialConfig = PartialConfig(
    name: Option<string>,
    symbol: Option<string>,
    decimals: Option<nat>,
    supply: Option<Number>,
    description: Option<string>,
    imagePath: Option<string>)

  /** The attempts the user types at each question, in order. */
  datatype Answers = Answers(
    names: seq<string>,
    symbols: seq<string>,
    decimals: seq<DecimalsAnswer>,
    supplies: seq<Number>,
    descriptions: seq<string>,
    images: seq<string>)

  /** A string field counts as given when it is present and non-empty. */
  predicate GivenText(v: Option<string>) { v.Some? && v.value != "" }

  /** A supply counts as given when it is present and truthy (not `NaN`, not zero). */
  predicate GivenSupply(v: Option<Number>) { v.Some? && Truthy(v.value) }

  /** A missing or empty name is asked for; the first accepted answer is stored as typed. */
  function FillName(given: Option<string>, attempts: seq<string>): (r: Result<string, string>)
    ensures GivenText(given) ==> r == Ok(given.value)
    ensures !GivenText(given) ==> (r.Ok? <==> exists j :: 0 <= j < |attempts| && NameAccepted(attempts[j]))
    ensures !GivenText(given) && r.Ok? ==>
              r.value == attempts[FirstAccepted(attempts, NameAccepted).value] && TokenValidation.ValidateName(r.value)
  {
    if GivenText(given) then Ok(given.value) else Ask(attempts, NameAccepted)
  }

  /** A prompted symbol is validated as typed and stored upper-cased. */
  function FillSymbol(given: Option<string>, attempts: seq<string>): (r: Result<string, string>)
    ensures GivenText(given) ==> r == Ok(given.value)
    ensures !GivenText(given) ==> (r.Ok? <==> exists j :: 0 <= j < |attempts| && SymbolAccepted(attempts[j]))
    ensures !GivenText(given) && r.Ok? ==>
              && r.value == Text.Upper(attempts[FirstAccepted(attempts, SymbolAccepted).value])
              && TokenValidation.ValidateSymbol(r.value)
              && forall i :: 0 <= i < |r.value| ==> !('a' <= r.value[i] <= 'z')
  {
    if GivenText(given) then Ok(given.value)
    else
      match Ask(attempts, SymbolAccepted)
      case Err(e) => Err(e)
      case Ok(s) =>
        Text.UpperHasNoLowercase(s);
        Text.UpperKeepsUtf16Length(s);
        Ok(Text.Upper(s))
  }

  /** Missing decimals are asked for; the first accepted answer's whole value is stored. */
  function FillDecimals(given: Option<nat>, attempts: seq<DecimalsAnswer>): (r: Result<nat, string>)
    ensures given.Some? ==> r == Ok(given.value)
    ensures given.None? ==> (r.Ok? <==> exists j :: 0 <= j < |attempts| && DecimalsAccepted(attempts[j]))
    ensures given.None? && r.Ok? ==>
              var v := DecimalsValue(attempts[FirstAccepted(attempts, DecimalsAccepted).value]).value;
              r.value <= 9 && IsInteger(v) && IntValue(v) == r.value
  {
    if given.Some? then Ok(given.value)
    else
      match Ask(attempts, DecimalsAccepted)
      case Err(e) => Err(e)
      case Ok(a) => Ok(AcceptedDecimals(a))
  }

  /** A missing or falsy supply is asked for; the first accepted answer is stored. */
  function FillSupply(given: Option<Number>, attempts: seq<Number>): (r: Result<Number, string>)
    ensures GivenSupply(given) ==> r == Ok(given.value)
    ensures !GivenSupply(given) ==> (r.Ok? <==> exists j :: 0 <= j < |attempts| && SupplyAccepted(attempts[j]))
    ensures !GivenSupply(given) && r.Ok? ==>
              r.value == attempts[FirstAccepted(attempts, SupplyAccepted).value] && TokenValidation.ValidateSupply(r.value)
  {
    if GivenSupply(given) then Ok(given.value) else Ask(attempts, SupplyAccepted)
  }

  /** A missing or empty description is asked for once; an empty answer becomes the default text. */
  function FillDescription(given: Option<string>, attempts: seq<string>): (r: Result<string, string>)
    ensures GivenText(given) ==> r == Ok(given.value)
    ensures !GivenText(given) ==> (r.Ok? <==> |attempts| > 0)
    ensures !GivenText(given) && r.Ok? ==>
              r.value == if attempts[0] == "" then DefaultDescription else attempts[0]
    ensures r.Ok? ==> r.value != ""
  {
    if GivenText(given) then Ok(given.value) else PromptDescription(attempts)
  }

  /** A logo path that is absent (not merely empty) is asked for; the
      first blank or valid answer decides, trimmed. */
  function FillImage(given: Option<string>, attempts: seq<string>, fs: ImageValidation.FileSystem): (r: Result<Option<string>, string>)
    ensures given.Some? ==> r == Ok(given)
    ensures given.None? ==> (r.Ok? <==> exists j :: 0 <= j < |attempts| && ImageAnswerDone(fs, attempts[j]))
    ensures given.None? && r.Ok? ==> r.value == TrimmedImage(attempts[FirstAccepted(attempts, ImageAccept(fs)).value])
    ensures given.None? && r.Ok? && r.value.Some? ==> ImageValidation.ValidateImagePath(r.value.value, fs).valid
  {
    if given.Some? then Ok(given) else PromptImagePath(attempts, fs)
  }

  /** Every field is either given or has an answer its question accepts. */
  predicate Answerable(partial: PartialConfig, answers: Answers, fs: ImageValidation.FileSystem) {
    && (GivenText(partial.name) || exists j :: 0 <= j < |answers.names| && NameAccepted(answers.names[j]))
    && (GivenText(partial.symbol) || exists j :: 0 <= j < |answers.symbols| && SymbolAccepted(answers.symbols[j]))
    && (partial.decimals.Some? || exists j :: 0 <= j < |answers.decimals| && DecimalsAccepted(answers.decimals[j]))
    && (GivenSupply(partial.supply) || exists j :: 0 <= j < |answers.supplies| && SupplyAccepted(answers.supplies[j]))
    && (GivenText(partial.description) || |answers.descriptions| > 0)
    && (partial.imagePath.Some? || exists j :: 0 <= j < |answers.images| && ImageAnswerDone(fs, answers.images[j]))
  }

  /** `promptTokenConfig`: given values are kept, the others are asked for in
      the order name, symbol, decimals, supply, description, logo; closing
      any question ends the whole run with its error. */
  function PromptTokenConfig(partial: PartialConfig, answers: Answers, fs: ImageValidation.FileSystem): (r: Result<Token.TokenConfig, string>)
    ensures r.Err? ==> r.error == ForceClosed
    ensures r.Ok? ==> GivenText(partial.name) ==> r.value.name == partial.name.value
    ensures r.Ok? ==> GivenText(partial.symbol) ==> r.value.symbol == partial.symbol.value
    ensures r.Ok? ==> partial.decimals.Some? ==> r.value.decimals == partial.decimals.value
    ensures r.Ok? ==> GivenSupply(partial.supply) ==> r.value.supply == partial.supply.value
    ensures r.Ok? ==> GivenText(partial.description) ==> r.value.description == partial.description
    ensures r.Ok? ==> partial.imagePath.Some? ==> r.value.imagePath == partial.imagePath
    ensures r.Ok? ==> !GivenText(partial.name) ==> TokenValidation.ValidateName(r.value.name)
    ensures r.Ok? ==> !GivenText(partial.symbol) ==> TokenValidation.ValidateSymbol(r.value.symbol)
    ensures r.Ok? ==> partial.decimals.None? ==> r.value.decimals <= 9
    ensures r.Ok? ==> !GivenSupply(partial.supply) ==> TokenValidation.ValidateSupply(r.value.supply)
    ensures r.Ok? ==> r.value.description.Some? && r.value.description.value != ""
    ensures r.Ok? && partial.imagePath.None? && r.value.imagePath.Some? ==>
              ImageValidation.ValidateImagePath(r.value.imagePath.value, fs).valid
  {
    var name := FillName(partial.name, answers.names);
    var symbol := FillSymbol(partial.symbol, answers.symbols);
    var decimals := FillDecimals(partial.decimals, answers.decimals);
    var supply := FillSupply(partial.supply, answers.supplies);
    var description := FillDescription(partial.description, answers.descriptions);
    var imagePath := FillImage(partial.imagePath, answers.images, fs);
    if name.Ok? && symbol.Ok? && decimals.Ok? && supply.Ok? && description.Ok? && imagePath.Ok? then
      Ok(Token.TokenConfig(name.value, symbol.value, decimals.value, supply.value, Some(description.value), imagePath.value))
    else
      Err(ForceClosed)
  }

  /** The configuration is completed exactly when every field is given or
      has an answer its question accepts; otherwise a question was closed. */
  lemma PromptTokenConfigSucceedsIff(partial: PartialConfig, answers: Answers, fs: ImageValidation.FileSystem)
    ensures PromptTokenConfig(partial, answers, fs).Ok? <==> Answerable(partial, answers, fs)
  {
  }

  /** Each prompted field holds the first answer its question accepted:
      the name and supply as typed, the symbol upper-cased, decimals by
      value, the description or its default, and the logo path trimmed. */
  lemma PromptedFieldsAreFirstAccepted(partial: PartialConfig, answers: Answers, fs: ImageValidation.FileSystem)
    requires PromptTokenConfig(partial, answers, fs).Ok?
    ensures var c := PromptTokenConfig(partial, answers, fs).value;
            (!GivenText(partial.name) ==> c.name == answers.names[FirstAccepted(answers.names, NameAccepted).value])
            && (!GivenText(partial.symbol) ==> c.symbol == Text.Upper(answers.symbols[FirstAccepted(answers.symbols, SymbolAccepted).value]))
            && (partial.decimals.None? ==> c.decimals == IntValue(DecimalsValue(answers.decimals[FirstAccepted(answers.decimals, DecimalsAccepted).value]).value))
            && (!GivenSupply(partial.supply) ==> c.supply == answers.supplies[FirstAccepted(answers.supplies, SupplyAccepted).value])
            && (!GivenText(partial.description) ==> c.description == Some(if answers.descriptions[0] == "" then DefaultDescription else answers.descriptions[0]))
            && (partial.imagePath.None? ==> c.imagePath == TrimmedImage(answers.images[FirstAccepted(answers.images, ImageAccept(fs)).value]))
  {
  }

  /** A fully given configuration needs no answers at all. */
  lemma CompleteConfigAsksNothing(partial: PartialConfig, fs: ImageValidation.FileSystem)
    requires GivenText(partial.name) && GivenText(partial.symbol) && partial.decimals.Some?
    requires GivenSupply(partial.supply) && GivenText(partial.description) && partial.imagePath.Some?
    ensures PromptTokenConfig(partial, Answers([], [], [], [], [], []), fs) ==
              Ok(Token.TokenConfig(partial.name.value, partial.symbol.value, partial.decimals.value,
                                   partial.supply.value, partial.description, partial.imagePath))
  {
  }

  /** A missing name with no answer to give closes the session before
      anything else is asked. */
  lemma UnansweredNameCloses(partial: PartialConfig, answers: Answers, fs: ImageValidation.FileSystem)
    requires !GivenText(partial.name) && answers.names == []
    ensures PromptTokenConfig(partial, answers, fs) == Err(ForceClosed)
  {
  }

  /** An empty name on the command line counts as missing and is asked for;
      a too-long first answer is refused and the next one is taken. */
  lemma EmptyNameIsAsked(partial: PartialConfig, answers: Answers, fs: ImageValidation.FileSystem, long: string, good: string)
    requires partial.name == Some("")
    requires |long| == 33 && 1 <= Text.Utf16Length(good) <= 32
    requires answers.names == [long, good]
    ensures FillName(partial.name, answers.names) == Ok(good)
  {
    RejectedAttemptReasks(answers.names, NameAccepted);
    assert answers.names[1..] == [good];
  }
}

=== FILE: rules.dfy ===
/** First-match-wins tables: the tool classifies failures with chains of
    `if (...) { ... } else if (...)` tests; each chain is a table of
    (label, guard) rows read top to bottom. */
module Rules {

  /** The label of the first row whose guard holds of `x`, or `otherwise`
      when no guard holds. */
  function FirstMatch<T, L>(rules: seq<(L, T -> bool)>, x: T, otherwise: L): (r: L)
    ensures (forall i :: 0 <= i < |rules| ==> !rules[i].1(x)) ==> r == otherwise
    ensures forall i :: 0 <= i < |rules| && rules[i].1(x) && (forall j :: 0 <= j < i ==> !rules[j].1(x))
              ==> r == rules[i].0
  {
    if rules == [] then otherwise
    else if rules[0].1(x) then rules[0].0
    else
      var r := FirstMatch(rules[1..], x, otherwise);
      assert forall i :: 1 <= i < |rules| ==> rules[1..][i - 1] == rules[i];
      r
  }

  /** The label chosen is `otherwise` or the label of a row whose guard holds. */
  lemma {:induction false} FirstMatchIsWitnessed<T, L>(rules: seq<(L, T -> bool)>, x: T, otherwise: L)
    ensures var r := FirstMatch(rules, x, otherwise);
            r == otherwise || exists i :: 0 <= i < |rules| && rules[i].1(x) && rules[i].0 == r
  {
    if rules != [] && !rules[0].1(x) {
      FirstMatchIsWitnessed(rules[1..], x, otherwise);
      var r := FirstMatch(rules, x, otherwise);
      if r != otherwise {
        var i :| 0 <= i < |rules[1..]| && rules[1..][i].1(x) && rules[1..][i].0 == r;
        assert rules[i + 1] == rules[1..][i];
      }
    }
  }
}

=== FILE: text.dfy ===
/** The JavaScript string operations the tool relies on: case mapping,
    `includes`, `trim`, and the decimal rendering of whole numbers.
    Strings are sequences of characters; case mapping covers ASCII letters. */
module Text {

  // ---------------------------------------------------------------------
  // Case mapping
  // ---------------------------------------------------------------------

  function LowerChar(c: char): char {
    if 'A' <= c <= 'Z' then (c as int + 32) as char else c
  }

  function UpperChar(c: char): char {
    if 'a' <= c <= 'z' then (c as int - 32) as char else c
  }

  /** `s.toLowerCase()`. */
  function Lower(s: string): (r: string)
    ensures |r| == |s|
    ensures forall i :: 0 <= i < |s| ==> r[i] == LowerChar(s[i])
  {
    if s == [] then [] else [LowerChar(s[0])] + Lower(s[1..])
  }

  /** `s.toUpperCase()`. */
  function Upper(s: string): (r: string)
    ensures |r| == |s|
    ensures forall i :: 0 <= i < |s| ==> r[i] == UpperChar(s[i])
  {
    if s == [] then [] else [UpperChar(s[0])] + Upper(s[1..])
  }

  /** Lower-casing is idempotent, and it forgets any earlier upper-casing:
      comparisons made on lower-cased text do not depend on the case of the input. */
  lemma LowerForgetsCase(s: string)
    ensures Lower(Lower(s)) == Lower(s)
    ensures Lower(Upper(s)) == Lower(s)
  {
  }

  /** An upper-cased string contains no lower-case ASCII letter. */
  lemma UpperHasNoLowercase(s: string)
    ensures forall i :: 0 <= i < |s| ==> !('a' <= Upper(s)[i] <= 'z')
  {
  }

  /** Upper-casing commutes with taking a slice. */
  lemma UpperSlice(s: string, i: int, j: int)
    requires 0 <= i <= j <= |s|
    ensures Upper(s)[i..j] == Upper(s[i..j])
  {
  }

  lemma LowerConcat(a: string, b: string)
    ensures Lower(a + b) == Lower(a) + Lower(b)
  {
  }

  // ---------------------------------------------------------------------
  // Length
  // ---------------------------------------------------------------------

  /** A character outside the Basic Multilingual Plane (an emoji, say),
      which UTF-16 writes as a surrogate pair. */
  predicate Astral(c: char) {
    c as int >= 0x10000
  }

  /** `s.length`: the number of UTF-16 code units, so an astral character counts twice. */
  function Utf16Length(s: string): (n: nat)
    ensures |s| <= n <= 2 * |s|
    ensures n == |s| <==> forall i :: 0 <= i < |s| ==> !Astral(s[i])
    ensures n == 2 * |s| <==> forall i :: 0 <= i < |s| ==> Astral(s[i])
  {
    if s == [] then 0 else (if Astral(s[0]) then 2 else 1) + Utf16Length(s[1..])
  }

  /** Upper-casing changes no length: it only touches ASCII letters. */
  lemma {:induction false} UpperKeepsUtf16Length(s: string)
    ensures Utf16Length(Upper(s)) == Utf16Length(s)
  {
    if s != [] {
      assert Upper(s)[1..] == Upper(s[1..]);
      UpperKeepsUtf16Length(s[1..]);
    }
  }

  // ---------------------------------------------------------------------
  // Substring search
  // ---------------------------------------------------------------------

  /** `t` occurs in `s` starting at index `i`. */
  predicate OccursAt(s: string, t: string, i: int) {
    0 <= i && i + |t| <= |s| && s[i..i + |t|] == t
  }

  /** `s.includes(t)`, scanning from the left. */
  predicate Contains(s: string, t: string)
    ensures Contains(s, t) ==> |t| <= |s|
    ensures t == [] ==> Contains(s, t)
    ensures |t| == |s| ==> (Contains(s, t) <==> s == t)
    decreases |s|
  {
    |t| <= |s| && (s[..|t|] == t || Contains(s[1..], t))
  }

  /** The left-to-right scan finds `t` exactly when `t` occurs somewhere in `s`. */
  lemma {:induction false} ContainsIffOccurs(s: string, t: string)
    ensures Contains(s, t) <==> exists i :: OccursAt(s, t, i)
    decreases |s|
  {
    if |t| <= |s| {
      if s[..|t|] == t {
        assert OccursAt(s, t, 0);
      } else {
        ContainsIffOccurs(s[1..], t);
        if exists i :: OccursAt(s[1..], t, i) {
          var i :| OccursAt(s[1..], t, i);
          assert s[1..][i..i + |t|] == s[i + 1..i + 1 + |t|];
          assert OccursAt(s, t, i + 1);
        }
        if exists i :: OccursAt(s, t, i) {
          var i :| OccursAt(s, t, i);
          assert i != 0;
          assert s[1..][i - 1..i - 1 + |t|] == s[i..i + |t|];
          assert OccursAt(s[1..], t, i - 1);
        }
      }
    }
  }

  /** A witnessed occurrence makes `includes` true. */
  lemma ContainsAt(s: string, t: string, i: int)
    requires OccursAt(s, t, i)
    ensures Contains(s, t)
  {
    ContainsIffOccurs(s, t);
  }

  /** Text found in a string is still found after anything is added around it. */
  lemma ContainsInContext(a: string, s: string, b: string, t: string)
    requires Contains(s, t)
    ensures Contains(a + s + b, t)
  {
    ContainsIffOccurs(s, t);
    var i :| OccursAt(s, t, i);
    assert (a + s + b)[|a| + i..|a| + i + |t|] == s[i..i + |t|];
    ContainsAt(a + s + b, t, |a| + i);
  }

  /** Text found in a string is still found after more is appended. */
  lemma ContainsExtended(s: string, b: string, t: string)
    requires Contains(s, t)
    ensures Contains(s + b, t)
  {
    ContainsIffOccurs(s, t);
    var i :| OccursAt(s, t, i);
    assert (s + b)[i..i + |t|] == s[i..i + |t|];
    ContainsAt(s + b, t, i);
  }

  /** A message assembled from three pieces contains its first and second. */
  lemma ContainsOpening(a: string, b: string, c: string)
    ensures Contains(a + b + c, a)
    ensures Contains(a + b + c, b)
  {
    var s := a + b + c;
    assert s[..|a|] == a;
    ContainsAt(s, a, 0);
    assert s[|a|..|a| + |b|] == b;
    ContainsAt(s, b, |a|);
  }

  /** A message assembled from six pieces contains its first, third and fifth. */
  lemma ContainsPieces(a: string, b: string, c: string, d: string, e: string, f: string)
    ensures Contains(a + b + c + d + e + f, a)
    ensures Contains(a + b + c + d + e + f, c)
    ensures Contains(a + b + c + d + e + f, e)
  {
    var s := a + b + c + d + e + f;
    assert s[..|a|] == a;
    ContainsAt(s, a, 0);
    assert s[|a + b|..|a + b| + |c|] == c;
    ContainsAt(s, c, |a + b|);
    assert s[|a + b + c + d|..|a + b + c + d| + |e|] == e;
    ContainsAt(s, e, |a + b + c + d|);
  }

  /** A string that lacks the first character of `t` does not contain `t`. */
  lemma LacksFirstChar(s: string, t: string)
    requires |t| > 0
    ensures (forall i :: 0 <= i < |s| ==> s[i] != t[0]) ==> !Contains(s, t)
  {
    ContainsIffOccurs(s, t);
    forall i | OccursAt(s, t, i)
      ensures s[i] == t[0]
    {
      assert s[i..i + |t|][0] == s[i];
    }
  }

  /** A message contains its own opening words, whatever follows them. */
  lemma ContainsLead(p: string, a: string, b: string, c: string)
    ensures Contains(p + a + b + c, p)
  {
    var s := p + a + b + c;
    assert s[..|p|] == p;
    assert OccursAt(s, p, 0);
    ContainsAt(s, p, 0);
  }

  /** A string that lacks some character of `t` does not contain `t`. */
  lemma LacksCharOf(s: string, t: string, k: nat)
    requires k < |t|
    ensures (forall i :: 0 <= i < |s| ==> s[i] != t[k]) ==> !Contains(s, t)
  {
    ContainsIffOccurs(s, t);
    forall i | OccursAt(s, t, i)
      ensures s[i + k] == t[k]
    {
      assert s[i..i + |t|][k] == s[i + k];
    }
  }

  /** Every string contains itself. */
  lemma ContainsSelf(s: string)
    ensures Contains(s, s)
  {
    assert OccursAt(s, s, 0);
    ContainsAt(s, s, 0);
  }

  // ---------------------------------------------------------------------
  // Whitespace trimming
  // ---------------------------------------------------------------------

  /** The characters `String.prototype.trim` removes: ECMAScript WhiteSpace and LineTerminator. */
  predicate IsJsWhitespace(c: char) {
    var n := c as int;
    n == 0x20 || 0x09 <= n <= 0x0D || n == 0xA0 || n == 0x1680
    || 0x2000 <= n <= 0x200A || n == 0x2028 || n == 0x2029 || n == 0x202F
    || n == 0x205F || n == 0x3000 || n == 0xFEFF
  }

  /** Every character of `s` between `lo` and `hi` is whitespace. */
  predicate WhitespaceIn(s: string, lo: int, hi: int)
    requires 0 <= lo && hi <= |s|
  {
    forall i :: lo <= i < hi ==> IsJsWhitespace(s[i])
  }

  predicate AllWhitespace(s: string) {
    WhitespaceIn(s, 0, |s|)
  }

  /** Drops leading whitespace: the result is a suffix of `s` whose removed
      prefix is all whitespace and which does not start with whitespace. */
  function TrimStart(s: string): (r: string)
    ensures |r| <= |s| && r == s[|s| - |r|..]
    ensures WhitespaceIn(s, 0, |s| - |r|)
    ensures r == [] || !IsJsWhitespace(r[0])
  {
    if s != [] && IsJsWhitespace(s[0]) then TrimStart(s[1..]) else s
  }

  /** Drops trailing whitespace: the result is a prefix of `s` whose removed
      suffix is all whitespace and which does not end with whitespace. */
  function TrimEnd(s: string): (r: string)
    ensures |r| <= |s| && r == s[..|r|]
    ensures WhitespaceIn(s, |r|, |s|)
    ensures r == [] || !IsJsWhitespace(r[|r| - 1])
  {
    if s != [] && IsJsWhitespace(s[|s| - 1]) then TrimEnd(s[..|s| - 1]) else s
  }

  /** `s.trim()`: the middle of `s` between a whitespace prefix and a
      whitespace suffix, neither starting nor ending with whitespace. */
  function Trim(s: string): (r: string)
    ensures r == [] || (!IsJsWhitespace(r[0]) && !IsJsWhitespace(r[|r| - 1]))
    ensures var k := |s| - |TrimStart(s)|;
            k + |r| <= |s| && r == s[k..k + |r|]
            && WhitespaceIn(s, 0, k) && WhitespaceIn(s, k + |r|, |s|)
  {
    var t := TrimStart(s);
    var r := TrimEnd(t);
    TrimParts(s, t, r);
    r
  }

  /** Trimming the end of a trimmed suffix leaves a middle slice framed by whitespace. */
  lemma TrimParts(s: string, t: string, r: string)
    requires |t| <= |s| && t == s[|s| - |t|..]
    requires |r| <= |t| && r == t[..|r|] && WhitespaceIn(t, |r|, |t|)
    requires t == [] || !IsJsWhitespace(t[0])
    requires r == [] || !IsJsWhitespace(r[|r| - 1])
    ensures r == [] || (!IsJsWhitespace(r[0]) && !IsJsWhitespace(r[|r| - 1]))
    ensures var k := |s| - |t|;
            k + |r| <= |s| && r == s[k..k + |r|] && WhitespaceIn(s, k + |r|, |s|)
  {
    var k := |s| - |t|;
    forall i | k + |r| <= i < |s|
      ensures IsJsWhitespace(s[i])
    {
      assert s[i] == t[i - k];
    }
    if r != [] {
      assert r[0] == t[0];
    }
  }

  /** `s.trim()` is empty exactly when `s` is all whitespace. */
  lemma TrimEmptyIffBlank(s: string)
    ensures Trim(s) == [] <==> AllWhitespace(s)
  {
    var t := TrimStart(s);
    if Trim(s) == [] {
      assert t == [];
    }
    if AllWhitespace(s) {
      assert t == [];
    }
  }

  /** Trimming twice changes nothing more. */
  lemma TrimIdempotent(s: string)
    ensures Trim(Trim(s)) == Trim(s)
  {
  }

  // ---------------------------------------------------------------------
  // Decimal rendering of whole numbers
  // ---------------------------------------------------------------------

  predicate IsDigit(c: char) {
    '0' <= c <= '9'
  }

  function DigitChar(d: nat): (c: char)
    requires d < 10
    ensures IsDigit(c) && c as int - '0' as int == d
  {
    ('0' as int + d) as char
  }

  /** The decimal digits of `n`, most significant first, as `String(n)` writes them. */
  function NatText(n: nat): (r: string)
    ensures 1 <= |r|
    ensures forall i :: 0 <= i < |r| ==> IsDigit(r[i])
    decreases n
  {
    if n < 10 then [DigitChar(n)] else NatText(n / 10) + [DigitChar(n % 10)]
  }

  /** The value of a string of decimal digits. */
  function DigitsValue(s: string): nat
    requires forall i :: 0 <= i < |s| ==> IsDigit(s[i])
  {
    if s == [] then 0
    else
      var last := s[|s| - 1];
      assert IsDigit(last);
      DigitsValue(s[..|s| - 1]) * 10 + (last as int - '0' as int)
  }

  /** Reading back the rendered digits gives the number. */
  lemma {:induction false} NatTextRoundTrip(n: nat)
    ensures DigitsValue(NatText(n)) == n
    decreases n
  {
    if n >= 10 {
      NatTextRoundTrip(n / 10);
      var r := NatText(n);
      assert r[..|r| - 1] == NatText(n / 10);
    }
  }

  /** Different numbers are rendered differently. */
  lemma NatTextInjective(m: nat, n: nat)
    requires NatText(m) == NatText(n)
    ensures m == n
  {
    NatTextRoundTrip(m);
    NatTextRoundTrip(n);
  }

  /** `String(i)` for a whole number of either sign. */
  function IntText(i: int): (r: string)
    ensures i < 0 <==> (r != [] && r[0] == '-')
  {
    if i < 0 then "-" + NatText(-i) else NatText(i)
  }
}

=== FILE: token.dfy ===
/** Token creation: mint, associated account, initial supply, and the
    revocation of both mint authorities, as five instructions sent in
    order. The RPC node's answers (addresses, signatures, failures) are a
    parameter; the chain's reaction is the `Ledger` model. */
module Token {
  import opened Wrappers
  import opened JsNumber
  import opened Ledger

  /** The parameters of a token. Decimals are a whole number by the time
      they get here: both the command line and the prompt admit only
      integers from 0 to 9. */
  datatype TokenConfig = TokenConfig(
    name: string,
    symbol: string,
    decimals: nat,
    supply: Number,
    description: Option<string>,
    imagePath: Option<string>)

  /** What a successful creation reports. */
  datatype TokenResult = TokenResult(
    mint: Address,
    tokenAccount: Address,
    mintTxSignature: string,
    revokeAuthoritiesTxSignatures: seq<string>,
    supply: int)

  /** A failure the RPC node reports for the instruction at `step` (0 to 4). */
  datatype Fault = Fault(step: nat, message: string)

  /** What the network answers: the new mint's address, the associated
      account's address, the three transaction signatures, and possibly a
      failure at one step. */
  datatype CreateNet = CreateNet(
    mint: Address,
    tokenAccount: Address,
    mintTx: string,
    revokeMintTx: string,
    revokeFreezeTx: string,
    fault: Option<Fault>)

  /** Instructions 1 and 2: the mint, with the payer as both authorities, and the payer's associated account. */
  function PrepareOps(payer: Address, decimals: nat): seq<Op> {
    [CreateMint(payer, decimals), CreateAccount]
  }

  /** Instructions 3 to 5: the initial supply, then both revocations. */
  function FinishOps(payer: Address, amount: int): seq<Op> {
    [MintTo(payer, amount), SetAuthority(payer, MintTokens, None), SetAuthority(payer, FreezeAccount, None)]
  }

  /** The five instructions `createToken` sends, `amount` being the raw initial supply. */
  function CreateOps(payer: Address, decimals: nat, amount: int): seq<Op> {
    PrepareOps(payer, decimals) + FinishOps(payer, amount)
  }

  /** The network reports no failure for steps `from` up to `from + n`. */
  predicate NoFaultIn(net: CreateNet, from: nat, n: nat) {
    net.fault.None? || !(from <= net.fault.value.step < from + n)
  }

  /** The outcome of sending instructions: the final ledger or the first
      error, the last ledger reached, and how many instructions succeeded. */
  datatype Sent = Sent(outcome: Result<Ledger, string>, ledger: Ledger, sent: nat)

  /** Sends `ops` one at a time (they are steps `from`, `from + 1`, …),
      stopping at the first one the network or the chain rejects. */
  function Send(l: Ledger, ops: seq<Op>, from: nat, net: CreateNet): (r: Sent)
    ensures r.sent <= |ops|
    ensures r.outcome.Ok? <==> r.sent == |ops|
    ensures r.outcome.Ok? ==> r.outcome.value == r.ledger
    ensures ApplyAll(l, ops[..r.sent]) == Ok(r.ledger)
    ensures NoFaultIn(net, from, |ops|) ==>
              (r.outcome.Ok? <==> ApplyAll(l, ops).Ok?)
              && (r.outcome.Err? ==> r.outcome == ApplyAll(l, ops))
    decreases |ops|
  {
    if ops == [] then Sent(Ok(l), l, 0)
    else if net.fault.Some? && net.fault.value.step == from then Sent(Err(net.fault.value.message), l, 0)
    else
      match Apply(l, ops[0])
      case Err(e) => Sent(Err(e), l, 0)
      case Ok(l') =>
        var rest := Send(l', ops[1..], from + 1, net);
        assert ops[..rest.sent + 1] == [ops[0]] + ops[1..][..rest.sent];
        Sent(rest.outcome, rest.ledger, rest.sent + 1)
  }

  /** A run of `createToken`: its result or error, the ledger it leaves
      behind, and how many of the five instructions went through. */
  datatype CreateRun = CreateRun(outcome: Result<TokenResult, string>, ledger: Ledger, completed: nat)

  /** The raw supply `BigInt(supply) * BigInt(10 ** decimals)`, or the
      `RangeError` for a supply that is not a whole number. */
  function RawSupply(config: TokenConfig): (r: Result<int, string>)
    ensures r.Ok? <==> IsInteger(config.supply)
    ensures r.Ok? ==> r.value == IntValue(config.supply) * Pow10(config.decimals)
  {
    match ToBigInt(config.supply)
    case Ok(whole) => Ok(whole * Pow10(config.decimals))
    case Err(e) => Err(e)
  }

  /** `createToken`: instructions 1 and 2, then the supply conversion,
      then instructions 3 to 5. Any failure is passed on unchanged and
      nothing already done is undone. */
  function CreateToken(l: Ledger, payer: Address, config: TokenConfig, net: CreateNet): (run: CreateRun)
    ensures run.completed <= 5
    ensures run.outcome.Ok? <==> run.completed == 5
    ensures run.outcome.Ok? ==> IsInteger(config.supply)
    ensures run.completed > 2 ==> RawSupply(config).Ok?
    ensures run.outcome.Ok? ==>
              var r := run.outcome.value;
              && r.mint == net.mint && r.tokenAccount == net.tokenAccount
              && r.mintTxSignature == net.mintTx
              && r.revokeAuthoritiesTxSignatures == [net.revokeMintTx, net.revokeFreezeTx]
              && r.supply == RawSupply(config).value
  {
    var prepare := Send(l, PrepareOps(payer, config.decimals), 0, net);
    if prepare.outcome.Err? then
      CreateRun(Err(prepare.outcome.error), prepare.ledger, prepare.sent)
    else
      match RawSupply(config)
      case Err(e) => CreateRun(Err(e), prepare.ledger, 2)
      case Ok(amount) =>
        var finish := Send(prepare.ledger, FinishOps(payer, amount), 2, net);
        if finish.outcome.Err? then
          CreateRun(Err(finish.outcome.error), finish.ledger, 2 + finish.sent)
        else
          CreateRun(Ok(TokenResult(net.mint, net.tokenAccount, net.mintTx,
                                   [net.revokeMintTx, net.revokeFreezeTx], amount)),
                    finish.ledger, 5)
  }

  /** The raw amount the run mints: the converted supply, or 0 when the
      conversion failed (no supply instruction is then sent). */
  function MintedAmount(config: TokenConfig): int {
    if RawSupply(config).Ok? then RawSupply(config).value else 0
  }

  /** Whatever happens, the ledger left behind is exactly the effect of the
      instructions that went through: creation is fail-fast and never rolls back. */
  lemma CreateTokenIsPrefix(l: Ledger, payer: Address, config: TokenConfig, net: CreateNet)
    ensures var run := CreateToken(l, payer, config, net);
            ApplyAll(l, CreateOps(payer, config.decimals, MintedAmount(config))[..run.completed]) == Ok(run.ledger)
  {
    var run := CreateToken(l, payer, config, net);
    var prep := PrepareOps(payer, config.decimals);
    var ops := prep + FinishOps(payer, MintedAmount(config));
    var prepare := Send(l, prep, 0, net);
    assert ops[..prepare.sent] == prep[..prepare.sent];
    if prepare.outcome.Ok? && RawSupply(config).Ok? {
      var finish := Send(prepare.ledger, FinishOps(payer, MintedAmount(config)), 2, net);
      assert prep[..2] == prep;
      assert ops[..2 + finish.sent] == prep + FinishOps(payer, MintedAmount(config))[..finish.sent];
      ApplyAllSplit(l, prep, FinishOps(payer, MintedAmount(config))[..finish.sent]);
    }
  }

  /** Running a concatenation runs the first part, then the second. */
  lemma {:induction false} ApplyAllSplit(l: Ledger, a: seq<Op>, b: seq<Op>)
    requires ApplyAll(l, a).Ok?
    ensures ApplyAll(l, a + b) == ApplyAll(ApplyAll(l, a).value, b)
    decreases |a|
  {
    if a != [] {
      var l' := Apply(l, a[0]).value;
      assert ApplyAll(l, a) == ApplyAll(l', a[1..]);
      assert (a + b)[0] == a[0];
      assert (a + b)[1..] == a[1..] + b;
      assert ApplyAll(l, a + b) == ApplyAll(l', a[1..] + b);
      ApplyAllSplit(l', a[1..], b);
    } else {
      assert a + b == b;
    }
  }

  /** The ledger after instructions 1 and 2 on a fresh ledger. */
  function Prepared(payer: Address, decimals: nat): Ledger {
    Ledger(Some(MintState(Some(payer), Some(payer), 0, decimals)), Some(0), None)
  }

  /** Without network failures, instructions 1 and 2 always succeed on a fresh ledger. */
  lemma PrepareOnFreshLedger(payer: Address, decimals: nat, net: CreateNet)
    requires net.fault.None?
    ensures Send(Empty, PrepareOps(payer, decimals), 0, net) == Sent(Ok(Prepared(payer, decimals)), Prepared(payer, decimals), 2)
  {
    var ops := PrepareOps(payer, decimals);
    var l1 := Apply(Empty, ops[0]).value;
    assert ops[1..] == [CreateAccount];
    assert [CreateAccount][1..] == [];
    assert Send(l1, [CreateAccount], 1, net) == Sent(Ok(Prepared(payer, decimals)), Prepared(payer, decimals), 1);
  }

  /** Instructions 3 to 5 succeed exactly when the amount is a 64-bit
      amount that does not push the supply past the 64-bit limit, given that
      the payer still holds both authorities; they then revoke both and add
      the amount to the supply and to the payer's balance. */
  lemma FinishAfterPrepare(l: Ledger, payer: Address, amount: int, net: CreateNet)
    requires net.fault.None?
    requires l.mint.Some? && l.mint.value.mintAuthority == Some(payer) && l.mint.value.freezeAuthority == Some(payer)
    requires l.balance.Some?
    ensures var r := Send(l, FinishOps(payer, amount), 2, net);
            && (r.outcome.Ok? <==> U64(amount) && l.mint.value.supply + amount <= MaxU64)
            && (r.outcome.Ok? ==>
                  r.ledger == l.(mint := Some(l.mint.value.(mintAuthority := None, freezeAuthority := None,
                                                            supply := l.mint.value.supply + amount)),
                                 balance := Some(l.balance.value + amount)))
  {
    var ops := FinishOps(payer, amount);
    assert ops[1..] == [ops[1], ops[2]];
    assert [ops[1], ops[2]][1..] == [ops[2]];
    assert [ops[2]][1..] == [];
    if U64(amount) && l.mint.value.supply + amount <= MaxU64 {
      var l3 := Apply(l, ops[0]).value;
      var l4 := Apply(l3, ops[1]).value;
      var l5 := Apply(l4, ops[2]).value;
      assert Send(l5, [], 5, net) == Sent(Ok(l5), l5, 0);
      assert Send(l4, [ops[2]], 4, net) == Sent(Ok(l5), l5, 1);
      assert Send(l3, [ops[1], ops[2]], 3, net) == Sent(Ok(l5), l5, 2);
    }
  }

  /** A successful finishing stage leaves both authorities revoked, whatever it started from. */
  lemma FinishRevokes(l: Ledger, payer: Address, amount: int, net: CreateNet)
    requires Send(l, FinishOps(payer, amount), 2, net).outcome.Ok?
    ensures var m := Send(l, FinishOps(payer, amount), 2, net).ledger.mint;
            m.Some? && m.value.mintAuthority.None? && m.value.freezeAuthority.None?
  {
    var ops := FinishOps(payer, amount);
    assert ops[1..] == [ops[1], ops[2]];
    assert [ops[1], ops[2]][1..] == [ops[2]];
    assert [ops[2]][1..] == [];
    var l3 := Apply(l, ops[0]).value;
    var l4 := Apply(l3, ops[1]).value;
    assert Send(l4, [ops[2]], 4, net).outcome.Ok?;
    var l5 := Apply(l4, ops[2]).value;
    assert Send(l4, [ops[2]], 4, net).ledger == l5;
  }

  /** On a fresh ledger with no network failure, creation succeeds exactly
      when the supply is a whole number whose raw amount (the supply times
      ten to the decimals) is a 64-bit amount; it then leaves a mint
      with both authorities revoked whose whole supply sits in the payer's
      account. */
  lemma CreateTokenOnFreshLedger(payer: Address, config: TokenConfig, net: CreateNet)
    requires net.fault.None?
    ensures var run := CreateToken(Empty, payer, config, net);
            run.outcome.Ok? <==> IsInteger(config.supply) && U64(IntValue(config.supply) * Pow10(config.decimals))
    ensures var run := CreateToken(Empty, payer, config, net);
            run.outcome.Ok? ==>
              && run.ledger.mint == Some(MintState(None, None, run.outcome.value.supply, config.decimals))
              && run.ledger.balance == Some(run.outcome.value.supply)
              && run.ledger.metadata.None?
  {
    PrepareOnFreshLedger(payer, config.decimals, net);
    if IsInteger(config.supply) {
      var amount := RawSupply(config).value;
      FinishAfterPrepare(Prepared(payer, config.decimals), payer, amount, net);
    }
  }

  /** A supply that is not a whole number (for example 1.5) makes creation
      fail after the mint and the account exist: the mint is left on chain
      with an empty supply and both authorities still held by the payer. */
  lemma FractionalSupplyLeavesLiveMint(payer: Address, config: TokenConfig, net: CreateNet)
    requires net.fault.None?
    requires !IsInteger(config.supply)
    ensures var run := CreateToken(Empty, payer, config, net);
            && run.outcome == Err(BigIntRangeError(config.supply))
            && run.ledger.mint == Some(MintState(Some(payer), Some(payer), 0, config.decimals))
            && run.ledger.balance == Some(0)
  {
    PrepareOnFreshLedger(payer, config.decimals, net);
  }

  /** A whole supply whose raw amount does not fit in 64 bits makes the
      supply instruction fail after the mint and the account exist: the mint
      is left on chain with an empty supply and both authorities held. */
  lemma OversizedSupplyLeavesLiveMint(payer: Address, config: TokenConfig, net: CreateNet)
    requires net.fault.None?
    requires IsInteger(config.supply) && IntValue(config.supply) * Pow10(config.decimals) > MaxU64
    ensures var run := CreateToken(Empty, payer, config, net);
            && run.outcome == Err(AmountOutOfRange)
            && run.completed == 2
            && run.ledger == Prepared(payer, config.decimals)
  {
    PrepareOnFreshLedger(payer, config.decimals, net);
    var ops := FinishOps(payer, RawSupply(config).value);
    assert Apply(Prepared(payer, config.decimals), ops[0]) == Err(AmountOutOfRange);
  }

  /** A supply of 100 000 000 000 with 9 decimals is 10^20 raw units,
      beyond the 64-bit limit, though both options pass their checks. */
  lemma HundredBillionWithNineDecimalsOverflows()
    ensures IntValue(FromInt(100000000000)) * Pow10(9) > MaxU64
  {
    assert Pow10(9) == 1000000000;
  }

  // ---------------------------------------------------------------------
  // verifyAuthorities and estimateCost
  // ---------------------------------------------------------------------

  /** The mint's two authorities as `verifyAuthorities` reports them (None when revoked). */
  datatype AuthorityCheck = AuthorityCheck(mintAuthority: Option<Address>, freezeAuthority: Option<Address>)

  /** `verifyAuthorities`: one `getMint` read. The read fails with its own
      RPC error (`readFault`) or, for a missing mint, with "account not found". */
  function VerifyAuthorities(l: Ledger, readFault: Option<string>): (r: Result<AuthorityCheck, string>)
    ensures r.Ok? <==> readFault.None? && l.mint.Some?
    ensures readFault.Some? ==> r == Err(readFault.value)
    ensures r.Ok? ==> r.value.mintAuthority == AuthorityOf(l.mint.value, MintTokens)
                      && r.value.freezeAuthority == AuthorityOf(l.mint.value, FreezeAccount)
  {
    if readFault.Some? then Err(readFault.value)
    else
      match l.mint
      case None => Err(AccountNotFound)
      case Some(m) => Ok(AuthorityCheck(m.mintAuthority, m.freezeAuthority))
  }

  /** After a successful creation both authorities read back as revoked,
      whatever ledger creation started from, and they stay revoked under any
      later instructions. */
  lemma CreatedMintIsRevoked(l: Ledger, payer: Address, config: TokenConfig, net: CreateNet, later: seq<Op>)
    requires CreateToken(l, payer, config, net).outcome.Ok?
    ensures VerifyAuthorities(CreateToken(l, payer, config, net).ledger, None) == Ok(AuthorityCheck(None, None))
    ensures var after := ApplyAll(CreateToken(l, payer, config, net).ledger, later);
            after.Ok? ==> VerifyAuthorities(after.value, None) == Ok(AuthorityCheck(None, None))
  {
    var run := CreateToken(l, payer, config, net);
    var prepare := Send(l, PrepareOps(payer, config.decimals), 0, net);
    FinishRevokes(prepare.ledger, payer, RawSupply(config).value, net);
    RevokedAuthorityIsPermanent(run.ledger, later, MintTokens);
    RevokedAuthorityIsPermanent(run.ledger, later, FreezeAccount);
  }

  /** A rough fee per transaction, in lamports. */
  const FeePerTransaction: nat := 5000

  datatype CostEstimate = CostEstimate(rent: nat, fees: nat, total: nat)

  /** `estimateCost`: the mint's rent exemption (asked of the node, so a
      parameter here) plus one fee for each instruction `createToken` sends. */
  function EstimateCost(rentExemption: nat): (c: CostEstimate)
    ensures c.rent == rentExemption
    ensures forall payer, decimals, amount :: c.fees == FeePerTransaction * |CreateOps(payer, decimals, amount)|
    ensures c.total == c.rent + c.fees
  {
    CostEstimate(rentExemption, 5000 * 5, rentExemption + 5000 * 5)
  }
}

=== FILE: token_validation.dfy ===
/** The four token-parameter range checks. */
module TokenValidation {
  import opened JsNumber
  import Text

  /** `validateName`: 1 to 32 UTF-16 code units. A name of up to 16
      characters always fits, and without astral characters (emoji) the
      limit is exactly 32 characters. */
  function ValidateName(name: string): (ok: bool)
    ensures ok ==> 1 <= |name| <= 32
    ensures 1 <= |name| <= 16 ==> ok
    ensures (forall i :: 0 <= i < |name| ==> !Text.Astral(name[i])) ==> (ok <==> 1 <= |name| <= 32)
  {
    Text.Utf16Length(name) >= 1 && Text.Utf16Length(name) <= 32
  }

  /** `validateSymbol`: 1 to 10 UTF-16 code units; up to 5 characters always
      fit, and without astral characters the limit is exactly 10. */
  function ValidateSymbol(symbol: string): (ok: bool)
    ensures ok ==> 1 <= |symbol| <= 10
    ensures 1 <= |symbol| <= 5 ==> ok
    ensures (forall i :: 0 <= i < |symbol| ==> !Text.Astral(symbol[i])) ==> (ok <==> 1 <= |symbol| <= 10)
  {
    Text.Utf16Length(symbol) >= 1 && Text.Utf16Length(symbol) <= 10
  }

  /** `validateDecimals`: an integer from 0 to 9. */
  function ValidateDecimals(decimals: Number): (ok: bool)
    ensures ok <==> IsInteger(decimals) && 0 <= IntValue(decimals) <= 9
  {
    IsInteger(decimals) && !Below(decimals, 0) && !Above(decimals, 9)
  }

  /** `validateSupply`: a number that is not NaN and is above zero. */
  function ValidateSupply(supply: Number): (ok: bool)
    ensures ok <==> supply == Infinity || (supply.Dec? && supply.digits > 0)
  {
    !supply.NaN? && Above(supply, 0)
  }

  /** The empty string is neither a name nor a symbol, and every symbol is also a valid name. */
  lemma SymbolsAreNames(s: string)
    ensures !ValidateName("") && !ValidateSymbol("")
    ensures ValidateSymbol(s) ==> ValidateName(s)
  {
  }

  /** On whole numbers the decimals check accepts exactly 0 through 9. */
  lemma DecimalsAcceptExactlyDigits(d: int)
    ensures ValidateDecimals(FromInt(d)) <==> 0 <= d <= 9
  {
  }

  /** A fractional decimals value is rejected even inside the range. */
  lemma FractionalDecimalsRejected()
    ensures !ValidateDecimals(Dec(25, 1))
  {
  }

  /** Lengths are counted as JavaScript counts them: each emoji outside the
      Basic Multilingual Plane takes two of the 32 places of a name, so 16
      of them fit and 17 do not, although 17 characters would. */
  lemma EmojiCountTwice()
    ensures ValidateName(seq(16, _ => '\U{1F438}'))
    ensures !ValidateName(seq(17, _ => '\U{1F438}'))
    ensures ValidateName(seq(32, _ => 'a'))
  {
  }
}

=== FILE: wrappers.dfy ===
/** Optional values and success/error results, used wherever the tool has
    `undefined`/`null` or an exception path. */
module Wrappers {

  /** `undefined` / `null` (None) or a present value (Some). */
  datatype Option<+T> = None | Some(value: T) {

    /** The present value, or `default` when absent (JavaScript's `??`). */
    function GetOr(default: T): T {
      match this
      case Some(v) => v
      case None => default
    }
  }

  /** A completed operation (Ok) or the error it raised (Err). */
  datatype Result<+T, +E> = Ok(value: T) | Err(error: E)
}
